=== FILE: README.md ===
# bayesdesign in Dafny

A model of the core of **bayesdesign**: brute-force Bayesian experiment design on discrete grids.

Most of the code lives in `src/bed/grid.py`, which defines three things:

- **`Grid`**: named one-dimensional axes. An optional non-negative constraint can thin out cells of the axes it names. It keeps the surviving cells on the first constrained axis, each with its constraint value as a weight.
- **`PermutationInvariant`**: the constraint that keeps one ordering of each tuple of identical axes. Each kept tuple is weighted by the number of orderings it stands for.
- **`GridStack`**: a context manager that stacks several grids into one larger array for the length of a `with` block. It records in each grid how many stacked axes come before and after its own.

`src/bed/design.py` defines `ExperimentDesigner`:

- It tabulates a likelihood P(y|θ,ξ) over the stack features × designs × parameters.
- Given a prior P(θ), it computes the prior entropy H0, the marginal P(y|ξ), the posterior P(θ|y,ξ), the information gain IG(y,ξ) and the expected information gain EIG(ξ).
- It returns the design where EIG is largest.
- One preallocated buffer holds, in turn, the joint, the posterior and the terms post·log2 post. It is left holding the posterior.

The Dafny modules follow that structure:

| module | file | what it holds |
|---|---|---|
| `Errors` | errors.dfy | one `Error` variant per exception the code raises; `Result` and `Option` |
| `Shapes` | shapes.dfy | numpy arrays as a shape plus row-major flat data (`Tensor`), row-major `Flatten`/`Unflatten`, `Sum` over an index range |
| `Indexing` | indexing.dfy | numpy basic indexing by a tuple of slices and integers (`Select`) |
| `Reduce` | reduce.dfy | `np.sum` over one block of dimensions with per-cell weights (`BlockSum`), and over a set of named dimensions with keepdims (`ReduceAxes`) |
| `GridLayout` | grid_layout.dfy | `Grid.__init__`: the axes, the constraint check, the collapse of the constrained axes (`BuildLayout`) |
| `GridIndex` | grid_index.dfy | where a cell of a constrained grid lies in the expanded grid; first index of a minimum or maximum |
| `Grids` | grids.dfy | `class Grid`: its stack offset and pad as mutable fields, and `axis`, `expand`, `sum`, `normalize`, `extent`, `index`, `getmax` |
| `Perm` | perm.dfy | `PermutationInvariant` and its inner `nperm` |
| `Stacks` | stacks.dfy | `class GridStack`: `__enter__`, `__exit__`, `at` |
| `Bayes` | bayes.dfy | the marginal, entropy, information gain and expected information gain as functions of the likelihood and the prior |
| `Design` | design.dfy | `class ExperimentDesigner`, whose buffer is an `array<real>` updated in place by the same steps as the source |

Main results proved:

- The exceptions of the constructor, `sum`, `index`, `at`, `getmax`, `calculateEIG`, `get_posterior` and the other operations are modelled as error values, in the order the source raises them. This includes the KeyError or IndexError when `np.squeeze` drops a constrained axis of length one, and the IndexError of `get_posterior` at a position outside the stacked array. Division by zero, which numpy turns into inf or NaN, is excluded by preconditions (see Left out).
- `expand` followed by restriction to the kept cells gives the values back. No two kept cells land on the same expanded cell.
- `normalize` leaves sums of one. A named sum keeps the total.
- `nperm` computes, for a sorted row, k! over the product of the factorials of the number of times each index occurs, and zero for an unsorted row. The product of run factorials the source builds is proved equal to that product.
- Inside a `GridStack` no two axes share a stacked position, so `at` places every coordinate. A grid listed twice with axes makes `__enter__` fail.
- The buffer's staged `log2`, `*= likelihood`, `*= prior`, `/= post_norm` computes exactly post·log2 post.
- After `calculateEIG` the buffer holds the posterior, normalized over the parameters. The marginal is normalized over the features whenever the likelihood and the prior are.
- The posterior at one features and designs point is itself a normalized prior. With a positive likelihood and a prior with no negative value, the posterior has no negative value and every marginal computed from a point of it is positive. So `update` can feed it back into `calculateEIG`, again and again.
- Marginalizing over no nuisance parameter reproduces `calculateEIG`.

The tests under `tests/` call a later interface: likelihood functions, `subgrid_shape`, `keep__` constraints and `offsets`. That interface is not in the source files modelled here, and this model follows `src/bed/grid.py` and `src/bed/design.py` as written.

## Model

| member | source | states |
|---|---|---|
| Shapes.Unflatten | src/bed/grid.py:175 | `np.unravel_index`: every flat position of an array gives an in-range multi-index of its shape |
| Shapes.FlattenUnflatten | src/bed/grid.py:175 | unravelling then ravelling a flat position gives it back |
| Shapes.UnflattenFlatten | src/bed/grid.py:100-105 | ravelling then unravelling an in-range multi-index gives it back, so `np.ndindex` order is row-major order |
| Shapes.FlattenBound | src/bed/grid.py:100-105 | an in-range multi-index ravels to a position inside the array |
| Shapes.FlattenInjective | src/bed/grid.py:100-105 | distinct in-range multi-indices ravel to distinct positions |
| Shapes.ProdConcat | src/bed/design.py:25 | the size of a stacked shape is the product of the sizes of its parts |
| Indexing.Select | src/bed/design.py:153 | `posterior[loc]` at a location inside the array: the result's shape keeps exactly the dimensions taken whole (`slice(None)`); its one caller checks the location first (see Left out) |
| Indexing.SelectCell | src/bed/design.py:153 | element o of a selection is the source element at the fixed positions, filled with o's multi-index in the free dimensions |
| Indexing.SelectAll | src/bed/design.py:153 | indexing with a whole slice in every dimension returns the array unchanged |
| Indexing.SelectedSlice | src/bed/design.py:150-153 | fixing the leading (features, designs) dimensions and taking the parameters whole selects one contiguous row-major block of the parameters' size |
| Indexing.FillInRange | src/bed/design.py:153 | positions in range, filled with an in-range index of the kept dimensions, give an in-range index of the whole array |
| Reduce.BlockSumCell | src/bed/grid.py:130-136 | each cell of a weighted sum over a block of dimensions is the weighted sum of the elements along that block, with the other dimensions fixed |
| Reduce.BlockSumNormalized | src/bed/grid.py:148-152 | dividing an array by its own block sums leaves block sums of one |
| Reduce.NormIndexPos | src/bed/grid.py:151 | a keepdims block sum broadcasts the sum of a cell's block onto that cell |
| Reduce.ReduceAxis | src/bed/grid.py:146 | `np.sum(keepdims=True)` over one dimension leaves that dimension with length one and the others unchanged |
| Reduce.ReduceAxes | src/bed/grid.py:146 | summing over a list of dimensions with keepdims sets exactly those dimensions to length one |
| Reduce.SqueezeProd | src/bed/grid.py:146 | dropping the summed length-one dimensions (keepdims=False) keeps the number of elements |
| Reduce.BlockSumTotal | src/bed/grid.py:130-136 | summing over a block of dimensions keeps the grand total |
| Reduce.ReduceAxesTotal | src/bed/grid.py:146 | summing over any named dimensions keeps the grand total |
| GridLayout.OffsetsUpTo | src/bed/grid.py:41-51 | the constrained offsets are exactly the positions whose names the constraint uses, in increasing grid order |
| GridLayout.OffsetsPrefix | src/bed/grid.py:41-51 | the offsets found over a prefix of the names are a prefix of those found over a longer one |
| GridLayout.ConstraintEval | src/bed/grid.py:35-36 | the constraint is evaluated once per cell of the constrained axes |
| GridLayout.NonZero | src/bed/grid.py:54-58 | the kept cells are exactly the cells whose constraint value is non-zero, in increasing order |
| GridLayout.KeptIndices | src/bed/grid.py:58 | `constraint_eval.nonzero()`: for each constrained axis, the index of every kept cell along it |
| GridLayout.KeptWeightsPositive | src/bed/grid.py:37-38 | once negative values are rejected and zeros dropped, every weight is positive |
| GridLayout.KeptIndexBounds | src/bed/grid.py:58 | every recorded index lies inside its original axis |
| GridLayout.KeptTuplesDistinct | src/bed/grid.py:54-58 | no two kept cells have the same tuple of original indices |
| GridLayout.KeptTupleIs | src/bed/grid.py:58 | the tuple of recorded indices of kept cell k is the multi-index of that cell |
| GridLayout.UnflattenInjective | src/bed/grid.py:58 | distinct cells of the constrained axes have distinct multi-indices |
| GridLayout.CollapseAxes | src/bed/grid.py:41-51 | the loop over the names: unconstrained axes are unchanged; the first constrained axis gets the count of kept cells and the others length one; each constrained axis holds its values at the kept cells |
| GridLayout.OffsetsNonEmpty | src/bed/grid.py:52 | a constraint naming at least one axis has a first constrained offset |
| GridLayout.CollapseConstraint | src/bed/grid.py:39-61 | once the constraint is known non-negative and no constrained axis is squeezed away: fails with the IndexError of `constraint_offsets[0]` exactly when the constraint names no axis (older numpy; newer numpy raises ValueError earlier, from `nonzero` on the 0-d result at src/bed/grid.py:40, see Left out); otherwise gives a valid layout collapsed as the source does |
| GridLayout.EvaluateConstraint | src/bed/grid.py:34-61 | for parameters in any order, succeeds exactly when the constraint is non-negative everywhere, names an axis, and `np.squeeze` loses none of two or more constrained axes; fails with the squeeze error exactly when the values are non-negative and such an axis has length one; the layout is then valid and collapsed |
| GridLayout.ZipMapper | src/bed/grid.py:40 | `dict(zip(constraint_names, nonzero()))` as written: the i-th name of the constraint's signature is mapped to the i-th index array, and only names of the signature are keys |
| GridLayout.SignatureOrderMisaligned | src/bed/grid.py:35-50 | axes x = [0, 1] and y = [0, 1, 2] with a constraint declared `(y, x)` that keeps only x = 1, y = 0: the index arrays come in grid order as ([1], [0]), zip gives x the array [0] and y the array [1], so x would keep 0 instead of 1 |
| GridLayout.SignatureOrderPaired | src/bed/grid.py:35-50 | for that same input, every collapsed layout keeps x = 1 and y = 0: the model pairs each constrained axis with its own index array whatever order the signature uses |
| GridLayout.SqueezedExample | src/bed/grid.py:35-40 | axes x = [0] and y = [0, 1, 2] with the constraint x + y + 1: both axes are constrained and x has length one, so `np.squeeze` drops it and the grid is rejected |
| GridLayout.ApplyConstraint | src/bed/grid.py:27-61 | the first constraint argument that is not an axis is reported by name; otherwise the squeeze error exactly when two or more constrained axes include one of length one and the values are non-negative; success exactly when the constraint is accepted; each constrained axis is paired with its own index array (Findings) |
| GridLayout.ConstraintValid | src/bed/grid.py:39-61 | offsets, weights, indices and shapes built this way satisfy the constraint invariant |
| GridLayout.CollapsedLayout | src/bed/grid.py:39-61 | the layout built from the kept cells is valid and is the collapse of the original axes |
| GridLayout.BuiltValid | src/bed/grid.py:39-61 | the layout built from the kept cells is valid |
| GridLayout.BuiltCollapsed | src/bed/grid.py:39-61 | the layout built from the kept cells is the collapse of the original axes |
| GridLayout.BuildLayout | src/bed/grid.py:11-65 | `Grid.__init__`: the first non-1-D axis is reported; a non-function constraint and the first unknown argument name are rejected in the source's order; the squeeze error exactly when two or more constrained axes include one of length one; success exactly when every check passes; the layout is valid; without a constraint the axes and shape are the inputs; with one it is their collapse, with every constrained axis paired with its own index array whatever the order of the constraint's parameters (Findings) |
| GridIndex.IndexOf | src/bed/grid.py:113 | `names.index(name)`: the first position holding the name |
| GridIndex.LiftUpTo | src/bed/grid.py:101-104 | the constrained positions of the index are replaced by the recorded original indices of the kept cell; the others are unchanged |
| GridIndex.Origin | src/bed/grid.py:99-105 | the expanded multi-index of a reduced cell is in range of the expanded shape |
| GridIndex.Target | src/bed/grid.py:99-105 | the expanded flat position of a reduced cell lies inside the expanded array |
| GridIndex.OriginFacts | src/bed/grid.py:101-104 | the expanded index reads the kept cell's recorded indices on the constrained axes and the reduced index elsewhere |
| GridIndex.SameKeptCell | src/bed/grid.py:101-104 | two reduced cells with the same expanded index lie on the same kept cell |
| GridIndex.OriginInjective | src/bed/grid.py:100-105 | distinct reduced cells have distinct expanded indices |
| GridIndex.TargetInjective | src/bed/grid.py:100-105 | no two reduced cells are written to the same expanded position |
| GridIndex.ArgMin | src/bed/grid.py:168 | `np.argmin`: a position of the least value, the first one if several tie |
| GridIndex.ArgMax | src/bed/grid.py:175 | `np.argmax`: a position of the greatest value, the first one if several tie |
| GridIndex.MinOf | src/bed/grid.py:159 | `axis.min()`: a value of the axis no greater than any other |
| GridIndex.MaxOf | src/bed/grid.py:159 | `axis.max()`: a value of the axis no less than any other |
| Grids.FitsSplit | src/bed/grid.py:123-129 | an array that passes the shape check is the dimensions before the grid's, the grid's shape, and those after |
| Grids.DivideBlocks | src/bed/grid.py:151 | `values /= norm` in place: every element times its block's norm gives the old element |
| Grids.NormalizedTotal | src/bed/grid.py:148-152 | an array divided by its own grid sums has grid sums of one |
| Grids.Positions | src/bed/grid.py:141-143 | each named axis maps to its stacked position, the grid's offset plus its index among the names |
| Grids.PositionsDistinct | src/bed/grid.py:141-146 | the positions are distinct exactly when the names are, so np.sum sees a repeated axis exactly when a name is repeated |
| Grids.PositionsInRange | src/bed/grid.py:141-143 | on an array that passes the shape check, every position is a dimension of the array |
| Grids.NamedSum | src/bed/grid.py:146 | `np.sum` over the named positions: the totals of ReduceAxes, with the summed dimensions kept as length one or dropped |
| Grids.Grid.constructor | src/bed/grid.py:62-65 | a new grid is not stacked: offset and pad are zero |
| Grids.Grid.Axis | src/bed/grid.py:108-116 | succeeds exactly for a name of the grid; the result is the stack offset plus the name's first position |
| Grids.Grid.Expand | src/bed/grid.py:87-106 | fails exactly on a shape other than the grid's; without a constraint returns the values; with one writes every value at its kept cell's expanded position and NaN everywhere else; restricting the result to the kept cells gives the values back |
| Grids.Grid.Scatter | src/bed/grid.py:97-105 | the loop of `expand`: every value at its kept cell's expanded position, NaN at every cell not kept |
| Grids.Grid.ExpandedIndex | src/bed/grid.py:99-104 | the inner loop of `expand`: the expanded position of one reduced cell |
| Grids.Grid.Extent | src/bed/grid.py:154-159 | KeyError for an unknown name, ValueError for an empty axis; otherwise the least and greatest values of the axis |
| Grids.Grid.Index | src/bed/grid.py:161-169 | an unknown name fails as in `axis`, an empty axis as `argmin` does; otherwise the stacked axis position and the first index of the value closest to the given one |
| Grids.Grid.Sum | src/bed/grid.py:118-136 | fails exactly when the dimensions at the stack offset are not the grid's shape; otherwise the grid's dimensions are summed with constraint weights, and dropped or kept with length one |
| Grids.Grid.Total | src/bed/grid.py:130-136 | the weighted sum over the grid's dimensions has one value per cell of the dimensions before and after the grid |
| Grids.Grid.SumAxes | src/bed/grid.py:118-146 | shape check first, then NotImplementedError under a constraint, then an unknown or repeated name; otherwise each named axis is summed at its stacked position |
| Grids.Grid.Normalize | src/bed/grid.py:148-152 | fails and leaves the array untouched on a shape mismatch; otherwise divides in place by the keepdims grid sum, after which every grid sum is one |
| Grids.Grid.DivideBySum | src/bed/grid.py:150-151 | `values /= self.sum(values, keepdims=True)`, after which every grid sum is one |
| Grids.Grid.TotalBounds | src/bed/grid.py:151 | every cell of an array that fits is broadcast against a cell of its keepdims total |
| Grids.Grid.DividedTotal | src/bed/grid.py:150-152 | an array divided by its keepdims grid total has grid totals of one |
| Grids.Grid.GetMax | src/bed/grid.py:171-183 | fails on a shape other than the grid's or an empty array; otherwise returns, for every axis, the axis value at the first position of the largest value; constrained axes read the index of the first constrained axis |
| Grids.Targets | src/bed/grid.py:100-105 | the expanded positions of all reduced cells lie in the expanded array and are pairwise distinct |
| Grids.RestrictExpanded | src/bed/grid.py:87-106 | reading the expanded array back at the kept cells gives the reduced values: `expand` loses nothing |
| Grids.MaxIndices | src/bed/grid.py:175-179 | the indices `getmax` reads: unchanged without a constraint, the first constrained axis's index copied onto the other constrained axes with one |
| Grids.AsWrittenUnpadded | src/bed/grid.py:133-135 | with nothing stacked after the grid, the weights as written line up with the grid's own cells |
| Grids.GridWeightPadded | src/bed/grid.py:133-135 | the intended weight of an element does not depend on the axes stacked after the grid |
| Grids.CellWeightIsGridWeight | src/bed/grid.py:133-135 | the weight Grid.Sum gives a cell is the intended weight at any place in any stack |
| Grids.WeightsPositive | src/bed/grid.py:37-55 | every cell of a valid grid has a positive weight: one without a constraint, a kept non-zero constraint value with one |
| Grids.PaddedWeightsMisaligned | src/bed/grid.py:133-135 | an input where the weights as written differ from the intended ones: 2 instead of 3 |
| Perm.RunLength | src/bed/grid.py:207-210 | `nrun` after position i is between 1 and i + 1 |
| Perm.RunProduct | src/bed/grid.py:211 | `denom` is at least one, so `nfact / denom` is defined |
| Perm.Count | src/bed/grid.py:201-212 | how many entries of the row equal an index, at most the row's length |
| Perm.Without | src/bed/grid.py:201-212 | the row with every occurrence of an index removed: shorter by that index's count, and free of it |
| Perm.CountFactorials | src/bed/grid.py:211 | the product, over the distinct indices of the row, of the factorial of each one's count: at least one |
| Perm.LastRunRemoved | src/bed/grid.py:207-210 | in a sorted row the last run is every occurrence of its index: removing them leaves the rest of the row, and its length is that index's count |
| Perm.LastRunFactor | src/bed/grid.py:211 | `denom` at the end of the row is `denom` before the last run times the factorial of its length |
| Perm.RunProductCounts | src/bed/grid.py:207-211 | for a sorted row the source's product of run factorials equals the product of the factorials of the index counts |
| Perm.WeightCounts | src/bed/grid.py:201-212 | the weight of a sorted row is k! over the product of the factorials of its index counts; an unsorted row weighs zero |
| Perm.ThreeAxesRow | src/bed/grid.py:201-212 | the row (0, 0, 1) has counts 2 and 1, so it stands for 3!/2! = 3 orderings |
| Perm.Row | src/bed/grid.py:195-198 | every row of the meshgrid table is a tuple of indices below the axis size |
| Perm.NPerm | src/bed/grid.py:201-212 | `nperm(row)`: for a sorted row, k! divided by the product of the factorials of the number of times each index occurs; zero for an unsorted row |
| Perm.AllIdentical | src/bed/grid.py:188-192 | true exactly when every argument equals the first |
| Perm.PermutationInvariant | src/bed/grid.py:186-214 | fails with no argument and exactly when two arguments differ; otherwise one weight per index tuple in row-major order, the weight of that tuple |
| Perm.ConstantRunLength | src/bed/grid.py:207-208 | in a row of one repeated index the run grows by one at every step |
| Perm.ConstantRunProduct | src/bed/grid.py:211 | in a row of one repeated index, denom is n! |
| Perm.ConstantRowWeight | src/bed/grid.py:201-212 | a row of one repeated index has weight one |
| Perm.StrictRunProduct | src/bed/grid.py:209-211 | in a strictly increasing row, denom stays one |
| Perm.StrictRowWeight | src/bed/grid.py:201-212 | a strictly increasing row stands for all k! orderings |
| Perm.DescentWeight | src/bed/grid.py:205-206 | a row with a descent has weight zero |
| Perm.TwoAxesOfThree | src/bed/grid.py:186-214 | two identical axes of three values: weights 1, 2 and 0 for sample rows, and the six kept rows weigh nine, the number of all pairs |
| Stacks.AxesSplit | src/bed/grid.py:232-241 | the axis count of a range of grids splits at any middle grid |
| Stacks.LaterGridAfter | src/bed/grid.py:232-241 | a grid's axes end before any later grid's axes begin |
| Stacks.AliasedEntry | src/bed/grid.py:233-236 | a grid met again earlier in the stack with offset and pad still zero has no axes before it |
| Stacks.FirstOwner | src/bed/grid.py:253-258 | the first grid, in stack order, that has the named axis, and no earlier grid has it |
| Stacks.Missing | src/bed/grid.py:260 | the names no grid has; empty exactly when every coordinate has an owner |
| Stacks.GridStack.constructor | src/bed/grid.py:220-221 | the stack holds the grids given |
| Stacks.GridStack.Enter | src/bed/grid.py:229-242 | `__enter__`: fails only with the duplicate-grid assertion; on success every grid's offset and pad are the axis counts before and after it; on distinct grids it succeeds exactly when no grid was stacked on entry; always fails when a grid with axes is listed twice |
| Stacks.GridStack.Place | src/bed/grid.py:237-241 | one step of `__enter__`: grid i, not stacked yet, gets the axis counts after and before it as pad and offset, so it and every grid after it know their place |
| Stacks.GridStack.ReEntry | src/bed/grid.py:233-241 | placing again a grid that is also later in the stack writes the same offset and pad |
| Stacks.GridStack.NoAliasedAxes | src/bed/grid.py:233-236 | after a successful entry, a grid listed twice has no axes |
| Stacks.GridStack.Exit | src/bed/grid.py:244-247 | `__exit__`: every grid's offset and pad are back to zero |
| Stacks.GridStack.CoveredWritten | src/bed/grid.py:257-259 | without position collisions, every coordinate found has its own index entry |
| Stacks.GridStack.PlaceStep | src/bed/grid.py:257-259 | one coordinate placed keeps the loop's facts about the index and the `found` flags |
| Stacks.GridStack.FoundLocatable | src/bed/grid.py:253-259 | once every owned coordinate is found, all of them can be located |
| Stacks.GridStack.SourcedFromCoords | src/bed/grid.py:259 | every fixed index entry is the position of some coordinate |
| Stacks.GridStack.At | src/bed/grid.py:249-263 | `at`: an index with one entry per stacked axis; it succeeds exactly when every coordinate is owned and can be looked up, and otherwise lists the missing names in order; each coordinate's axis holds the closest position and every other axis is taken whole; inside the `with` block the index is `StackIndex` of the grids and coordinates |
| Stacks.GridStack.LocateAll | src/bed/grid.py:250-259 | the pass over the grids: the flags record exactly the coordinates some grid owns, and each one has been written |
| Stacks.GridStack.MissingNames | src/bed/grid.py:260 | the names not found, in the order given |
| Stacks.GridStack.LocateIn | src/bed/grid.py:254-259 | the pass over one grid finds exactly the coordinates that grid is first to own |
| Stacks.GridStack.Visit | src/bed/grid.py:255-259 | one coordinate: looked up in its owner and written at its axis, or the lookup's error |
| Stacks.StackPosApart | src/bed/grid.py:229-259 | with the grids laid out one after another, two different names owned by some grid sit at different stacked positions |
| Stacks.EntryOf | src/bed/grid.py:249-263 | in `StackIndex`, the entry at a coordinate's stacked position is the position along its axis closest to its value, first on ties |
| Stacks.EntryNone | src/bed/grid.py:250-252 | in `StackIndex`, a position no coordinate lands on is taken whole |
| Stacks.IndexIs | src/bed/grid.py:161-169 | `index` on a grid that has the name: an error exactly on an empty axis, otherwise the offset plus the name's position and the argmin of the distances |
| Stacks.StackedLookup | src/bed/grid.py:229-241 | a grid placed after the grids before it looks a name up at its `StackIndex` position and at the closest point of its axis |
| Stacks.AtIsStackIndex | src/bed/grid.py:249-263 | inside the `with` block, what `at` returns is exactly `StackIndex` |
| Stacks.StackedLocatable | src/bed/grid.py:229-259 | inside the `with` block, every coordinate some grid owns can be looked up as soon as the axis it names is non-empty: positions fall inside the stack, so the only failure `at` has left is a name no grid has |
| Stacks.IndexIsStackIndex | src/bed/grid.py:249-263 | an index holding every coordinate's closest point at its stacked position and nothing elsewhere is `StackIndex` |
| Stacks.StackedPositionsDistinct | src/bed/grid.py:229-259 | inside the `with` block, distinct names land on distinct stacked positions, inside the stacked array |
| Bayes.JointCell | src/bed/design.py:76-77 | `_buffer[:] = likelihood; _buffer *= prior`: cell (i, p) of the joint is the likelihood there times the prior of parameter cell p |
| Bayes.MarginalCell | src/bed/design.py:74-78 | the marginal at (y, ξ) is the weighted sum over θ of P(y\|θ,ξ) P(θ) |
| Bayes.LikelihoodCell | src/bed/design.py:33-34 | a likelihood normalized over the features sums to one at each design and parameter cell |
| Bayes.PriorTotal | src/bed/design.py:67-68 | a normalized prior has weighted total one and is not empty |
| Bayes.RowIsMarginal | src/bed/design.py:74-78 | the double sum taken one features row at a time is the weighted marginal |
| Bayes.ColumnIsPrior | src/bed/design.py:74-75 | summed over the features, each parameters column is the weighted prior |
| Bayes.RowsAreColumns | src/bed/design.py:74-75 | the double sum is the same by rows and by columns |
| Bayes.FeaturesCell | src/bed/design.py:108 | cell ξ of a features sum is the weighted sum of the features column |
| Bayes.MarginalNormalized | src/bed/design.py:47-49 | with a likelihood normalized over the features and a normalized prior, the marginal is normalized over the features at every design |
| Bayes.JointNonNegative | src/bed/design.py:76-77 | a likelihood and a prior with no negative value give a joint with none |
| Bayes.PriorSupport | src/bed/design.py:67-68 | a normalized prior with no negative value is positive at some parameter cell |
| Bayes.MarginalTerm | src/bed/design.py:74-78 | each term of the marginal's sum over θ is non-negative, and positive where the likelihood and the prior are |
| Bayes.MarginalRowSum | src/bed/design.py:78 | cell (y, ξ) of the marginal is the weighted sum over θ of the joint |
| Bayes.MarginalRowSign | src/bed/design.py:74-78 | a marginal cell is non-negative, and positive when the likelihood is positive and the prior is positive somewhere |
| Bayes.MarginalPositive | src/bed/design.py:74-85 | with a positive likelihood and a normalized prior with no negative value, every marginal cell is positive, so `_buffer /= post_norm` never divides by zero |
| Design.CopyInto | src/bed/design.py:76 | `_buffer[:] = likelihood`: the buffer becomes the values |
| Design.ScaleByPrior | src/bed/design.py:77 | `_buffer *= prior` broadcast over the parameters: the buffer becomes the joint of its old contents |
| Design.MultiplyBy | src/bed/design.py:93 | `_buffer *= likelihood`: element-by-element product with the old contents |
| Design.LogInPlace | src/bed/design.py:92 | `np.log2(_buffer, out=_buffer)`: the buffer becomes the logarithm of its old contents |
| Design.AllOne | src/bed/design.py:67 | `np.allclose(x, 1)`, exactly: true when every element is one |
| Design.InfoTermCell | src/bed/design.py:92-95 | one cell of the staged computation: the result is post·log2 post |
| Design.DividedUnique | src/bed/design.py:101-104 | dividing the same joint by the same non-zero norms gives one result, so recomputing the posterior restores it |
| Design.StagedInfoTerm | src/bed/design.py:92-95 | one cell of the staged log2, multiply, divide is post·log2 post |
| Design.StagedInfoTerms | src/bed/design.py:90-95 | the staged `log2`, `*= likelihood`, `*= prior`, `/= post_norm` leave post·log2 post in every cell |
| Design.PosteriorNormalized | src/bed/design.py:83-85 | the joint divided by its sums over the parameters is normalized over the parameters at every features and designs cell |
| Design.StackedAt | src/bed/grid.py:123-125 | a grid stacked after some axes sees its own shape at its offset |
| Design.LeadingSum | src/bed/design.py:34 | `features.sum(likelihood)` with features first in the stack sums over the features block |
| Design.OwnSum | src/bed/design.py:67 | `parameters.sum(prior)` on an array of the grid's own shape is the grid's weighted total |
| Design.PriorEntropy | src/bed/design.py:66-70 | the prior must have the parameters' shape and sum to one, with the source's exceptions; H0 is then its entropy |
| Design.LocateInStack | src/bed/design.py:150-151 | `with GridStack(...) as stack: stack.at(...)`: the errors of `__enter__` and `at`; for distinct, unstacked grids whose named axes are non-empty it succeeds exactly when every name has a grid, and otherwise fails with `InvalidGridNames` listing the missing names; on success the index is `StackIndex` of features, designs and parameters for the coordinates (each named axis holds the point closest to its value, every other axis is taken whole) and all grids are unstacked again |
| Design.AtThenExit | src/bed/design.py:150-151 | the body of the `with` block and its exit: the grids end unstacked; with the named axes non-empty, `at` succeeds exactly when every name has a grid and otherwise reports the missing names; on success the index is `StackIndex` |
| Design.ThreeStacked | src/bed/design.py:72 | the offsets GridStack gives features, designs and parameters |
| Design.TwoStacked | src/bed/design.py:106 | features first in a stack of two has offset zero |
| Design.StackAxes | src/bed/grid.py:250 | the number of stacked axes is the sum of the grids' axis counts |
| Design.StackThree | src/bed/design.py:72 | `GridStack(features, designs, parameters).__enter__`: on success every grid knows its place; on distinct grids it succeeds exactly when none was stacked |
| Design.UnstackThree | src/bed/design.py:72 | `__exit__` of that stack: the three grids are unstacked |
| Design.StackTwo | src/bed/design.py:106 | `GridStack(features, designs).__enter__`: the same for two grids |
| Design.UnstackTwo | src/bed/design.py:106 | `__exit__` of that stack: both grids are unstacked |
| Design.PosteriorSigns | src/bed/design.py:76-85 | the joint divided by a marginal with no zero cell has no negative value when the likelihood and the prior have none |
| Design.DividedSigns | src/bed/design.py:85 | values with no negative one, divided by positive norms, stay non-negative |
| Design.SelectNonNegative | src/bed/design.py:153 | a selection from an array with no negative value has none |
| Design.SelectedBlockNormalized | src/bed/design.py:150-157 | an array normalized over its trailing block, selected at a point of its leading dimensions, is a block that sums to one |
| Design.SelectedRowSum | src/bed/design.py:153 | the selection keeps the weighted sum of its row |
| Design.RowWeightedSum | src/bed/design.py:153 | a row cut out of the flat data has that row's weighted sum |
| Design.UnconstrainedWeights | src/bed/grid.py:133-136 | a grid without a constraint weighs every cell one |
| Design.UnitBlockSum | src/bed/grid.py:133-136 | weights that are all one give plain sums |
| Design.UnitCell | src/bed/grid.py:133-136 | the same, for one cell |
| Design.WholeSum | src/bed/grid.py:130-136 | the one block sum of a whole array is its plain total |
| Design.MarginalPriorNormalized | src/bed/design.py:118-120 | summing a normalized prior over nuisance axes keeps it normalized |
| Design.NoNuisanceEntropy | src/bed/design.py:121 | on an unconstrained grid, the marginal entropy of an unreduced prior is calculateEIG's H0 |
| Design.NoNuisanceInfoGain | src/bed/design.py:128 | the marginal information gain of an unreduced posterior is calculateEIG's IG |
| Design.NamedPosition | src/bed/grid.py:141-143 | an axis named for marginalization is among the summed positions |
| Design.ReducedShapeMismatch | src/bed/design.py:118-121 | a prior summed with keepdims over a nuisance axis longer than one no longer passes the grid's shape check |
| Design.FitsWhole | src/bed/grid.py:123-126 | at offset zero a shape of the grid's rank passes the check exactly when it is the grid's |
| Design.SumAxesData | src/bed/design.py:124-126 | `parameters.sum(axis_names=...)` on an array that fits is the named reduction |
| Design.StackedSumAxes | src/bed/design.py:124-126 | `parameters.sum` over the nuisance axes of an array stacked after other grids succeeds, and is the array reduced over those axes (kept with length one) |
| Design.ExperimentDesigner.StackSize | src/bed/design.py:25 | the likelihood has NF·ND·NP cells |
| Design.ExperimentDesigner.constructor | src/bed/design.py:29-39 | keeps the grids and the likelihood; the buffer is a fresh zero array of the likelihood's size; not initialized |
| Design.ExperimentDesigner.Create | src/bed/design.py:9-39 | `__init__`: ValueError on a shape other than features + designs + parameters; the stacking assertion; the normalization assertion, raised exactly when the likelihood is not normalized over the features |
| Design.ExperimentDesigner.CheckLikelihood | src/bed/design.py:33-34 | with the grids stacked: fails exactly when the likelihood is not normalized over the features; leaves the grids unstacked |
| Design.ExperimentDesigner.FeaturesNormalized | src/bed/design.py:34 | `np.allclose(features.sum(likelihood), 1)` holds exactly when the likelihood is normalized over the features |
| Design.ExperimentDesigner.ParameterSum | src/bed/design.py:78 | `parameters.sum` over the stack is the weighted sum over the parameters block |
| Design.ExperimentDesigner.FeatureSum | src/bed/design.py:108 | `features.sum` over features × designs is the weighted sum over the features block |
| Design.ExperimentDesigner.SetPrior | src/bed/design.py:66-70 | keeps the prior; the shape and normalization errors as the source raises them; H0 is the prior's entropy |
| Design.ExperimentDesigner.FillJoint | src/bed/design.py:76-77 | the buffer holds the joint P(y\|θ,ξ) P(θ) |
| Design.ExperimentDesigner.DivideByNorm | src/bed/design.py:85 | `_buffer /= post_norm`: each element times its norm gives the old element |
| Design.ExperimentDesigner.FillPosterior | src/bed/design.py:102-104 | the buffer holds the joint divided by the norms |
| Design.ExperimentDesigner.JointMarginal | src/bed/design.py:78 | the parameters sum of the joint is the marginal |
| Design.ExperimentDesigner.JointAndMarginal | src/bed/design.py:76-85 | the marginal and post_norm are both the marginal; the buffer holds the posterior |
| Design.ExperimentDesigner.InfoTerms | src/bed/design.py:92-95 | from the posterior, the buffer comes to hold post·log2 post |
| Design.ExperimentDesigner.Tabulate | src/bed/design.py:74-104 | the marginal; the posterior left in the buffer; IG = H0 + the parameters sum of post·log2 post |
| Design.ExperimentDesigner.WithParameters | src/bed/design.py:72-104 | the same, with the three grids stacked then unstacked; fails only when they cannot be stacked |
| Design.ExperimentDesigner.WithFeatures | src/bed/design.py:106-108 | EIG = features sum of marginal·IG, with features and designs stacked then unstacked |
| Design.ExperimentDesigner.Evaluate | src/bed/design.py:72-111 | both `with` blocks, the initialized flag, and `designs.getmax(EIG)` |
| Design.ExperimentDesigner.CalculateEIG | src/bed/design.py:41-111 | `calculateEIG`: the errors in the source's order; the shape and normalization errors change nothing but the stored prior; once initialized the designer stays so; on success H0, marginal, posterior, IG and EIG are those of the likelihood and the prior; the result is the design that maximizes EIG; the posterior is normalized over the parameters and the marginal over the features |
| Design.ExperimentDesigner.GetPosterior | src/bed/design.py:146-153 | `get_posterior`: the errors of stacking and `at`; for distinct, unstacked grids whose named axes are non-empty (`Findable`) and names all owned, it succeeds exactly when `StackIndex` of the coordinates lies inside the stacked array, which is numpy's IndexError otherwise; with a name no grid has it fails with `InvalidGridNames` of the missing names; on success the index is `StackIndex` and the result is a copy of the posterior there, with the grids unstacked |
| Design.ExperimentDesigner.Located | src/bed/grid.py:250-263 | the index `at` builds for the coordinates on the stacked features, designs and parameters has one entry per dimension of the stacked array |
| Design.ExperimentDesigner.Update | src/bed/design.py:155-157 | the posterior at `StackIndex` of the coordinates, checked to be in range, becomes the new prior, and calculateEIG's results hold for it; for distinct, unstacked grids with every name owned on a non-empty axis, and a posterior there that keeps exactly the parameter axes and sums to one over them (`NextPriorAt`), it succeeds exactly when the designs grid has a cell; with a positive likelihood and a posterior with no negative value, the new posterior has none either and can be fed back again |
| Design.ExperimentDesigner.SelectedPosteriorNormalized | src/bed/design.py:155-157 | after any successful calculateEIG, the posterior at one features and designs point, taken whole over the parameters, has the parameters' shape and is normalized: it passes calculateEIG's checks as the next prior |
| Design.ExperimentDesigner.PosteriorNonNegative | src/bed/design.py:76-104 | after calculateEIG, the posterior in the buffer has no negative value when the likelihood and the prior have none |
| Design.ExperimentDesigner.RenormalizableWhenPositive | src/bed/design.py:146-157 | with a positive likelihood and a buffer with no negative value, every in-range point of the posterior that passes calculateEIG's checks gives a marginal with no zero cell |
| Design.ExperimentDesigner.UpdateReady | src/bed/design.py:155-157 | after calculateEIG succeeds with a positive likelihood and a prior with no negative value, `update` can hand any point of the posterior back to calculateEIG, and so on after every update |
| Design.ExperimentDesigner.PriorEntropyRejects | src/bed/design.py:118-121 | as written, the entropy of the marginal prior raises the shape error whenever a nuisance axis is longer than one |
| Design.ExperimentDesigner.PriorEntropyAsWritten | src/bed/design.py:118-121 | the entropy of the marginal prior as written: the shape error when the prior does not fit the grid, only the named-sum errors, and success only on an unconstrained grid with distinct known nuisance names |
| Design.ExperimentDesigner.MarginalStackAsWritten | src/bed/design.py:123-130 | the `with` block as written; on success the grids are unstacked |
| Design.ExperimentDesigner.CalculateMarginalEIGAsWritten | src/bed/design.py:113-131 | as written: RuntimeError before calculateEIG, and the shape error of the prior's entropy |
| Design.ExperimentDesigner.MarginalStack | src/bed/design.py:123-130 | the marginalized posterior, its information gain over what is left of the parameters, and the features-weighted EIG |
| Design.ExperimentDesigner.StackedMarginal | src/bed/design.py:124-130 | inside the stack: the posterior summed over the nuisance axes, its information gain, and the features-weighted EIG |
| Design.ExperimentDesigner.CalculateMarginalEIG | src/bed/design.py:113-131 | RuntimeError before calculateEIG and the named-sum errors; succeeds on any nuisance names of an unconstrained grid; the result is the EIG of the marginalized prior and posterior |
| Design.ExperimentDesigner.NoNuisance | src/bed/design.py:113-131 | with no nuisance parameter the marginal prior is the prior and the marginal EIG is calculateEIG's EIG |

## Left out

- **Floating point.** Arithmetic is on exact reals. `np.log2` is an uninterpreted function `log2` held by the designer, so the `-inf` of log2 0 and the NaN of 0·(−inf) are not modelled. `np.allclose(x, 1)` is exact equality with one.
- **Reflection and printing.** `inspect.isfunction` and `inspect.signature` become the `Constraint` datatype: not a function, or a callable with its parameter names and its value at a cell. `__str__`, `__repr__` and `describe` only format or print, and are left out. `Grid.__getattr__` hands axis values, reshaped for broadcasting, to the caller's likelihood code; it is left out too.
- **The `debug=True` cross-checks** of `calculateEIG` (src/bed/design.py:79-81, 86-88, 97-99) are left out. What they assert is proved instead, by `Design.DividedUnique`, `Design.PosteriorNormalized` and `Design.StagedInfoTerms`.
- src/bed/plot.py, scripts/validate_release.py, setup.py and the tests are not part of this model.
- **Arrays** are a shape plus row-major data. Constrained axes are held as their kept values. The broadcast shapes `[1]*offset + [-1] + ...` are not modelled; broadcasting is written out where the source relies on it.
- Indexing.Select: at a position past the end of a dimension it reads whatever cell the row-major position lands on (0.0 past the end of the data), where numpy raises IndexError. `Design.ExperimentDesigner.GetPosterior` checks the position first and returns that IndexError. Such positions arise: every constrained axis of a grid holds the k kept values (src/bed/grid.py:50), so `at` looks a later constrained axis up among them (src/bed/grid.py:166-168) and gets an index from 0 to k-1, while the stacked array holds that axis with length one.
- **PermutationInvariant.** `Perm.PermutationInvariant` returns the weights flat, in row-major order. Reshaping them to `np.broadcast(*args).shape` is not modelled; that shape has the same number of cells in the same order.
- **Dimensions of the constructor's inputs.** `GridLayout.BuildLayout` takes the numpy dimensions of each axis input as given. `np.atleast_1d` is not modelled beyond "a scalar or a 1-D array is one-dimensional".
- GridLayout.BuildLayout: requires distinct axis names, which Python keyword arguments always are.
- GridLayout.BuildLayout: accepts a single constrained axis of length one. There `np.squeeze` at src/bed/grid.py:40 leaves a 0-d array, which older numpy releases accept in `nonzero` and newer ones reject. The same holds for a constraint that names no axis and returns a scalar: newer numpy raises ValueError from `nonzero` at src/bed/grid.py:40, before the IndexError of `constraint_offsets[0]` at src/bed/grid.py:52 that the model reports. The model follows the older behaviour.
- Grids.Grid.Normalize: requires the grid sums to be non-zero where the shape fits. Dividing by zero gives inf or NaN in numpy, which is not modelled.
- Design.ExperimentDesigner.CalculateEIG: requires that a prior passing the normalization check gives a marginal with no zero cell. Otherwise numpy divides by zero at src/bed/design.py:85.
- Design.ExperimentDesigner.Update: requires `Renormalizable()`: every in-range point of the posterior that passes calculateEIG's checks gives a marginal with no zero cell. Otherwise numpy divides by zero at src/bed/design.py:85. `Design.ExperimentDesigner.UpdateReady` proves that this holds after every successful calculateEIG with a positive likelihood and a prior with no negative value. Update states the results of calculateEIG on the posterior, not the error cases of its second half.
- Design.ExperimentDesigner.CalculateEIG: rejects a prior whose shape is not exactly the parameters' shape. `parameters.sum(prior)` at src/bed/design.py:67 only checks the dimensions at the grid's offset, so a prior with extra trailing dimensions would get further in numpy before failing.
- Design.ExperimentDesigner.GetPosterior: says nothing of the ghost index when `at` fails part-way. Like `Design.LocateInStack` and `Design.ExperimentDesigner.Update`, it states when it succeeds only for distinct grids whose named axes are non-empty. Otherwise it states only which errors can occur: an empty named axis gives the `argmin` error `EmptySequence`.
- Design.ExperimentDesigner.MarginalStackAsWritten: states only that the grids are unstacked on success. Its numerical result is not specified, because as written it fails on every input with a nuisance axis longer than one (see Findings).
- **Stacking.** `Stacks.GridStack.Enter` and the designer model the `AssertionError` of a grid stacked twice as an error value. In Python that exception leaves the `with` statement without calling `__exit__`, so the grids placed before the assertion fired keep their new offsets and pads. The model returns the error and does not state those offsets.
- **Exceptions and state.** An exception raised inside a `with` block leaves the grids unstacked in Python, because `__exit__` runs. The model states the grids' offsets only on success.

## Findings

| source | as written | input that shows it | evidently intended | confidence | as-written member | corrected member |
|---|---|---|---|---|---|---|
| src/bed/grid.py:133-135 | `values * self.constraint_weights` broadcasts the weights against the trailing dimensions of `values`. When axes are stacked after the grid (`_stack_pad > 0`), the weights land on the padded axes instead of the grid's first constrained axis. When the trailing dimension they line up with has neither length k (the number of kept cells) nor 1, the product raises a broadcasting ValueError instead: a features grid with 3 kept cells stacked before parameters whose last axis has length 2 makes `ExperimentDesigner.__init__` fail at src/bed/design.py:34. | A grid with one axis constrained to two kept cells of weights 1 and 2, stacked before a grid with one axis of length 2, summing an array of ones: the sum at the second grid's index 0 is 2 as written and 3 with the grid's own weights. | Each element is weighted by the kept cell along the grid's own first constrained axis, whatever is stacked before or after (`Grids.CellWeightIsGridWeight`, used by `Grids.Grid.Sum`). | not executed | Grids.PaddedWeightsMisaligned | Grids.CellWeightIsGridWeight |
| src/bed/grid.py:40 | `zip(constraint_names, nonzero())` pairs the parameters in the order of the constraint's signature with index arrays in the grid's axis order. When the two orders differ, each constrained axis reads another axis's indices: wrong kept values, or an IndexError when the other axis is longer. | Axes x = [0, 1] and y = [0, 1, 2] with a constraint declared `lambda y, x` that is one only at x = 1, y = 0: the index arrays are ([1], [0]), zip gives x the array [0] and y the array [1], so the grid keeps x = 0, y = 1. | Each constrained axis takes the index array of its own grid position, as the keyword call of the constraint already does for its values. | not executed | GridLayout.SignatureOrderMisaligned | GridLayout.SignatureOrderPaired |
| src/bed/design.py:118-121 | The prior summed over the nuisance axes with `keepdims=True` keeps those axes with length one. It is then passed to `parameters.sum`, whose shape check at src/bed/grid.py:126 requires the grid's full shape. | Any nuisance axis with more than one value, for example parameters with axes of lengths 2 and 3 marginalized over the second: the reduced prior has shape (2, 1) and `parameters.sum` raises ValueError. | The entropy of the marginalized prior, and the information gain of the marginalized posterior, summed over the cells left after marginalizing. | not executed | Design.ExperimentDesigner.PriorEntropyRejects | Design.ExperimentDesigner.CalculateMarginalEIG |

=== FILE: bayes.dfy ===
/** The quantities ExperimentDesigner (src/bed/design.py) tabulates, as
    functions of the likelihood and the prior. Arrays are flat and row-major:
    the likelihood lives on features x designs x parameters (nF x nD x nP
    cells), the prior on the parameters. wF and wP are the weights Grid.sum
    gives the cells of the features and parameters grids (one without a
    constraint). `log2` is the base-two logarithm, left uninterpreted. */
module Bayes {
  import opened Shapes
  import opened Reduce

  /** P(y|theta,xi) P(theta): numpy broadcasts the prior over the trailing
      (parameter) dimensions of the likelihood. */
  function Joint(lik: seq<real>, prior: seq<real>): (j: seq<real>)
    ensures |j| == |lik|
  {
    seq(|lik|, k requires 0 <= k < |lik| => lik[k] * (if |prior| == 0 then 0.0 else prior[k % |prior|]))
  }

  /** P(y|xi): the joint summed over the parameters. */
  function Marginal(lik: seq<real>, prior: seq<real>, nFD: nat, wP: nat -> real): (m: seq<real>)
    ensures |m| == nFD
  {
    assert nFD * 1 == nFD;
    BlockSum(nFD, |prior|, 1, wP, Joint(lik, prior))
  }

  /** p log2 p, element by element. */
  function PLogP(p: seq<real>, log2: real -> real): (r: seq<real>)
    ensures |r| == |p|
  {
    seq(|p|, k requires 0 <= k < |p| => p[k] * log2(p[k]))
  }

  /** The entropy in bits of a distribution over the parameters. */
  function Entropy(prior: seq<real>, wP: nat -> real, log2: real -> real): real
  {
    -BlockSum(1, |prior|, 1, wP, PLogP(prior, log2))[0]
  }

  /** h0 added to every element (numpy broadcasting a scalar). */
  function Shifted(h0: real, s: seq<real>): (r: seq<real>)
    ensures |r| == |s| && forall i :: 0 <= i < |s| ==> r[i] == h0 + s[i]
  {
    seq(|s|, i requires 0 <= i < |s| => h0 + s[i])
  }

  /** IG(y, xi) = H0 + sum over theta of post log2 post. */
  function InfoGain(h0: real, post: seq<real>, nFD: nat, nP: nat, wP: nat -> real, log2: real -> real): (ig: seq<real>)
    ensures |ig| == nFD
  {
    assert nFD * 1 == nFD;
    Shifted(h0, BlockSum(nFD, nP, 1, wP, PLogP(post, log2)))
  }

  /** Element-by-element product of two arrays of the same shape. */
  function Times(a: seq<real>, b: seq<real>): (r: seq<real>)
    ensures |r| == |a|
  {
    seq(|a|, k requires 0 <= k < |a| => a[k] * At(b, k))
  }

  /** EIG(xi): IG averaged over the features with weights P(y|xi). */
  function ExpectedGain(marginal: seq<real>, ig: seq<real>, nF: nat, nD: nat, wF: nat -> real): (eig: seq<real>)
    ensures |eig| == nD
  {
    assert 1 * nD == nD;
    BlockSum(1, nF, nD, wF, Times(marginal, ig))
  }

  /** The likelihood is normalized over the features at every design and parameter. */
  predicate LikelihoodNormalized(lik: seq<real>, nF: nat, nD: nat, nP: nat, wF: nat -> real)
  {
    forall t :: 0 <= t < nD * nP ==> BlockSum(1, nF, nD * nP, wF, lik)[t] == 1.0
  }

  /** The prior is normalized over the parameters. */
  predicate PriorNormalized(prior: seq<real>, wP: nat -> real)
  {
    BlockSum(1, |prior|, 1, wP, prior)[0] == 1.0
  }

  predicate NonNegative(s: seq<real>)
  {
    forall k :: 0 <= k < |s| ==> s[k] >= 0.0
  }

  predicate Positive(s: seq<real>)
  {
    forall k :: 0 <= k < |s| ==> s[k] > 0.0
  }

  /** The joint of a likelihood and a prior with no negative value has none. */
  lemma JointNonNegative(lik: seq<real>, prior: seq<real>)
    requires NonNegative(lik) && NonNegative(prior)
    ensures NonNegative(Joint(lik, prior))
  {
    forall k | 0 <= k < |lik|
      ensures Joint(lik, prior)[k] >= 0.0
    {
      if |prior| > 0 {
        var l, q := lik[k], prior[k % |prior|];
        assert l >= 0.0 && q >= 0.0;
      }
    }
  }

  /** A normalized prior with positive cell weights and no negative value
      has a positive value somewhere. */
  lemma PriorSupport(prior: seq<real>, wP: nat -> real) returns (p: nat)
    requires NonNegative(prior) && PriorNormalized(prior, wP)
    requires forall j :: 0 <= j < |prior| ==> wP(j) > 0.0
    ensures p < |prior| && prior[p] > 0.0
  {
    var nP := |prior|;
    BlockSumCell(1, nP, 1, wP, prior, 0, 0);
    var w := (j: nat) => wP(j) * At(prior, Pos(0, j, 0, nP, 1));
    SumNonZeroTerm(nP, w);
    p :| p < nP && w(p) != 0.0;
    PosFlat(0, p, nP);
  }

  /** Every term of the sum over the parameters behind one marginal cell is
      non-negative, and the term at a parameter cell where the prior is
      positive is positive. */
  lemma MarginalTerm(lik: seq<real>, prior: seq<real>, nFD: nat, wP: nat -> real, i: nat, j: nat)
    requires |lik| == nFD * |prior| && i < nFD && j < |prior|
    requires NonNegative(lik) && NonNegative(prior) && wP(j) > 0.0
    ensures wP(j) * At(Joint(lik, prior), Pos(i, j, 0, |prior|, 1)) >= 0.0
    ensures Positive(lik) && prior[j] > 0.0 ==> wP(j) * At(Joint(lik, prior), Pos(i, j, 0, |prior|, 1)) > 0.0
  {
    var nP := |prior|;
    JointCell(lik, prior, i, j);
    PosBound(i, j, 0, nFD, nP, 1);
    assert nFD * nP * 1 == |lik|;
    var l, q := lik[i * nP + j], prior[j];
    assert At(Joint(lik, prior), Pos(i, j, 0, nP, 1)) == l * q;
    assert l * q >= 0.0;
  }

  /** Cell i of the marginal as a sum over the parameter cells. */
  lemma MarginalRowSum(lik: seq<real>, prior: seq<real>, nFD: nat, wP: nat -> real, i: nat) returns (g: nat -> real)
    requires i < nFD
    ensures Marginal(lik, prior, nFD, wP)[i] == Sum(|prior|, g)
    ensures forall j :: g(j) == wP(j) * At(Joint(lik, prior), Pos(i, j, 0, |prior|, 1))
  {
    assert i * 1 + 0 == i;
    BlockSumCell(nFD, |prior|, 1, wP, Joint(lik, prior), i, 0);
    g := (j: nat) => wP(j) * At(Joint(lik, prior), Pos(i, j, 0, |prior|, 1));
  }

  /** Cell i of the marginal: non-negative, and positive when the
      likelihood is positive and the prior is positive at parameter cell p. */
  lemma MarginalRowSign(lik: seq<real>, prior: seq<real>, nFD: nat, wP: nat -> real, i: nat, p: nat)
    requires |lik| == nFD * |prior| && i < nFD
    requires NonNegative(lik) && NonNegative(prior)
    requires forall j :: 0 <= j < |prior| ==> wP(j) > 0.0
    ensures Marginal(lik, prior, nFD, wP)[i] >= 0.0
    ensures p < |prior| && Positive(lik) && prior[p] > 0.0 ==> Marginal(lik, prior, nFD, wP)[i] > 0.0
  {
    var nP := |prior|;
    var g := MarginalRowSum(lik, prior, nFD, wP, i);
    forall j | 0 <= j < nP
      ensures g(j) >= 0.0
    {
      MarginalTerm(lik, prior, nFD, wP, i, j);
    }
    SumNonNegative(nP, g);
    if p < nP && Positive(lik) && prior[p] > 0.0 {
      MarginalTerm(lik, prior, nFD, wP, i, p);
      SumPositive(nP, g, p);
    }
  }

  /** With a positive likelihood, positive parameter weights and a
      normalized non-negative prior, every cell of the marginal is positive:
      calculateEIG never divides by zero. */
  lemma MarginalPositive(lik: seq<real>, prior: seq<real>, nFD: nat, wP: nat -> real)
    requires |lik| == nFD * |prior| && Positive(lik) && NonNegative(prior) && PriorNormalized(prior, wP)
    requires forall j :: 0 <= j < |prior| ==> wP(j) > 0.0
    ensures forall i :: 0 <= i < nFD ==> Marginal(lik, prior, nFD, wP)[i] > 0.0
  {
    var p := PriorSupport(prior, wP);
    forall i | 0 <= i < nFD
      ensures Marginal(lik, prior, nFD, wP)[i] > 0.0
    {
      MarginalRowSign(lik, prior, nFD, wP, i, p);
    }
  }

  /** Likelihood of features cell f, design cell d, parameter cell p. */
  function Lik(lik: seq<real>, f: nat, d: nat, p: nat, nD: nat, nP: nat): real
  {
    At(lik, Pos(f, d, p, nD, nP))
  }

  /** One marginal probability as a sum over the parameters. */
  lemma MarginalCell(lik: seq<real>, prior: seq<real>, nF: nat, nD: nat, wP: nat -> real, f: nat, d: nat)
    requires f < nF && d < nD && |prior| > 0
    ensures f * nD + d < nF * nD
    ensures Marginal(lik, prior, nF * nD, wP)[f * nD + d] ==
            Sum(|prior|, (p: nat) => wP(p) * (Lik(lik, f, d, p, nD, |prior|) * At(prior, p)))
  {
    var nP := |prior|;
    var i := f * nD + d;
    BlockIndex(f, d, nF, nD);
    assert i * 1 + 0 == i;
    BlockSumCell(nF * nD, nP, 1, wP, Joint(lik, prior), i, 0);
    JointColumn(lik, prior, wP, f, d, nD, i);
  }

  /** The joint's column i, weighted and summed over the parameters, read as
      likelihood times prior. */
  lemma JointColumn(lik: seq<real>, prior: seq<real>, wP: nat -> real, f: nat, d: nat, nD: nat, i: nat)
    requires i == f * nD + d
    ensures Sum(|prior|, (p: nat) => wP(p) * At(Joint(lik, prior), Pos(i, p, 0, |prior|, 1))) ==
            Sum(|prior|, (p: nat) => wP(p) * (Lik(lik, f, d, p, nD, |prior|) * At(prior, p)))
  {
    forall p: nat | p < |prior|
      ensures wP(p) * At(Joint(lik, prior), Pos(i, p, 0, |prior|, 1)) == wP(p) * (Lik(lik, f, d, p, nD, |prior|) * At(prior, p))
    {
      JointTerm(lik, prior, wP, f, d, nD, i, p);
    }
    SumExt(|prior|, (p: nat) => wP(p) * At(Joint(lik, prior), Pos(i, p, 0, |prior|, 1)),
                    (p: nat) => wP(p) * (Lik(lik, f, d, p, nD, |prior|) * At(prior, p)));
  }

  /** One term of that sum: the joint at (i, p) is the likelihood at
      (f, d, p) times the prior at p. */
  lemma JointTerm(lik: seq<real>, prior: seq<real>, wP: nat -> real, f: nat, d: nat, nD: nat, i: nat, p: nat)
    requires p < |prior| && i == f * nD + d
    ensures wP(p) * At(Joint(lik, prior), Pos(i, p, 0, |prior|, 1)) == wP(p) * (Lik(lik, f, d, p, nD, |prior|) * At(prior, p))
  {
    JointCell(lik, prior, i, p);
    assert Pos(f, d, p, nD, |prior|) == i * |prior| + p;
  }

  /** Element i * nP + p of the joint. */
  lemma JointCell(lik: seq<real>, prior: seq<real>, i: nat, p: nat)
    requires p < |prior|
    ensures Pos(i, p, 0, |prior|, 1) == i * |prior| + p
    ensures At(Joint(lik, prior), i * |prior| + p) == At(lik, i * |prior| + p) * At(prior, p)
  {
    var k := i * |prior| + p;
    assert Pos(i, p, 0, |prior|, 1) == (i * |prior| + p) * 1 + 0;
    DivModUnique(k, |prior|, i, p);
  }

  /** Cell (d, p) of the designs x parameters block inside features cell f. */
  lemma StackedPos(f: nat, d: nat, p: nat, nF: nat, nD: nat, nP: nat)
    ensures Pos(0, f, d * nP + p, nF, nD * nP) == Pos(f, d, p, nD, nP)
  {
    assert Pos(0, f, d * nP + p, nF, nD * nP) == f * (nD * nP) + (d * nP + p);
    assert (f * nD + d) * nP == f * nD * nP + d * nP;
  }

  /** Column (d, p) of the likelihood read as features x (designs x parameters). */
  lemma LikelihoodColumn(lik: seq<real>, nF: nat, nD: nat, nP: nat, wF: nat -> real, d: nat, p: nat)
    ensures Sum(nF, (f: nat) => wF(f) * At(lik, Pos(0, f, d * nP + p, nF, nD * nP))) ==
            Sum(nF, (f: nat) => wF(f) * Lik(lik, f, d, p, nD, nP))
  {
    forall f: nat | f < nF
      ensures wF(f) * At(lik, Pos(0, f, d * nP + p, nF, nD * nP)) == wF(f) * Lik(lik, f, d, p, nD, nP)
    {
      StackedPos(f, d, p, nF, nD, nP);
    }
    SumExt(nF, (f: nat) => wF(f) * At(lik, Pos(0, f, d * nP + p, nF, nD * nP)),
               (f: nat) => wF(f) * Lik(lik, f, d, p, nD, nP));
  }

  /** The likelihood normalization, at one design and parameter cell. */
  lemma LikelihoodCell(lik: seq<real>, nF: nat, nD: nat, nP: nat, wF: nat -> real, d: nat, p: nat)
    requires LikelihoodNormalized(lik, nF, nD, nP, wF) && d < nD && p < nP
    ensures Sum(nF, (f: nat) => wF(f) * Lik(lik, f, d, p, nD, nP)) == 1.0
  {
    var t := d * nP + p;
    BlockIndex(d, p, nD, nP);
    assert 0 * (nD * nP) + t == t;
    BlockSumCell(1, nF, nD * nP, wF, lik, 0, t);
    assert BlockSum(1, nF, nD * nP, wF, lik)[t] == 1.0;
    LikelihoodColumn(lik, nF, nD, nP, wF, d, p);
  }

  /** Term (f, p) of the double sum behind MarginalNormalized. */
  function Term(lik: seq<real>, prior: seq<real>, nD: nat, wF: nat -> real, wP: nat -> real, d: nat, f: nat, p: nat): real
  {
    wF(f) * (wP(p) * (Lik(lik, f, d, p, nD, |prior|) * At(prior, p)))
  }

  /** The double sum, one features row at a time ... */
  function MarginalRow(lik: seq<real>, prior: seq<real>, nD: nat, wF: nat -> real, wP: nat -> real, d: nat, f: nat): real
  {
    Sum(|prior|, (p: nat) => Term(lik, prior, nD, wF, wP, d, f, p))
  }

  /** ... and one parameters column at a time. */
  function MarginalColumn(lik: seq<real>, prior: seq<real>, nF: nat, nD: nat, wF: nat -> real, wP: nat -> real, d: nat, p: nat): real
  {
    Sum(nF, (f: nat) => Term(lik, prior, nD, wF, wP, d, f, p))
  }

  /** A features row is the weighted marginal probability of that cell. */
  lemma RowIsMarginal(lik: seq<real>, prior: seq<real>, nF: nat, nD: nat, wF: nat -> real, wP: nat -> real, d: nat, f: nat)
    requires f < nF && d < nD && |prior| > 0
    ensures wF(f) * At(Marginal(lik, prior, nF * nD, wP), f * nD + d) == MarginalRow(lik, prior, nD, wF, wP, d, f)
  {
    MarginalCell(lik, prior, nF, nD, wP, f, d);
    RowScaled(lik, prior, nD, wF, wP, d, f);
  }

  lemma RowScaled(lik: seq<real>, prior: seq<real>, nD: nat, wF: nat -> real, wP: nat -> real, d: nat, f: nat)
    ensures MarginalRow(lik, prior, nD, wF, wP, d, f) ==
            wF(f) * Sum(|prior|, (p: nat) => wP(p) * (Lik(lik, f, d, p, nD, |prior|) * At(prior, p)))
  {
    var cell := (p: nat) => wP(p) * (Lik(lik, f, d, p, nD, |prior|) * At(prior, p));
    forall p: nat | p < |prior|
      ensures Term(lik, prior, nD, wF, wP, d, f, p) == wF(f) * cell(p)
    {
    }
    SumScale(|prior|, cell, wF(f), (p: nat) => Term(lik, prior, nD, wF, wP, d, f, p));
  }

  /** A parameters column is the weighted prior of that cell. */
  lemma ColumnIsPrior(lik: seq<real>, prior: seq<real>, nF: nat, nD: nat, wF: nat -> real, wP: nat -> real, d: nat, p: nat)
    requires LikelihoodNormalized(lik, nF, nD, |prior|, wF) && d < nD && p < |prior|
    ensures MarginalColumn(lik, prior, nF, nD, wF, wP, d, p) == wP(p) * At(prior, p)
  {
    var nP := |prior|;
    LikelihoodCell(lik, nF, nD, nP, wF, d, p);
    SumScale(nF, (f: nat) => wF(f) * Lik(lik, f, d, p, nD, nP), wP(p) * At(prior, p),
                 (f: nat) => Term(lik, prior, nD, wF, wP, d, f, p));
  }

  /** Summing the rows or the columns gives the same total. */
  lemma RowsAreColumns(lik: seq<real>, prior: seq<real>, nF: nat, nD: nat, wF: nat -> real, wP: nat -> real, d: nat)
    ensures Sum(nF, (f: nat) => MarginalRow(lik, prior, nD, wF, wP, d, f)) ==
            Sum(|prior|, (p: nat) => MarginalColumn(lik, prior, nF, nD, wF, wP, d, p))
  {
    var F := (f: nat, p: nat) => Term(lik, prior, nD, wF, wP, d, f, p);
    SumSwap(nF, |prior|, F);
    forall f: nat | f < nF
      ensures Sum(|prior|, (p: nat) => F(f, p)) == MarginalRow(lik, prior, nD, wF, wP, d, f)
    {
      SumExt(|prior|, (p: nat) => F(f, p), (p: nat) => Term(lik, prior, nD, wF, wP, d, f, p));
    }
    SumExt(nF, (f: nat) => Sum(|prior|, (p: nat) => F(f, p)), (f: nat) => MarginalRow(lik, prior, nD, wF, wP, d, f));
    forall p: nat | p < |prior|
      ensures Sum(nF, (f: nat) => F(f, p)) == MarginalColumn(lik, prior, nF, nD, wF, wP, d, p)
    {
      SumExt(nF, (f: nat) => F(f, p), (f: nat) => Term(lik, prior, nD, wF, wP, d, f, p));
    }
    SumExt(|prior|, (p: nat) => Sum(nF, (f: nat) => F(f, p)), (p: nat) => MarginalColumn(lik, prior, nF, nD, wF, wP, d, p));
  }

  /** Cell d of a features sum over a features x designs array. */
  lemma FeaturesCell(m: seq<real>, nF: nat, nD: nat, wF: nat -> real, d: nat)
    requires d < nD
    ensures BlockSum(1, nF, nD, wF, m)[d] == Sum(nF, (f: nat) => wF(f) * At(m, f * nD + d))
  {
    assert 0 * nD + d == d;
    BlockSumCell(1, nF, nD, wF, m, 0, d);
    forall f: nat | f < nF
      ensures Pos(0, f, d, nF, nD) == f * nD + d
    {
    }
    SumExt(nF, (f: nat) => wF(f) * At(m, Pos(0, f, d, nF, nD)), (f: nat) => wF(f) * At(m, f * nD + d));
  }

  /** A features column sum whose weighted rows are the values of g. */
  lemma ColumnAs(m: seq<real>, nF: nat, nD: nat, wF: nat -> real, d: nat, g: nat -> real)
    requires forall f :: 0 <= f < nF ==> wF(f) * At(m, f * nD + d) == g(f)
    ensures Sum(nF, (f: nat) => wF(f) * At(m, f * nD + d)) == Sum(nF, g)
  {
    SumExt(nF, (f: nat) => wF(f) * At(m, f * nD + d), g);
  }

  /** Cell d of the features sum of the marginal, row by row. */
  lemma MarginalAsRows(lik: seq<real>, prior: seq<real>, nF: nat, nD: nat, wF: nat -> real, wP: nat -> real, d: nat)
    requires d < nD && |prior| > 0
    ensures BlockSum(1, nF, nD, wF, Marginal(lik, prior, nF * nD, wP))[d] ==
            Sum(nF, (f: nat) => MarginalRow(lik, prior, nD, wF, wP, d, f))
  {
    RowsAreMarginal(lik, prior, nF, nD, wF, wP, d);
    ColumnAs(Marginal(lik, prior, nF * nD, wP), nF, nD, wF, d, (f: nat) => MarginalRow(lik, prior, nD, wF, wP, d, f));
    FeaturesCell(Marginal(lik, prior, nF * nD, wP), nF, nD, wF, d);
  }

  lemma RowsAreMarginal(lik: seq<real>, prior: seq<real>, nF: nat, nD: nat, wF: nat -> real, wP: nat -> real, d: nat)
    requires d < nD && |prior| > 0
    ensures forall f :: 0 <= f < nF ==>
              wF(f) * At(Marginal(lik, prior, nF * nD, wP), f * nD + d) == MarginalRow(lik, prior, nD, wF, wP, d, f)
  {
    forall f | 0 <= f < nF
      ensures wF(f) * At(Marginal(lik, prior, nF * nD, wP), f * nD + d) == MarginalRow(lik, prior, nD, wF, wP, d, f)
    {
      RowIsMarginal(lik, prior, nF, nD, wF, wP, d, f);
    }
  }

  /** Summed column by column, the double sum is the weighted prior total. */
  lemma ColumnsAsPrior(lik: seq<real>, prior: seq<real>, nF: nat, nD: nat, wF: nat -> real, wP: nat -> real, d: nat)
    requires LikelihoodNormalized(lik, nF, nD, |prior|, wF) && d < nD
    ensures Sum(|prior|, (p: nat) => MarginalColumn(lik, prior, nF, nD, wF, wP, d, p)) ==
            Sum(|prior|, (p: nat) => wP(p) * At(prior, p))
  {
    forall p: nat | p < |prior|
      ensures MarginalColumn(lik, prior, nF, nD, wF, wP, d, p) == wP(p) * At(prior, p)
    {
      ColumnIsPrior(lik, prior, nF, nD, wF, wP, d, p);
    }
    SumExt(|prior|, (p: nat) => MarginalColumn(lik, prior, nF, nD, wF, wP, d, p),
                    (p: nat) => wP(p) * At(prior, p));
  }

  /** A normalized prior has weighted total one, so it is not empty. */
  lemma PriorTotal(prior: seq<real>, wP: nat -> real)
    requires PriorNormalized(prior, wP)
    ensures Sum(|prior|, (p: nat) => wP(p) * At(prior, p)) == 1.0 && |prior| > 0
  {
    var nP := |prior|;
    assert 0 * 1 + 0 == 0;
    BlockSumCell(1, nP, 1, wP, prior, 0, 0);
    forall p: nat | p < nP
      ensures Pos(0, p, 0, nP, 1) == p
    {
    }
    SumExt(nP, (p: nat) => wP(p) * At(prior, Pos(0, p, 0, nP, 1)), (p: nat) => wP(p) * At(prior, p));
  }

  /** The marginal is normalized over the features at every design: with a
      likelihood normalized over the features and a normalized prior, the
      weighted sum of P(y|xi) over y is one. */
  lemma MarginalNormalized(lik: seq<real>, prior: seq<real>, nF: nat, nD: nat, wF: nat -> real, wP: nat -> real)
    requires LikelihoodNormalized(lik, nF, nD, |prior|, wF) && PriorNormalized(prior, wP)
    ensures forall d :: 0 <= d < nD ==> BlockSum(1, nF, nD, wF, Marginal(lik, prior, nF * nD, wP))[d] == 1.0
  {
    PriorTotal(prior, wP);
    forall d: nat | d < nD
      ensures BlockSum(1, nF, nD, wF, Marginal(lik, prior, nF * nD, wP))[d] == 1.0
    {
      MarginalAsRows(lik, prior, nF, nD, wF, wP, d);
      RowsAreColumns(lik, prior, nF, nD, wF, wP, d);
      ColumnsAsPrior(lik, prior, nF, nD, wF, wP, d);
    }
  }
}

=== FILE: design.dfy ===
/** ExperimentDesigner (src/bed/design.py): brute-force expected information
    gain over three grids, the parameters theta, the features y and the
    designs xi. The likelihood P(y|theta,xi) is tabulated on the stack
    features x designs x parameters; one buffer of the same size holds, in
    turn, the joint, the posterior and the information-gain terms, and is
    left holding the posterior P(theta|y,xi). */
module Design {
  import opened Errors
  import opened Shapes
  import opened Reduce
  import opened GridLayout
  import opened GridIndex
  import opened Grids
  import opened Stacks
  import opened Bayes
  import opened Indexing

  /** `buffer[:] = values`. */
  method CopyInto(buffer: array<real>, values: seq<real>)
    requires buffer.Length == |values|
    modifies buffer
    ensures buffer[..] == values
  {
    var k := 0;
    while k < buffer.Length
      invariant 0 <= k <= buffer.Length
      invariant buffer[..k] == values[..k]
    {
      buffer[k] := values[k];
      k := k + 1;
    }
    assert buffer[..] == buffer[..k];
  }

  /** `buffer *= prior`, the prior broadcast over the trailing (parameter) axes. */
  method ScaleByPrior(buffer: array<real>, prior: seq<real>)
    modifies buffer
    ensures buffer[..] == Joint(old(buffer[..]), prior)
  {
    var k := 0;
    while k < buffer.Length
      invariant 0 <= k <= buffer.Length
      invariant forall i :: 0 <= i < k ==> buffer[i] == Joint(old(buffer[..]), prior)[i]
      invariant forall i :: k <= i < buffer.Length ==> buffer[i] == old(buffer[i])
    {
      buffer[k] := buffer[k] * (if |prior| == 0 then 0.0 else prior[k % |prior|]);
      k := k + 1;
    }
  }

  /** `buffer *= values` for two arrays of one shape. */
  method MultiplyBy(buffer: array<real>, values: seq<real>)
    modifies buffer
    ensures buffer[..] == Times(old(buffer[..]), values)
  {
    var k := 0;
    while k < buffer.Length
      invariant 0 <= k <= buffer.Length
      invariant forall i :: 0 <= i < k ==> buffer[i] == Times(old(buffer[..]), values)[i]
      invariant forall i :: k <= i < buffer.Length ==> buffer[i] == old(buffer[i])
    {
      buffer[k] := buffer[k] * At(values, k);
      k := k + 1;
    }
  }

  /** Element-by-element base-two logarithm. */
  function LogOf(s: seq<real>, log2: real -> real): (r: seq<real>)
    ensures |r| == |s| && forall k :: 0 <= k < |s| ==> r[k] == log2(s[k])
  {
    seq(|s|, k requires 0 <= k < |s| => log2(s[k]))
  }

  /** `np.log2(buffer, out=buffer)`. */
  method LogInPlace(buffer: array<real>, log2: real -> real)
    modifies buffer
    ensures buffer[..] == LogOf(old(buffer[..]), log2)
  {
    var k := 0;
    while k < buffer.Length
      invariant 0 <= k <= buffer.Length
      invariant forall i :: 0 <= i < k ==> buffer[i] == log2(old(buffer[i]))
      invariant forall i :: k <= i < buffer.Length ==> buffer[i] == old(buffer[i])
    {
      buffer[k] := log2(buffer[k]);
      k := k + 1;
    }
  }

  /** np.allclose(values, 1), with exact reals. */
  method AllOne(values: seq<real>) returns (ok: bool)
    ensures ok <==> forall i :: 0 <= i < |values| ==> values[i] == 1.0
  {
    var i := 0;
    while i < |values|
      invariant 0 <= i <= |values|
      invariant forall j :: 0 <= j < i ==> values[j] == 1.0
    {
      if values[i] != 1.0 {
        return false;
      }
      i := i + 1;
    }
    return true;
  }

  /** One cell of the staged information-gain terms: if p * n == j and
      b * n == (log2 p * l) * pr with j == l * pr, then b == p log2 p. */
  lemma InfoTermCell(b: real, p: real, lg: real, l: real, pr: real, n: real)
    requires n != 0.0 && p * n == l * pr && b * n == (lg * l) * pr
    ensures b == p * lg
  {
    assert (lg * l) * pr == lg * (l * pr);
    assert b * n == (p * lg) * n;
    assert (b - p * lg) * n == 0.0;
  }

  /** Dividing by the same nonzero block sums gives one result. */
  lemma DividedUnique(a: seq<real>, b: seq<real>, data: seq<real>, norm: seq<real>, m: nat)
    requires DividedBy(a, data, norm, m, 1) && DividedBy(b, data, norm, m, 1)
    requires forall i :: 0 <= i < |norm| ==> norm[i] != 0.0
    ensures a == b
  {
    forall k | 0 <= k < |a|
      ensures a[k] == b[k]
    {
      var n := norm[NormIndex(k, m, 1)];
      assert (a[k] - b[k]) * n == 0.0;
    }
  }

  /** StagedInfoTerms at cell k. */
  lemma StagedInfoTerm(lik: seq<real>, prior: seq<real>, post: seq<real>, buf: seq<real>,
                       n: real, k: nat, log2: real -> real)
    requires k < |post| == |lik| == |buf| && n != 0.0
    requires post[k] * n == Joint(lik, prior)[k]
    requires buf[k] * n == Joint(Times(LogOf(post, log2), lik), prior)[k]
    ensures buf[k] == PLogP(post, log2)[k]
  {
    var pr := if |prior| == 0 then 0.0 else prior[k % |prior|];
    var logs := Times(LogOf(post, log2), lik);
    assert logs[k] == log2(post[k]) * lik[k];
    InfoTermCell(buf[k], post[k], log2(post[k]), lik[k], pr, n);
  }

  /** The buffer after `log2`, `*= likelihood`, `*= prior` and `/= post_norm`
      holds post log2 post, cell by cell. */
  lemma StagedInfoTerms(lik: seq<real>, prior: seq<real>, post: seq<real>, buf: seq<real>,
                        norm: seq<real>, m: nat, log2: real -> real)
    requires DividedBy(post, Joint(lik, prior), norm, m, 1)
    requires DividedBy(buf, Joint(Times(LogOf(post, log2), lik), prior), norm, m, 1)
    requires forall i :: 0 <= i < |norm| ==> norm[i] != 0.0
    ensures buf == PLogP(post, log2)
  {
    forall k | 0 <= k < |buf|
      ensures buf[k] == PLogP(post, log2)[k]
    {
      StagedInfoTerm(lik, prior, post, buf, norm[NormIndex(k, m, 1)], k, log2);
    }
  }

  /** The posterior is normalized over the parameters at every feature and
      design cell: dividing the joint by its own sums over the parameters
      leaves sums of one. */
  lemma PosteriorNormalized(lik: seq<real>, prior: seq<real>, post: seq<real>, nFD: nat, wP: nat -> real)
    requires |lik| == nFD * |prior|
    requires forall i :: 0 <= i < nFD ==> Marginal(lik, prior, nFD, wP)[i] != 0.0
    requires DividedBy(post, Joint(lik, prior), Marginal(lik, prior, nFD, wP), |prior|, 1)
    ensures forall i :: 0 <= i < nFD ==> BlockSum(nFD, |prior|, 1, wP, post)[i] == 1.0
  {
    assert nFD * |prior| * 1 == nFD * |prior| && nFD * 1 == nFD;
    NormalizedTotal(nFD, |prior|, 1, wP, Joint(lik, prior), Marginal(lik, prior, nFD, wP), post);
  }

  /** The posterior, the joint divided by a marginal with no zero cell, has
      no negative value when the likelihood and the prior have none. */
  lemma PosteriorSigns(lik: seq<real>, prior: seq<real>, post: seq<real>, nFD: nat, wP: nat -> real)
    requires |lik| == nFD * |prior| && NonNegative(lik) && NonNegative(prior)
    requires forall j :: 0 <= j < |prior| ==> wP(j) > 0.0
    requires forall i :: 0 <= i < nFD ==> Marginal(lik, prior, nFD, wP)[i] != 0.0
    requires DividedBy(post, Joint(lik, prior), Marginal(lik, prior, nFD, wP), |prior|, 1)
    ensures NonNegative(post)
  {
    var marg, joint := Marginal(lik, prior, nFD, wP), Joint(lik, prior);
    JointNonNegative(lik, prior);
    forall i | 0 <= i < nFD
      ensures marg[i] > 0.0
    {
      MarginalRowSign(lik, prior, nFD, wP, i, 0);
    }
    assert Positive(marg);
    DividedSigns(post, joint, marg, |prior|, 1);
  }

  /** Dividing values with no negative one by positive sums gives no
      negative value. */
  lemma DividedSigns(scaled: seq<real>, data: seq<real>, norm: seq<real>, m: nat, inner: nat)
    requires DividedBy(scaled, data, norm, m, inner) && NonNegative(data) && Positive(norm)
    ensures NonNegative(scaled)
  {
    forall k | 0 <= k < |scaled|
      ensures scaled[k] >= 0.0
    {
      QuotientSign(scaled[k], norm[NormIndex(k, m, inner)], data[k]);
    }
  }

  lemma QuotientSign(b: real, m: real, j: real)
    requires m > 0.0 && j >= 0.0 && b * m == j
    ensures b >= 0.0
  {
  }

  /** Selecting from a tensor with no negative value gives none. */
  lemma SelectNonNegative(t: Tensor, loc: seq<Loc>)
    requires WellFormed(t) && |loc| == |t.shape| && PointsIn(t.shape, loc) && NonNegative(t.data)
    ensures NonNegative(Select(t, loc).data)
  {
    forall o | 0 <= o < |Select(t, loc).data|
      ensures Select(t, loc).data[o] >= 0.0
    {
      SelectCell(t, loc, o);
    }
  }

  /** A grid stacked after the axes `pre` sees its own shape in
      pre + shape + post, with `pre` before it and `post` after it. */
  lemma StackedAt(g: Grid, pre: seq<nat>, post: seq<nat>)
    requires g.Valid() && g.stackOffset == |pre|
    ensures var v := pre + g.layout.shape + post;
      Fits(v, |pre|, g.layout.shape) && Before(v, |pre|) == pre && After(v, |pre|, |g.layout.shape|) == post
  {
    var v := pre + g.layout.shape + post;
    assert v[..|pre|] == pre;
    assert v[|pre|..|pre| + |g.layout.shape|] == g.layout.shape;
    assert v[|pre| + |g.layout.shape|..] == post;
  }

  /** Grid.sum of a tensor whose first axes are the grid's. */
  lemma LeadingSum(g: Grid, t: Tensor, post: seq<nat>)
    requires g.Valid() && WellFormed(t) && g.stackOffset == 0 && t.shape == g.layout.shape + post
    ensures g.Sum(t, false).Ok?
    ensures g.Sum(t, false).value.data == BlockSum(1, Prod(g.layout.shape), Prod(post), Weights(g.layout), t.data)
  {
    StackedAt(g, [], post);
    assert t.shape == [] + g.layout.shape + post;
  }

  /** Grid.sum over an array of the grid's own shape. */
  lemma OwnSum(g: Grid, data: seq<real>)
    requires g.Valid() && |data| == Prod(g.layout.shape)
    requires Fits(g.layout.shape, g.stackOffset, g.layout.shape)
    ensures g.Sum(Tensor(g.layout.shape, data), false).Ok?
    ensures g.Sum(Tensor(g.layout.shape, data), false).value.data == BlockSum(1, Prod(g.layout.shape), 1, Weights(g.layout), data)
  {
    var v, off := g.layout.shape, g.stackOffset;
    FitsSplit(v, off, v);
    assert |Before(v, off)| + |v| + |After(v, off, |v|)| == |v|;
  }

  /** The checks and the entropy at the start of calculateEIG: the prior
      must have the parameters' shape and sum to one over them. */
  method PriorEntropy(g: Grid, prior: Tensor, log2: real -> real) returns (e: Option<Error>, h0: real)
    requires g.Valid() && WellFormed(prior)
    ensures prior.shape != g.layout.shape ==> e == Some(ShapeMismatch)
    ensures prior.shape == g.layout.shape && g.stackOffset == 0 ==>
            e == if PriorNormalized(prior.data, Weights(g.layout)) then None else Some(PriorNotNormalized)
    ensures e.Some? ==> e.value == ShapeMismatch || e.value == PriorNotNormalized
    ensures e.None? ==> prior.shape == g.layout.shape && PriorNormalized(prior.data, Weights(g.layout)) &&
                        h0 == Entropy(prior.data, Weights(g.layout), log2)
  {
    h0 := 0.0;
    if prior.shape != g.layout.shape {
      return Some(ShapeMismatch), h0;
    }
    var total := g.Sum(prior, false);
    if total.Err? {
      return Some(ShapeMismatch), h0;
    }
    OwnSum(g, prior.data);
    var ok := AllOne(total.value.data);
    if !ok {
      return Some(PriorNotNormalized), h0;
    }
    var terms := PLogP(prior.data, log2);
    OwnSum(g, terms);
    var entropy := g.Sum(Tensor(prior.shape, terms), false);
    h0 := -entropy.value.data[0];
    return None, h0;
  }

  /** __enter__ of GridStack(f, d, p). */
  method StackThree(f: Grid, d: Grid, p: Grid) returns (stack: GridStack, entered: bool)
    modifies f, d, p
    ensures stack.grids == [f, d, p]
    ensures entered ==> stack.Stacked()
    ensures Distinct([f, d, p]) ==>
            (entered <==> old(f.stackOffset) == 0 && old(f.stackPad) == 0 && old(d.stackOffset) == 0 &&
                          old(d.stackPad) == 0 && old(p.stackOffset) == 0 && old(p.stackPad) == 0)
  {
    stack := new GridStack([f, d, p]);
    assert stack.Unplaced(3) <==> f.stackOffset == 0 && f.stackPad == 0 && d.stackOffset == 0 &&
                                  d.stackPad == 0 && p.stackOffset == 0 && p.stackPad == 0 by {
      assert stack.grids[0] == f && stack.grids[1] == d && stack.grids[2] == p;
    }
    var r := stack.Enter();
    entered := r.Ok?;
  }

  /** __exit__ of GridStack(f, d, p). */
  method UnstackThree(stack: GridStack, f: Grid, d: Grid, p: Grid)
    requires stack.grids == [f, d, p]
    modifies f, d, p
    ensures f.stackOffset == 0 && f.stackPad == 0 && d.stackOffset == 0 && d.stackPad == 0
    ensures p.stackOffset == 0 && p.stackPad == 0
  {
    stack.Exit();
    assert stack.grids[0].stackOffset == 0 && stack.grids[1].stackOffset == 0 && stack.grids[2].stackOffset == 0;
    assert stack.grids[0].stackPad == 0 && stack.grids[1].stackPad == 0 && stack.grids[2].stackPad == 0;
  }

  /** __enter__ of GridStack(f, d). */
  method StackTwo(f: Grid, d: Grid) returns (stack: GridStack, entered: bool)
    modifies f, d
    ensures stack.grids == [f, d]
    ensures entered ==> stack.Stacked()
    ensures Distinct([f, d]) ==>
            (entered <==> old(f.stackOffset) == 0 && old(f.stackPad) == 0 && old(d.stackOffset) == 0 && old(d.stackPad) == 0)
  {
    stack := new GridStack([f, d]);
    assert stack.Unplaced(2) <==> f.stackOffset == 0 && f.stackPad == 0 && d.stackOffset == 0 && d.stackPad == 0 by {
      assert stack.grids[0] == f && stack.grids[1] == d;
    }
    var r := stack.Enter();
    entered := r.Ok?;
  }

  /** __exit__ of GridStack(f, d). */
  method UnstackTwo(stack: GridStack, f: Grid, d: Grid)
    requires stack.grids == [f, d]
    modifies f, d
    ensures f.stackOffset == 0 && f.stackPad == 0 && d.stackOffset == 0 && d.stackPad == 0
  {
    stack.Exit();
    assert stack.grids[0].stackOffset == 0 && stack.grids[1].stackOffset == 0;
    assert stack.grids[0].stackPad == 0 && stack.grids[1].stackPad == 0;
  }

  /** The body of the `with` block in `get_posterior`: `at` on the entered
      stack, then `__exit__`. */
  method AtThenExit(stack: GridStack, f: Grid, d: Grid, p: Grid, coords: seq<Coord>) returns (r: Result<seq<Loc>>)
    requires stack.grids == [f, d, p] && stack.Valid() && stack.Stacked() && DistinctNames(coords)
    modifies f, d, p
    ensures r.Err? ==> r.error == EmptySequence || r.error == IndexOutOfRange || r.error.InvalidGridNames?
    ensures f.stackOffset == 0 && f.stackPad == 0 && d.stackOffset == 0 && d.stackPad == 0
    ensures p.stackOffset == 0 && p.stackPad == 0
    ensures r.Ok? ==> r.value == StackIndex([f, d, p], coords)
    ensures OwnedAxesNonEmpty([f, d, p], coords) ==> (r.Ok? <==> Missing([f, d, p], coords) == [])
    ensures OwnedAxesNonEmpty([f, d, p], coords) && Missing([f, d, p], coords) != []
            ==> r == Err(InvalidGridNames(Missing([f, d, p], coords)))
  {
    r := stack.At(coords);
    if OwnedAxesNonEmpty([f, d, p], coords) {
      StackedLocatable(stack, coords);
    }
    UnstackThree(stack, f, d, p);
  }

  /** GridStack(features, designs, parameters).at(**coords): what each
      stacked axis of the posterior keeps. */
  method LocateInStack(p: Grid, f: Grid, d: Grid, coords: seq<Coord>) returns (r: Result<seq<Loc>>)
    requires p.Valid() && f.Valid() && d.Valid() && DistinctNames(coords)
    modifies p, f, d
    ensures r.Err? ==> r.error == AlreadyStacked || r.error == EmptySequence ||
                       r.error == IndexOutOfRange || r.error.InvalidGridNames?
    ensures old(f.stackOffset) == 0 && old(f.stackPad) == 0 && old(d.stackOffset) == 0 && old(d.stackPad) == 0 &&
            old(p.stackOffset) == 0 && old(p.stackPad) == 0 && Distinct([f, d, p])
            ==> r.Ok? || r.error != AlreadyStacked
    ensures r.Ok? ==> f.stackOffset == 0 && f.stackPad == 0 && d.stackOffset == 0 && d.stackPad == 0 &&
                      p.stackOffset == 0 && p.stackPad == 0
    ensures r.Ok? ==> |r.value| == |f.layout.names| + |d.layout.names| + |p.layout.names|
    ensures r.Ok? ==> r.value == StackIndex([f, d, p], coords)
    ensures old(f.stackOffset) == 0 && old(f.stackPad) == 0 && old(d.stackOffset) == 0 && old(d.stackPad) == 0 &&
            old(p.stackOffset) == 0 && old(p.stackPad) == 0 && Distinct([f, d, p]) &&
            OwnedAxesNonEmpty([f, d, p], coords)
            ==> (r.Ok? <==> Missing([f, d, p], coords) == [])
    ensures old(f.stackOffset) == 0 && old(f.stackPad) == 0 && old(d.stackOffset) == 0 && old(d.stackPad) == 0 &&
            old(p.stackOffset) == 0 && old(p.stackPad) == 0 && Distinct([f, d, p]) &&
            OwnedAxesNonEmpty([f, d, p], coords) && Missing([f, d, p], coords) != []
            ==> r == Err(InvalidGridNames(Missing([f, d, p], coords)))
  {
    var stack, entered := StackThree(f, d, p);
    if !entered {
      return Err(AlreadyStacked);
    }
    r := AtThenExit(stack, f, d, p, coords);
    StackAxes(f, d, p);
  }

  /** The offsets GridStack gives three stacked grids. */
  lemma ThreeStacked(s: GridStack, f: Grid, d: Grid, p: Grid)
    requires s.grids == [f, d, p] && s.Stacked()
    ensures f.stackOffset == 0
    ensures d.stackOffset == |f.layout.names|
    ensures p.stackOffset == |f.layout.names| + |d.layout.names|
  {
    assert s.grids[0].stackOffset == AxesIn(s.grids, 0, 0);
    assert s.grids[1].stackOffset == AxesIn(s.grids, 0, 1);
    assert s.grids[2].stackOffset == AxesIn(s.grids, 0, 2);
    assert AxesIn(s.grids, 1, 1) == 0 && AxesIn(s.grids, 2, 2) == 0;
  }

  /** The offsets GridStack gives two stacked grids. */
  lemma TwoStacked(s: GridStack, f: Grid, d: Grid)
    requires s.grids == [f, d] && s.Stacked()
    ensures f.stackOffset == 0
  {
    assert s.grids[0].stackOffset == AxesIn(s.grids, 0, 0);
  }

  /** The number of stacked axes is the length of the stacked shape. */
  lemma StackAxes(f: Grid, d: Grid, p: Grid)
    ensures AxesIn([f, d, p], 0, 3) == |f.layout.names| + |d.layout.names| + |p.layout.names|
  {
    assert AxesIn([f, d, p], 3, 3) == 0;
  }

  /** Fixing the leading dimensions of a tensor normalized over its trailing
      block selects a block that sums to one. */
  lemma SelectedBlockNormalized(t: Tensor, a: seq<nat>, b: seq<nat>, pts: seq<nat>, w: nat -> real)
    requires WellFormed(t) && t.shape == a + b && InRange(a, pts)
    requires forall i :: 0 <= i < Prod(a) ==> BlockSum(Prod(a), Prod(b), 1, w, t.data)[i] == 1.0
    ensures Select(t, Points(pts) + Alls(|b|)).shape == b
    ensures BlockSum(1, Prod(b), 1, w, Select(t, Points(pts) + Alls(|b|)).data)[0] == 1.0
  {
    PrefixKept(a, b, pts);
    var fd := Flatten(a, pts);
    FlattenBound(a, pts);
    BlockSumCell(Prod(a), Prod(b), 1, w, t.data, fd, 0);
    SelectedRowSum(t, a, b, pts, w, fd);
    BlockSumCell(1, Prod(b), 1, w, Select(t, Points(pts) + Alls(|b|)).data, 0, 0);
  }

  /** The selected posterior is row `fd` of the stacked one, so it keeps
      that row's weighted sum. */
  lemma SelectedRowSum(t: Tensor, a: seq<nat>, b: seq<nat>, pts: seq<nat>, w: nat -> real, fd: nat)
    requires WellFormed(t) && t.shape == a + b && InRange(a, pts) && fd == Flatten(a, pts)
    requires RowSum(t.data, fd, Prod(b), w) == 1.0
    ensures RowSum(Select(t, Points(pts) + Alls(|b|)).data, 0, Prod(b), w) == 1.0
  {
    var base := SelectedBase(t, a, b, pts);
    RowSumOne(t.data, Select(t, Points(pts) + Alls(|b|)).data, fd, Prod(b), base, w);
  }

  /** Weighted sum of row fd of a flat table with rows of length n. */
  function RowSum(data: seq<real>, fd: nat, n: nat, w: nat -> real): real
  {
    Sum(n, (j: nat) => w(j) * At(data, Pos(fd, j, 0, n, 1)))
  }

  /** A row cut out of a flat table whose row sums to one sums to one. */
  lemma RowSumOne(data: seq<real>, row: seq<real>, fd: nat, n: nat, base: nat, w: nat -> real)
    requires base == fd * n && base + n <= |data| && row == data[base..base + n]
    requires RowSum(data, fd, n, w) == 1.0
    ensures RowSum(row, 0, n, w) == 1.0
  {
    RowWeightedSum(data, row, fd, n, base, w);
  }

  /** A row cut out of a flat table has the weighted sum of that row. */
  lemma RowWeightedSum(data: seq<real>, row: seq<real>, fd: nat, n: nat, base: nat, w: nat -> real)
    requires base == fd * n && base + n <= |data| && row == data[base..base + n]
    ensures Sum(n, (j: nat) => w(j) * At(data, Pos(fd, j, 0, n, 1))) == Sum(n, (j: nat) => w(j) * At(row, Pos(0, j, 0, n, 1)))
  {
    forall j | 0 <= j < n
      ensures w(j) * At(data, Pos(fd, j, 0, n, 1)) == w(j) * At(row, Pos(0, j, 0, n, 1))
    {
      PosRow(fd, j, n, base);
    }
    SumExt(n, (j: nat) => w(j) * At(data, Pos(fd, j, 0, n, 1)), (j: nat) => w(j) * At(row, Pos(0, j, 0, n, 1)));
  }

  /** The entropy of a marginalized prior: -sum of p log2 p over all its
      cells (the reduced prior is unconstrained, so its cells weigh one). */
  function MarginalEntropy(reduced: seq<real>, log2: real -> real): real
  {
    -SumAll(PLogP(reduced, log2))
  }

  /** The information gain with a marginalized posterior: H0 plus the sum of
      post log2 post over the nR cells that are left of the parameters. */
  function MarginalInfoGain(h0: real, post: seq<real>, nFD: nat, nR: nat, log2: real -> real): (ig: seq<real>)
    ensures |ig| == nFD
  {
    assert nFD * 1 == nFD;
    Shifted(h0, BlockSum(nFD, nR, 1, Unit(), PLogP(post, log2)))
  }

  /** A grid without a constraint gives every cell weight one. */
  lemma UnconstrainedWeights(l: Layout)
    requires ValidLayout(l) && l.constraint.None?
    ensures forall j: nat :: Weights(l)(j) == 1.0
  {
  }

  /** Block sums with weights that are all one are plain block sums. */
  lemma UnitBlockSum(outer: nat, m: nat, inner: nat, w: nat -> real, data: seq<real>)
    requires forall j :: 0 <= j < m ==> w(j) == 1.0
    ensures BlockSum(outer, m, inner, w, data) == BlockSum(outer, m, inner, Unit(), data)
  {
    var a, b := BlockSum(outer, m, inner, w, data), BlockSum(outer, m, inner, Unit(), data);
    forall i | 0 <= i < outer * inner
      ensures a[i] == b[i]
    {
      UnitCell(m, w, data, i / inner, i % inner, inner);
    }
  }

  lemma UnitCell(m: nat, w: nat -> real, data: seq<real>, a: nat, t: nat, inner: nat)
    requires forall j :: 0 <= j < m ==> w(j) == 1.0
    ensures Sum(m, (j: nat) => w(j) * At(data, Pos(a, j, t, m, inner))) ==
            Sum(m, (j: nat) => Unit()(j) * At(data, Pos(a, j, t, m, inner)))
  {
    forall j | 0 <= j < m
      ensures w(j) * At(data, Pos(a, j, t, m, inner)) == Unit()(j) * At(data, Pos(a, j, t, m, inner))
    {
      assert w(j) == 1.0 == Unit()(j);
    }
    SumExt(m, (j: nat) => w(j) * At(data, Pos(a, j, t, m, inner)), (j: nat) => Unit()(j) * At(data, Pos(a, j, t, m, inner)));
  }

  /** The one block sum of a whole sequence is its plain sum. */
  lemma WholeSum(data: seq<real>)
    ensures BlockSum(1, |data|, 1, Unit(), data)[0] == SumAll(data)
  {
    var n := |data|;
    BlockSumCell(1, n, 1, Unit(), data, 0, 0);
    forall j | 0 <= j < n
      ensures Unit()(j) * At(data, Pos(0, j, 0, n, 1)) == At(data, j)
    {
      assert Pos(0, j, 0, n, 1) == j;
    }
    SumExt(n, (j: nat) => Unit()(j) * At(data, Pos(0, j, 0, n, 1)), (j: nat) => At(data, j));
  }

  /** Marginalizing the prior over nuisance axes keeps it normalized. */
  lemma MarginalPriorNormalized(prior: Tensor, ds: seq<nat>, l: Layout)
    requires ValidLayout(l) && l.constraint.None?
    requires WellFormed(prior) && forall i :: 0 <= i < |ds| ==> ds[i] < |prior.shape|
    requires PriorNormalized(prior.data, Weights(l))
    ensures SumAll(ReduceAxes(prior, ds).data) == 1.0
  {
    UnconstrainedWeights(l);
    UnitBlockSum(1, |prior.data|, 1, Weights(l), prior.data);
    WholeSum(prior.data);
    ReduceAxesTotal(prior, ds);
  }

  /** Over a grid without a constraint, the marginal entropy of a prior that
      was not reduced is calculateEIG's H0. */
  lemma NoNuisanceEntropy(prior: seq<real>, l: Layout, log2: real -> real)
    requires ValidLayout(l) && l.constraint.None?
    ensures MarginalEntropy(prior, log2) == Entropy(prior, Weights(l), log2)
  {
    UnconstrainedWeights(l);
    UnitBlockSum(1, |prior|, 1, Weights(l), PLogP(prior, log2));
    WholeSum(PLogP(prior, log2));
  }

  /** ... and the marginal information gain of a posterior that was not
      reduced is calculateEIG's IG. */
  lemma NoNuisanceInfoGain(h0: real, post: seq<real>, nFD: nat, l: Layout, log2: real -> real)
    requires ValidLayout(l) && l.constraint.None?
    ensures MarginalInfoGain(h0, post, nFD, Prod(l.shape), log2) == InfoGain(h0, post, nFD, Prod(l.shape), Weights(l), log2)
  {
    UnconstrainedWeights(l);
    UnitBlockSum(nFD, Prod(l.shape), 1, Weights(l), PLogP(post, log2));
  }

  /** Some axis named for marginalization has more than one value. */
  predicate LongAxis(l: Layout, nuisance: seq<string>)
  {
    exists p :: 0 <= p < |l.names| && p < |l.shape| && l.names[p] in nuisance && l.shape[p] != 1
  }

  /** A named axis is among the positions of the names. */
  lemma NamedPosition(l: Layout, nuisance: seq<string>, p: nat)
    requires ValidLayout(l) && AllIn(nuisance, l.names) && p < |l.names| && l.names[p] in nuisance
    ensures p in Positions(l.names, nuisance, 0)
  {
    var ds := Positions(l.names, nuisance, 0);
    var i :| 0 <= i < |nuisance| && nuisance[i] == l.names[p];
    assert l.names[ds[i]] == l.names[p];
  }

  /** Summing a prior over a nuisance axis with keepdims leaves that axis
      with length one, so the result no longer has the grid's shape. */
  lemma ReducedShapeMismatch(t: Tensor, l: Layout, nuisance: seq<string>)
    requires ValidLayout(l) && WellFormed(t) && t.shape == l.shape && AllIn(nuisance, l.names)
    requires LongAxis(l, nuisance)
    ensures forall i :: 0 <= i < |nuisance| ==> Positions(l.names, nuisance, 0)[i] < |t.shape|
    ensures !Fits(ReduceAxes(t, Positions(l.names, nuisance, 0)).shape, 0, l.shape)
  {
    var ds := Positions(l.names, nuisance, 0);
    var p :| 0 <= p < |l.names| && p < |l.shape| && l.names[p] in nuisance && l.shape[p] != 1;
    NamedPosition(l, nuisance, p);
    var v := ReduceAxes(t, ds).shape;
    assert v[p] != l.shape[p];
    FitsWhole(v, l.shape);
  }

  /** At offset 0, a shape of the grid's rank fits only if it is the grid's. */
  lemma FitsWhole(v: seq<nat>, shape: seq<nat>)
    requires |v| == |shape|
    ensures Fits(v, 0, shape) <==> v == shape
  {
    assert Slice(v, 0, |shape|) == v;
  }

  /** Grid.sum over named axes of an unconstrained grid, when it fits. */
  lemma SumAxesData(g: Grid, t: Tensor, nuisance: seq<string>, off: nat)
    requires g.Valid() && WellFormed(t) && g.stackOffset == off && Fits(t.shape, off, g.layout.shape)
    requires g.layout.constraint.None? && AllIn(nuisance, g.layout.names) && Distinct(nuisance)
    ensures forall i :: 0 <= i < |nuisance| ==> Positions(g.layout.names, nuisance, off)[i] < |t.shape|
    ensures g.SumAxes(t, nuisance, true).Ok?
    ensures g.SumAxes(t, nuisance, true).value.data == ReduceAxes(t, Positions(g.layout.names, nuisance, off)).data
  {
  }

  /** Grid.sum over named axes of an array whose last axes are the grid's,
      after the axes `pre` of the grids stacked before it. */
  lemma StackedSumAxes(pre: seq<nat>, g: Grid, data: seq<real>, nuisance: seq<string>)
    requires g.Valid() && |data| == Prod(pre + g.layout.shape) && g.stackOffset == |pre|
    requires g.layout.constraint.None? && AllIn(nuisance, g.layout.names) && Distinct(nuisance)
    ensures WellFormed(Tensor(pre + g.layout.shape, data))
    ensures g.SumAxes(Tensor(pre + g.layout.shape, data), nuisance, true).Ok?
    ensures g.SumAxes(Tensor(pre + g.layout.shape, data), nuisance, true).value.data == ReducedOf(pre, g, data, nuisance)
  {
    var t := Tensor(pre + g.layout.shape, data);
    StackedAt(g, pre, []);
    assert pre + g.layout.shape + [] == t.shape;
    SumAxesData(g, t, nuisance, |pre|);
  }

  /** `data`, over the axes `pre` followed by the grid's, summed over the
      named axes of the grid, keeping them with length one. */
  ghost function ReducedOf(pre: seq<nat>, g: Grid, data: seq<real>, nuisance: seq<string>): seq<real>
    requires g.Valid() && |data| == Prod(pre + g.layout.shape) && AllIn(nuisance, g.layout.names)
  {
    ReduceAxes(Tensor(pre + g.layout.shape, data), Positions(g.layout.names, nuisance, |pre|)).data
  }

  /** A valid grid has as many dimensions as axis names. */
  lemma Rank(g: Grid)
    requires g.Valid()
    ensures |g.layout.shape| == |g.layout.names|
  {
  }

  class ExperimentDesigner {
    const parameters: Grid
    const features: Grid
    const designs: Grid
    /** P(y|theta,xi) on features x designs x parameters. */
    const likelihood: Tensor
    /** The base-two logarithm numpy applies, left uninterpreted. */
    const log2: real -> real
    /** _buffer, which is also `posterior`. */
    const buffer: array<real>
    /** _initialized: calculateEIG has completed once. */
    var initialized: bool
    /** The prior of the latest calculateEIG call (meaningless before the first). */
    var prior: Tensor
    var H0: real
    var marginal: seq<real>
    var IG: seq<real>
    var EIG: seq<real>

    /** Number of cells of the features, designs and parameters grids. */
    function NF(): nat { Prod(features.layout.shape) }
    function ND(): nat { Prod(designs.layout.shape) }
    function NP(): nat { Prod(parameters.layout.shape) }

    /** Shape of the stack features x designs x parameters. */
    function StackShape(): seq<nat>
    {
      features.layout.shape + designs.layout.shape + parameters.layout.shape
    }

    /** The index `at` builds for `coords` once the three grids are stacked:
        one entry per axis of the stack. */
    ghost function Located(coords: seq<Coord>): (loc: seq<Loc>)
      requires parameters.Valid() && features.Valid() && designs.Valid()
      ensures |loc| == |StackShape()|
    {
      StackAxes(features, designs, parameters);
      StackIndex([features, designs, parameters], coords)
    }

    /** The three grids are distinct objects and every coordinate some grid
        owns names a non-empty axis, so `at` on the stack fails only for a
        name no grid has. */
    ghost predicate Findable(coords: seq<Coord>)
      requires parameters.Valid() && features.Valid() && designs.Valid()
    {
      Distinct([features, designs, parameters]) && OwnedAxesNonEmpty([features, designs, parameters], coords)
    }

    /** The posterior in the buffer at `coords` can serve as the next prior:
        it lies inside the stack, keeps exactly the parameter axes and sums
        to one over them. */
    ghost predicate NextPriorAt(coords: seq<Coord>)
      requires parameters.Valid() && features.Valid() && designs.Valid()
      reads buffer
    {
      var loc := Located(coords);
      var next := Select(Tensor(StackShape(), buffer[..]), loc);
      PointsIn(StackShape(), loc) && next.shape == parameters.layout.shape && PriorNormalized(next.data, WP())
    }

    ghost function WF(): nat -> real
      requires features.Valid()
    {
      Weights(features.layout)
    }

    ghost function WP(): nat -> real
      requires parameters.Valid()
    {
      Weights(parameters.layout)
    }

    ghost predicate Valid()
      reads this
    {
      parameters.Valid() && features.Valid() && designs.Valid() &&
      likelihood.shape == StackShape() && WellFormed(likelihood) &&
      buffer.Length == |likelihood.data| &&
      LikelihoodNormalized(likelihood.data, NF(), ND(), NP(), WF()) &&
      WellFormed(prior) &&
      (initialized ==> |marginal| == NF() * ND())
    }

    lemma StackSize()
      requires parameters.Valid() && features.Valid() && designs.Valid()
      ensures Prod(StackShape()) == NF() * ND() * NP()
      ensures Prod(features.layout.shape + designs.layout.shape) == NF() * ND()
      ensures Prod(designs.layout.shape + parameters.layout.shape) == ND() * NP()
    {
      ProdThree(features.layout.shape, designs.layout.shape, parameters.layout.shape);
      ProdConcat(features.layout.shape, designs.layout.shape);
      ProdConcat(designs.layout.shape, parameters.layout.shape);
    }

    constructor (parameters: Grid, features: Grid, designs: Grid, likelihood: Tensor, log2: real -> real)
      requires parameters.Valid() && features.Valid() && designs.Valid()
      requires WellFormed(likelihood)
      requires likelihood.shape == features.layout.shape + designs.layout.shape + parameters.layout.shape
      requires LikelihoodNormalized(likelihood.data, Prod(features.layout.shape), Prod(designs.layout.shape),
                                    Prod(parameters.layout.shape), Weights(features.layout))
      ensures Valid() && fresh(buffer)
      ensures this.parameters == parameters && this.features == features && this.designs == designs
      ensures this.likelihood == likelihood && this.log2 == log2
      ensures !initialized && buffer[..] == seq(|likelihood.data|, k => 0.0)
    {
      this.parameters := parameters;
      this.features := features;
      this.designs := designs;
      this.likelihood := likelihood;
      this.log2 := log2;
      buffer := new real[|likelihood.data|](k => 0.0);
      initialized := false;
      prior := Tensor([], [0.0]);
      H0 := 0.0;
      marginal := [];
      IG := [];
      EIG := [];
    }

    /** __init__: check the likelihood's shape, and, with the three grids
        stacked, that it is normalized over the features; then allocate the
        buffer. */
    static method Create(parameters: Grid, features: Grid, designs: Grid, likelihood: Tensor, log2: real -> real)
      returns (r: Result<ExperimentDesigner>)
      requires parameters.Valid() && features.Valid() && designs.Valid() && WellFormed(likelihood)
      modifies parameters, features, designs
      ensures likelihood.shape != features.layout.shape + designs.layout.shape + parameters.layout.shape
              ==> r == Err(ShapeMismatch)
      ensures r.Err? ==> r.error == ShapeMismatch || r.error == AlreadyStacked || r.error == LikelihoodNotNormalized
      ensures r.Err? && r.error == LikelihoodNotNormalized ==>
              !LikelihoodNormalized(likelihood.data, Prod(features.layout.shape), Prod(designs.layout.shape),
                                    Prod(parameters.layout.shape), Weights(features.layout))
      ensures likelihood.shape == features.layout.shape + designs.layout.shape + parameters.layout.shape &&
              Distinct([features, designs, parameters]) &&
              old(features.stackOffset) == 0 && old(features.stackPad) == 0 &&
              old(designs.stackOffset) == 0 && old(designs.stackPad) == 0 &&
              old(parameters.stackOffset) == 0 && old(parameters.stackPad) == 0
              ==> (r.Ok? <==> LikelihoodNormalized(likelihood.data, Prod(features.layout.shape),
                                Prod(designs.layout.shape), Prod(parameters.layout.shape), Weights(features.layout)))
      ensures r.Ok? ==> fresh(r.value) && fresh(r.value.buffer) && r.value.Valid()
      ensures r.Ok? ==> r.value.parameters == parameters && r.value.features == features &&
                        r.value.designs == designs && r.value.likelihood == likelihood && r.value.log2 == log2
      ensures r.Ok? ==> !r.value.initialized && r.value.buffer[..] == seq(|likelihood.data|, k => 0.0)
      ensures r.Ok? || (r.Err? && r.error == LikelihoodNotNormalized) ==>
              features.stackOffset == 0 && designs.stackOffset == 0 && parameters.stackOffset == 0
    {
      if likelihood.shape != features.layout.shape + designs.layout.shape + parameters.layout.shape {
        return Err(ShapeMismatch);
      }
      var e := CheckLikelihood(parameters, features, designs, likelihood);
      if e.Some? {
        return Err(e.value);
      }
      var d := new ExperimentDesigner(parameters, features, designs, likelihood, log2);
      return Ok(d);
    }

    /** The check of __init__ made with features, designs and parameters
        stacked: features.sum of the likelihood is one everywhere. */
    static method CheckLikelihood(parameters: Grid, features: Grid, designs: Grid, likelihood: Tensor)
      returns (e: Option<Error>)
      requires parameters.Valid() && features.Valid() && designs.Valid() && WellFormed(likelihood)
      requires likelihood.shape == features.layout.shape + designs.layout.shape + parameters.layout.shape
      modifies parameters, features, designs
      ensures e.Some? ==> e.value == AlreadyStacked || e.value == LikelihoodNotNormalized
      ensures e == Some(LikelihoodNotNormalized) ==>
              !LikelihoodNormalized(likelihood.data, Prod(features.layout.shape), Prod(designs.layout.shape),
                                    Prod(parameters.layout.shape), Weights(features.layout))
      ensures e.None? ==>
              LikelihoodNormalized(likelihood.data, Prod(features.layout.shape), Prod(designs.layout.shape),
                                   Prod(parameters.layout.shape), Weights(features.layout))
      ensures Distinct([features, designs, parameters]) &&
              old(features.stackOffset) == 0 && old(features.stackPad) == 0 &&
              old(designs.stackOffset) == 0 && old(designs.stackPad) == 0 &&
              old(parameters.stackOffset) == 0 && old(parameters.stackPad) == 0
              ==> e != Some(AlreadyStacked)
      ensures e != Some(AlreadyStacked) ==>
              features.stackOffset == 0 && designs.stackOffset == 0 && parameters.stackOffset == 0 &&
              features.stackPad == 0 && designs.stackPad == 0 && parameters.stackPad == 0
    {
      var stack, entered := StackThree(features, designs, parameters);
      if !entered {
        return Some(AlreadyStacked);
      }
      var ok := FeaturesNormalized(stack, parameters, features, designs, likelihood);
      UnstackThree(stack, features, designs, parameters);
      e := if ok then None else Some(LikelihoodNotNormalized);
    }

    /** With the grids stacked, whether features.sum of the likelihood is
        one everywhere. */
    static method FeaturesNormalized(stack: GridStack, parameters: Grid, features: Grid, designs: Grid, likelihood: Tensor)
      returns (ok: bool)
      requires parameters.Valid() && features.Valid() && designs.Valid() && WellFormed(likelihood)
      requires likelihood.shape == features.layout.shape + designs.layout.shape + parameters.layout.shape
      requires stack.grids == [features, designs, parameters] && stack.Stacked()
      ensures ok <==> LikelihoodNormalized(likelihood.data, Prod(features.layout.shape), Prod(designs.layout.shape),
                                           Prod(parameters.layout.shape), Weights(features.layout))
    {
      ThreeStacked(stack, features, designs, parameters);
      LeadingSum(features, likelihood, designs.layout.shape + parameters.layout.shape);
      var s := features.Sum(likelihood, false);
      ok := AllOne(s.value.data);
      ProdConcat(designs.layout.shape, parameters.layout.shape);
    }
  
    /** None of the three grids is stacked. */
    ghost predicate Unstacked()
      reads parameters, features, designs
    {
      parameters.stackOffset == 0 && parameters.stackPad == 0 &&
      features.stackOffset == 0 && features.stackPad == 0 &&
      designs.stackOffset == 0 && designs.stackPad == 0
    }

    /** parameters.sum over the stack features x designs x parameters. */
    lemma ParameterSum(data: seq<real>, keepdims: bool)
      requires Valid() && |data| == |likelihood.data|
      requires parameters.stackOffset == |features.layout.names| + |designs.layout.names|
      ensures WellFormed(Tensor(StackShape(), data))
      ensures parameters.Sum(Tensor(StackShape(), data), keepdims).Ok?
      ensures parameters.Sum(Tensor(StackShape(), data), keepdims).value.data == BlockSum(NF() * ND(), NP(), 1, WP(), data)
    {
      StackSize();
      StackedAt(parameters, features.layout.shape + designs.layout.shape, []);
      assert StackShape() == features.layout.shape + designs.layout.shape + parameters.layout.shape + [];
    }

    /** features.sum over the stack features x designs. */
    lemma FeatureSum(data: seq<real>)
      requires Valid() && |data| == NF() * ND() && features.stackOffset == 0
      ensures WellFormed(Tensor(features.layout.shape + designs.layout.shape, data))
      ensures features.Sum(Tensor(features.layout.shape + designs.layout.shape, data), false).Ok?
      ensures features.Sum(Tensor(features.layout.shape + designs.layout.shape, data), false).value.data ==
              BlockSum(1, NF(), ND(), WF(), data)
    {
      StackSize();
      StackedAt(features, [], designs.layout.shape);
      assert features.layout.shape + designs.layout.shape == [] + features.layout.shape + designs.layout.shape;
    }

    /** The start of calculateEIG: keep the prior, check that it sums to one
        over the parameters, and take its entropy. */
    method SetPrior(newPrior: Tensor) returns (e: Option<Error>)
      requires Valid() && WellFormed(newPrior)
      modifies this
      ensures Valid() && prior == newPrior
      ensures initialized == old(initialized) && marginal == old(marginal) && IG == old(IG) && EIG == old(EIG)
      ensures newPrior.shape != parameters.layout.shape ==> e == Some(ShapeMismatch)
      ensures newPrior.shape == parameters.layout.shape && parameters.stackOffset == 0 ==>
              e == if PriorNormalized(newPrior.data, WP()) then None else Some(PriorNotNormalized)
      ensures e.Some? ==> e.value == ShapeMismatch || e.value == PriorNotNormalized
      ensures e.None? ==> newPrior.shape == parameters.layout.shape && PriorNormalized(newPrior.data, WP()) &&
                          H0 == Entropy(newPrior.data, WP(), log2)
      ensures e.Some? ==> H0 == old(H0)
    {
      prior := newPrior;
      var h0;
      e, h0 := PriorEntropy(parameters, newPrior, log2);
      if e.None? {
        H0 := h0;
      }
    }
  
    /** `_buffer[:] = likelihood; _buffer *= prior`. */
    method FillJoint()
      requires Valid()
      modifies buffer
      ensures buffer[..] == Joint(likelihood.data, prior.data)
    {
      CopyInto(buffer, likelihood.data);
      ScaleByPrior(buffer, prior.data);
    }

    /** `_buffer /= post_norm`, post_norm a keepdims sum over the parameters. */
    method DivideByNorm(norm: seq<real>)
      requires Valid() && |norm| == NF() * ND() && forall i :: 0 <= i < |norm| ==> norm[i] != 0.0
      modifies buffer
      ensures DividedBy(buffer[..], old(buffer[..]), norm, NP(), 1)
    {
      StackSize();
      NormIndexBounds(NF() * ND(), NP(), 1);
      assert NF() * ND() * NP() * 1 == NF() * ND() * NP();
      DivideBlocks(buffer, norm, NP(), 1);
    }

    /** `_buffer[:] = likelihood; _buffer *= prior; _buffer /= post_norm`. */
    method FillPosterior(norm: seq<real>)
      requires Valid() && |norm| == NF() * ND() && forall i :: 0 <= i < |norm| ==> norm[i] != 0.0
      modifies buffer
      ensures DividedBy(buffer[..], Joint(likelihood.data, prior.data), norm, NP(), 1)
    {
      FillJoint();
      DivideByNorm(norm);
    }

    lemma JointMarginal()
      requires Valid() && prior.shape == parameters.layout.shape
      ensures BlockSum(NF() * ND(), NP(), 1, WP(), Joint(likelihood.data, prior.data)) ==
              Marginal(likelihood.data, prior.data, NF() * ND(), WP())
    {
      assert |prior.data| == NP();
    }

    /** `_buffer[:] = likelihood; _buffer *= prior`, then the marginal and
        the keepdims norm (the same numbers), then `_buffer /= post_norm`. */
    method JointAndMarginal() returns (norm: seq<real>)
      requires Valid() && prior.shape == parameters.layout.shape
      requires parameters.stackOffset == |features.layout.names| + |designs.layout.names|
      requires forall i :: 0 <= i < NF() * ND() ==> Marginal(likelihood.data, prior.data, NF() * ND(), WP())[i] != 0.0
      modifies this, buffer
      ensures Valid() && prior == old(prior) && H0 == old(H0) && initialized == old(initialized)
      ensures IG == old(IG) && EIG == old(EIG)
      ensures marginal == norm == Marginal(likelihood.data, prior.data, NF() * ND(), WP())
      ensures DividedBy(buffer[..], Joint(likelihood.data, prior.data), norm, NP(), 1)
    {
      FillJoint();
      ParameterSum(buffer[..], false);
      ParameterSum(buffer[..], true);
      marginal := parameters.Sum(Tensor(StackShape(), buffer[..]), false).value.data;
      norm := parameters.Sum(Tensor(StackShape(), buffer[..]), true).value.data;
      JointMarginal();
      DivideByNorm(norm);
    }

    /** `np.log2(_buffer, out=_buffer); _buffer *= likelihood; _buffer *= prior;
        _buffer /= post_norm`: from the posterior to post log2 post. */
    method InfoTerms(norm: seq<real>)
      requires Valid() && |norm| == NF() * ND() && forall i :: 0 <= i < |norm| ==> norm[i] != 0.0
      requires DividedBy(buffer[..], Joint(likelihood.data, prior.data), norm, NP(), 1)
      modifies buffer
      ensures buffer[..] == PLogP(old(buffer[..]), log2)
    {
      ghost var post := buffer[..];
      LogInPlace(buffer, log2);
      MultiplyBy(buffer, likelihood.data);
      ScaleByPrior(buffer, prior.data);
      DivideByNorm(norm);
      StagedInfoTerms(likelihood.data, prior.data, post, buffer[..], norm, NP(), log2);
    }

    /** The body of calculateEIG's first `with` block: the marginal, the
        posterior and the information gain, with the three grids stacked. */
    method Tabulate()
      requires Valid() && prior.shape == parameters.layout.shape
      requires parameters.stackOffset == |features.layout.names| + |designs.layout.names|
      requires forall i :: 0 <= i < NF() * ND() ==> Marginal(likelihood.data, prior.data, NF() * ND(), WP())[i] != 0.0
      modifies this, buffer
      ensures Valid() && prior == old(prior) && H0 == old(H0) && initialized == old(initialized) && EIG == old(EIG)
      ensures marginal == Marginal(likelihood.data, prior.data, NF() * ND(), WP())
      ensures DividedBy(buffer[..], Joint(likelihood.data, prior.data), marginal, NP(), 1)
      ensures IG == InfoGain(H0, buffer[..], NF() * ND(), NP(), WP(), log2)
    {
      var norm := JointAndMarginal();
      ghost var post := buffer[..];
      InfoTerms(norm);
      ParameterSum(buffer[..], false);
      IG := Shifted(H0, parameters.Sum(Tensor(StackShape(), buffer[..]), false).value.data);
      FillPosterior(norm);
      DividedUnique(buffer[..], post, Joint(likelihood.data, prior.data), norm, NP());
    }
  
    /** calculateEIG's first `with` block: the three grids are stacked as
        features x designs x parameters for the tabulation, then unstacked. */
    method WithParameters() returns (ok: bool)
      requires Valid() && prior.shape == parameters.layout.shape
      requires forall i :: 0 <= i < NF() * ND() ==> Marginal(likelihood.data, prior.data, NF() * ND(), WP())[i] != 0.0
      modifies this, buffer, parameters, features, designs
      ensures Valid() && prior == old(prior) && H0 == old(H0) && initialized == old(initialized) && EIG == old(EIG)
      ensures old(Unstacked()) && Distinct([features, designs, parameters]) ==> ok
      ensures ok ==> Unstacked()
      ensures ok ==> marginal == Marginal(likelihood.data, prior.data, NF() * ND(), WP())
      ensures ok ==> DividedBy(buffer[..], Joint(likelihood.data, prior.data), marginal, NP(), 1)
      ensures ok ==> IG == InfoGain(H0, buffer[..], NF() * ND(), NP(), WP(), log2)
    {
      var stack, entered := StackThree(features, designs, parameters);
      if !entered {
        return false;
      }
      ThreeStacked(stack, features, designs, parameters);
      Tabulate();
      UnstackThree(stack, features, designs, parameters);
      return true;
    }

    /** calculateEIG's second `with` block: with features and designs
        stacked, the expected information gain is the features-weighted sum
        of marginal times information gain. */
    method WithFeatures() returns (ok: bool)
      requires Valid() && |marginal| == NF() * ND() && |IG| == NF() * ND()
      modifies this, features, designs
      ensures Valid() && prior == old(prior) && H0 == old(H0) && initialized == old(initialized)
      ensures marginal == old(marginal) && IG == old(IG)
      ensures old(features.stackOffset == 0 && features.stackPad == 0 && designs.stackOffset == 0 && designs.stackPad == 0)
              ==> Distinct([features, designs]) ==> ok
      ensures ok ==> features.stackOffset == 0 && features.stackPad == 0 && designs.stackOffset == 0 && designs.stackPad == 0
      ensures ok ==> EIG == ExpectedGain(marginal, IG, NF(), ND(), WF())
    {
      var pair, entered := StackTwo(features, designs);
      if !entered {
        return false;
      }
      TwoStacked(pair, features, designs);
      FeatureSum(Times(marginal, IG));
      EIG := features.Sum(Tensor(features.layout.shape + designs.layout.shape, Times(marginal, IG)), false).value.data;
      UnstackTwo(pair, features, designs);
      return true;
    }

    /** calculateEIG after the prior is checked: the two `with` blocks, then
        the design where the expected information gain is largest. */
    method Evaluate() returns (r: Result<seq<real>>)
      requires Valid() && prior.shape == parameters.layout.shape
      requires forall i :: 0 <= i < NF() * ND() ==> Marginal(likelihood.data, prior.data, NF() * ND(), WP())[i] != 0.0
      modifies this, buffer, parameters, features, designs
      ensures Valid() && prior == old(prior) && H0 == old(H0)
      ensures old(initialized) ==> initialized
      ensures old(Unstacked()) && Distinct([features, designs, parameters]) ==> initialized && (r.Ok? <==> ND() > 0)
      ensures r.Err? ==> r.error == AlreadyStacked || r.error == EmptySequence
      ensures r.Ok? ==> initialized && Unstacked()
      ensures r.Ok? ==> marginal == Marginal(likelihood.data, prior.data, NF() * ND(), WP())
      ensures r.Ok? ==> DividedBy(buffer[..], Joint(likelihood.data, prior.data), marginal, NP(), 1)
      ensures r.Ok? ==> IG == InfoGain(H0, buffer[..], NF() * ND(), NP(), WP(), log2)
      ensures r.Ok? ==> EIG == ExpectedGain(marginal, IG, NF(), ND(), WF())
      ensures r.Ok? ==> r == designs.GetMax(Tensor(designs.layout.shape, EIG))
    {
      var ok := WithParameters();
      if !ok {
        return Err(AlreadyStacked);
      }
      if Distinct([features, designs, parameters]) {
        assert [features, designs, parameters][0] != [features, designs, parameters][1];
        assert Distinct([features, designs]);
      }
      ok := WithFeatures();
      if !ok {
        return Err(AlreadyStacked);
      }
      initialized := true;
      r := designs.GetMax(Tensor(designs.layout.shape, EIG));
    }

    /** What a successful calculateEIG leaves behind: the prior sums to one
        over the parameters, H0 is its entropy, and the marginal, the
        posterior in the buffer, the information gain and the expected
        information gain are those of the likelihood and this prior. */
    ghost predicate Computed()
      reads this, buffer, parameters, features, designs
      requires Valid()
    {
      initialized && Unstacked() &&
      prior.shape == parameters.layout.shape && PriorNormalized(prior.data, WP()) &&
      H0 == Entropy(prior.data, WP(), log2) &&
      marginal == Marginal(likelihood.data, prior.data, NF() * ND(), WP()) &&
      (forall i :: 0 <= i < NF() * ND() ==> marginal[i] != 0.0) &&
      DividedBy(buffer[..], Joint(likelihood.data, prior.data), marginal, NP(), 1) &&
      IG == InfoGain(H0, buffer[..], NF() * ND(), NP(), WP(), log2) &&
      EIG == ExpectedGain(marginal, IG, NF(), ND(), WF())
    }

    /** Every point of the posterior in the buffer that passes calculateEIG's
        checks as a prior gives a marginal with no zero cell: update can hand
        it back to calculateEIG. */
    ghost predicate Renormalizable()
      requires Valid()
      reads this, buffer
    {
      var t := Tensor(StackShape(), buffer[..]);
      forall loc: seq<Loc> ::
        (|loc| == |StackShape()| && PointsIn(StackShape(), loc) &&
         Select(t, loc).shape == parameters.layout.shape && PriorNormalized(Select(t, loc).data, WP()))
        ==> forall i :: 0 <= i < NF() * ND() ==> Marginal(likelihood.data, Select(t, loc).data, NF() * ND(), WP())[i] != 0.0
    }

    /** calculateEIG: the prior's entropy, then the marginal, the posterior
        (left in the buffer) and the information gain, then the expected
        information gain; the result is the design where it is largest. The
        posterior sums to one over the parameters and the marginal to one
        over the features. */
    method CalculateEIG(newPrior: Tensor) returns (r: Result<seq<real>>)
      requires Valid() && WellFormed(newPrior)
      requires newPrior.shape == parameters.layout.shape && PriorNormalized(newPrior.data, WP()) ==>
               forall i :: 0 <= i < NF() * ND() ==> Marginal(likelihood.data, newPrior.data, NF() * ND(), WP())[i] != 0.0
      modifies this, buffer, parameters, features, designs
      ensures Valid() && prior == newPrior
      ensures newPrior.shape != parameters.layout.shape ==> r == Err(ShapeMismatch)
      ensures old(Unstacked()) && newPrior.shape == parameters.layout.shape && !PriorNormalized(newPrior.data, WP())
              ==> r == Err(PriorNotNormalized)
      ensures old(Unstacked()) && Distinct([features, designs, parameters]) &&
              newPrior.shape == parameters.layout.shape && PriorNormalized(newPrior.data, WP())
              ==> initialized && (r.Ok? <==> ND() > 0)
      ensures r.Err? ==> r.error in {ShapeMismatch, PriorNotNormalized, AlreadyStacked, EmptySequence}
      ensures r.Err? && r.error in {ShapeMismatch, PriorNotNormalized} ==>
              initialized == old(initialized) && H0 == old(H0) && marginal == old(marginal) &&
              IG == old(IG) && EIG == old(EIG)
      ensures old(initialized) ==> initialized
      ensures r.Ok? ==> Computed() && r == designs.GetMax(Tensor(designs.layout.shape, EIG))
      ensures r.Ok? ==> forall i :: 0 <= i < NF() * ND() ==> BlockSum(NF() * ND(), NP(), 1, WP(), buffer[..])[i] == 1.0
      ensures r.Ok? ==> forall d :: 0 <= d < ND() ==> BlockSum(1, NF(), ND(), WF(), marginal)[d] == 1.0
    {
      var e := SetPrior(newPrior);
      if e.Some? {
        return Err(e.value);
      }
      r := Evaluate();
      if r.Ok? {
        StackSize();
        assert |prior.data| == NP();
        PosteriorNormalized(likelihood.data, prior.data, buffer[..], NF() * ND(), WP());
        MarginalNormalized(likelihood.data, prior.data, NF(), ND(), WF(), WP());
      }
    }

    /** get_posterior: with the three grids stacked, the nearest grid point
        of every named coordinate; the posterior there, copied out of the
        buffer. */
    method GetPosterior(coords: seq<Coord>) returns (r: Result<Tensor>, ghost loc: seq<Loc>)
      requires Valid() && DistinctNames(coords)
      modifies parameters, features, designs
      ensures r.Err? ==> r.error == AlreadyStacked || r.error == EmptySequence ||
                         r.error == IndexOutOfRange || r.error.InvalidGridNames?
      ensures old(Unstacked()) && Distinct([features, designs, parameters]) ==> r.Ok? || r.error != AlreadyStacked
      ensures r.Ok? ==> Unstacked() && |loc| == |StackShape()| && PointsIn(StackShape(), loc)
      ensures r.Ok? ==> loc == StackIndex([features, designs, parameters], coords)
      ensures r.Ok? ==> r.value == Select(Tensor(StackShape(), buffer[..]), loc)
      ensures old(Unstacked()) && Findable(coords) && Missing([features, designs, parameters], coords) == []
              ==> (r.Ok? <==> PointsIn(StackShape(), Located(coords)))
      ensures old(Unstacked()) && Findable(coords) && Missing([features, designs, parameters], coords) != []
              ==> r == Err(InvalidGridNames(Missing([features, designs, parameters], coords)))
    {
      loc := [];
      var at := LocateInStack(parameters, features, designs, coords);
      if at.Err? {
        return Err(at.error), loc;
      }
      loc := at.value;
      if !PointsIn(StackShape(), at.value) {
        return Err(IndexOutOfRange), loc;
      }
      r := Ok(Select(Tensor(StackShape(), buffer[..]), at.value));
    }

    /** update: the posterior at the observed features and design becomes
        the prior of a new calculateEIG. */
    method Update(coords: seq<Coord>) returns (r: Result<seq<real>>, ghost loc: seq<Loc>)
      requires Valid() && Renormalizable() && DistinctNames(coords)
      modifies this, buffer, parameters, features, designs
      ensures Valid()
      ensures r.Ok? ==> loc == StackIndex([features, designs, parameters], coords)
      ensures r.Ok? ==> |loc| == |StackShape()| && PointsIn(StackShape(), loc) &&
                        prior == old(Select(Tensor(StackShape(), buffer[..]), loc))
      ensures r.Ok? ==> Computed() && r == designs.GetMax(Tensor(designs.layout.shape, EIG))
      ensures r.Ok? && Positive(likelihood.data) && old(NonNegative(buffer[..])) ==>
              NonNegative(buffer[..]) && Renormalizable()
      ensures old(Unstacked()) && Findable(coords) && Missing([features, designs, parameters], coords) == [] &&
              old(NextPriorAt(coords))
              ==> (r.Ok? <==> ND() > 0)
    {
      ghost var nonNegative := NonNegative(buffer[..]);
      var post;
      post, loc := GetPosterior(coords);
      if post.Err? {
        return Err(post.error), loc;
      }
      if nonNegative {
        SelectNonNegative(Tensor(StackShape(), buffer[..]), loc);
      }
      r := CalculateEIG(post.value);
      if r.Ok? && Positive(likelihood.data) && nonNegative {
        UpdateReady();
      }
    }

    /** The posterior calculateEIG leaves in the buffer has no negative value
        when the likelihood and the prior have none. */
    lemma PosteriorNonNegative()
      requires Valid() && Computed() && NonNegative(likelihood.data) && NonNegative(prior.data)
      ensures NonNegative(buffer[..])
    {
      StackSize();
      WeightsPositive(parameters.layout);
      PosteriorSigns(likelihood.data, prior.data, buffer[..], NF() * ND(), WP());
    }

    /** With a positive likelihood, any posterior with no negative value can
        be handed back to calculateEIG by update. */
    lemma RenormalizableWhenPositive()
      requires Valid() && Positive(likelihood.data) && NonNegative(buffer[..])
      ensures Renormalizable()
    {
      StackSize();
      WeightsPositive(parameters.layout);
      var t := Tensor(StackShape(), buffer[..]);
      forall loc: seq<Loc> | |loc| == |StackShape()| && PointsIn(StackShape(), loc) &&
          Select(t, loc).shape == parameters.layout.shape && PriorNormalized(Select(t, loc).data, WP())
        ensures forall i :: 0 <= i < NF() * ND() ==> Marginal(likelihood.data, Select(t, loc).data, NF() * ND(), WP())[i] != 0.0
      {
        SelectNonNegative(t, loc);
        MarginalPositive(likelihood.data, Select(t, loc).data, NF() * ND(), WP());
      }
    }

    /** After calculateEIG succeeds with a positive likelihood and a prior
        with no negative value, the posterior has no negative value and
        update can feed any point of it back into calculateEIG, again and
        again. */
    lemma UpdateReady()
      requires Valid() && Computed() && Positive(likelihood.data) && NonNegative(prior.data)
      ensures NonNegative(buffer[..]) && Renormalizable()
    {
      PosteriorNonNegative();
      RenormalizableWhenPositive();
    }

    /** The posterior at one point of the features and designs grids, every
        parameter axis taken whole, sums to one over the parameters: it
        passes calculateEIG's normalization check as the next prior. */
    lemma SelectedPosteriorNormalized(pts: seq<nat>)
      requires Valid() && Computed()
      requires InRange(features.layout.shape + designs.layout.shape, pts)
      ensures |Points(pts) + Alls(|parameters.layout.shape|)| == |StackShape()|
      ensures Select(Tensor(StackShape(), buffer[..]), Points(pts) + Alls(|parameters.layout.shape|)).shape == parameters.layout.shape
      ensures PriorNormalized(Select(Tensor(StackShape(), buffer[..]), Points(pts) + Alls(|parameters.layout.shape|)).data, WP())
    {
      StackSize();
      var t := Tensor(StackShape(), buffer[..]);
      assert |prior.data| == NP();
      PosteriorNormalized(likelihood.data, prior.data, buffer[..], NF() * ND(), WP());
      SelectedBlockNormalized(t, features.layout.shape + designs.layout.shape, parameters.layout.shape, pts, WP());
    }

    /** What Valid() says of the grids and the buffer alone: the buffer
        holds one value per cell of the stack. */
    ghost predicate Stackable()
      reads this
    {
      parameters.Valid() && features.Valid() && designs.Valid() && buffer.Length == Prod(StackShape())
    }

    /** The posterior in the buffer summed over the nuisance axes of the
        stacked parameters, keeping them with length one. */
    ghost function ReducedPosterior(nuisance: seq<string>): seq<real>
      requires Stackable() && AllIn(nuisance, parameters.layout.names)
      reads this, buffer
    {
      ReducedOf(features.layout.shape + designs.layout.shape, parameters, buffer[..], nuisance)
    }

    /** The expected information gain with the parameters marginalized over
        the nuisance axes: `reduced` is the marginalized prior, the
        posterior is reduced in the same way, and the information gain is
        summed over what is left of the parameters. */
    ghost function MarginalEIGOf(reduced: Tensor, nuisance: seq<string>): seq<real>
      requires Valid() && AllIn(nuisance, parameters.layout.names)
      reads this, buffer
    {
      var ig := MarginalInfoGain(MarginalEntropy(reduced.data, log2), ReducedPosterior(nuisance), NF() * ND(), |reduced.data|, log2);
      ExpectedGain(marginal, ig, NF(), ND(), WF())
    }

    /** calculateMarginalEIG's first line as written: the prior summed over
        the nuisance axes with keepdims, then its entropy through the grid's
        own sum, which checks the grid's shape. */
    function PriorEntropyAsWritten(nuisance: seq<string>): (r: Result<real>)
      requires Valid()
      reads this, parameters
      ensures !Fits(prior.shape, parameters.stackOffset, parameters.layout.shape) ==> r == Err(ShapeMismatch)
      ensures r.Err? ==> r.error in {ShapeMismatch, SumWithConstraint, InvalidAxisNames, DuplicateAxes}
      ensures r.Ok? ==> parameters.layout.constraint.None? && AllIn(nuisance, parameters.layout.names) && Distinct(nuisance)
    {
      var reduced := parameters.SumAxes(prior, nuisance, true);
      if reduced.Err? then Err(reduced.error)
      else
        var total := parameters.Sum(Tensor(reduced.value.shape, PLogP(reduced.value.data, log2)), false);
        if total.Err? then Err(ShapeMismatch) else Ok(-At(total.value.data, 0))
    }

    /** As written, the entropy of the marginalized prior fails with a shape
        error whenever a nuisance axis has more than one value: the summed
        axis is kept with length one, which is no longer the grid's shape. */
    lemma PriorEntropyRejects(nuisance: seq<string>)
      requires Valid() && parameters.stackOffset == 0 && prior.shape == parameters.layout.shape
      requires parameters.layout.constraint.None? && AllIn(nuisance, parameters.layout.names) && Distinct(nuisance)
      requires LongAxis(parameters.layout, nuisance)
      ensures PriorEntropyAsWritten(nuisance) == Err(ShapeMismatch)
    {
      ReducedShapeMismatch(prior, parameters.layout, nuisance);
    }

    /** The `with` block of calculateMarginalEIG as written. */
    method MarginalStackAsWritten(h0: real, nuisance: seq<string>) returns (r: Result<seq<real>>)
      requires Valid() && initialized
      modifies parameters, features, designs
      ensures r.Ok? ==> Unstacked()
    {
      var stack, entered := StackThree(features, designs, parameters);
      if !entered {
        return Err(AlreadyStacked);
      }
      ThreeStacked(stack, features, designs, parameters);
      StackSize();
      var post := parameters.SumAxes(Tensor(StackShape(), buffer[..]), nuisance, true);
      var eig: Result<Tensor> := Err(ShapeMismatch);
      if post.Ok? {
        var terms := parameters.Sum(Tensor(post.value.shape, PLogP(post.value.data, log2)), false);
        if terms.Ok? {
          var ig := Shifted(h0, terms.value.data);
          eig := features.Sum(Tensor(features.layout.shape + designs.layout.shape, Times(marginal, ig)), false);
        }
      }
      UnstackThree(stack, features, designs, parameters);
      if eig.Err? {
        return Err(eig.error);
      }
      r := Ok(eig.value.data);
    }

    /** calculateMarginalEIG as written: it fails unless the designer is
        initialized and the prior's entropy passes the shape check. */
    method CalculateMarginalEIGAsWritten(nuisance: seq<string>) returns (r: Result<seq<real>>)
      requires Valid()
      modifies parameters, features, designs
      ensures !initialized ==> r == Err(NotInitialized)
      ensures initialized && old(PriorEntropyAsWritten(nuisance)).Err? ==> r == Err(old(PriorEntropyAsWritten(nuisance)).error)
      ensures r.Ok? ==> Unstacked()
    {
      if !initialized {
        return Err(NotInitialized);
      }
      var h0 := PriorEntropyAsWritten(nuisance);
      if h0.Err? {
        return Err(h0.error);
      }
      r := MarginalStackAsWritten(h0.value, nuisance);
    }

    /** The `with` block of calculateMarginalEIG: the posterior summed over
        the nuisance axes, its information gain over what is left of the
        parameters, and the expected information gain over the features. */
    method MarginalStack(h0: real, nR: nat, nuisance: seq<string>) returns (ok: bool, eig: seq<real>)
      requires Valid() && initialized
      requires parameters.layout.constraint.None? && AllIn(nuisance, parameters.layout.names) && Distinct(nuisance)
      modifies parameters, features, designs
      ensures old(Unstacked()) && Distinct([features, designs, parameters]) ==> ok
      ensures ok ==> Unstacked()
      ensures ok ==> eig == ExpectedGain(marginal, MarginalInfoGain(h0, ReducedPosterior(nuisance), NF() * ND(), nR, log2), NF(), ND(), WF())
    {
      var stack, entered := StackThree(features, designs, parameters);
      if !entered {
        return false, [];
      }
      eig := StackedMarginal(stack, h0, nR, nuisance);
      UnstackThree(stack, features, designs, parameters);
      ok := true;
    }

    /** With the grids stacked: the posterior summed over the nuisance axes,
        its information gain and the expected information gain. */
    method StackedMarginal(stack: GridStack, h0: real, nR: nat, nuisance: seq<string>) returns (eig: seq<real>)
      requires Valid() && initialized && stack.grids == [features, designs, parameters] && stack.Stacked()
      requires parameters.layout.constraint.None? && AllIn(nuisance, parameters.layout.names) && Distinct(nuisance)
      ensures eig == ExpectedGain(marginal, MarginalInfoGain(h0, ReducedPosterior(nuisance), NF() * ND(), nR, log2), NF(), ND(), WF())
    {
      ThreeStacked(stack, features, designs, parameters);
      StackSize();
      Rank(features);
      Rank(designs);
      StackedSumAxes(features.layout.shape + designs.layout.shape, parameters, buffer[..], nuisance);
      var post := parameters.SumAxes(Tensor(features.layout.shape + designs.layout.shape + parameters.layout.shape, buffer[..]),
                                     nuisance, true);
      var ig := MarginalInfoGain(h0, post.value.data, NF() * ND(), nR, log2);
      FeatureSum(Times(marginal, ig));
      eig := features.Sum(Tensor(features.layout.shape + designs.layout.shape, Times(marginal, ig)), false).value.data;
      assert eig == ExpectedGain(marginal, ig, NF(), ND(), WF());
    }

    /** calculateMarginalEIG: the prior marginalized over the nuisance axes
        and its entropy, then the marginalized posterior, its information
        gain and the expected information gain. */
    method CalculateMarginalEIG(nuisance: seq<string>) returns (r: Result<seq<real>>)
      requires Valid()
      modifies parameters, features, designs
      ensures !initialized ==> r == Err(NotInitialized)
      ensures r.Err? ==> r.error in {NotInitialized, ShapeMismatch, SumWithConstraint, InvalidAxisNames, DuplicateAxes, AlreadyStacked}
      ensures initialized && old(Unstacked()) && Distinct([features, designs, parameters]) &&
              prior.shape == parameters.layout.shape && parameters.layout.constraint.None? &&
              AllIn(nuisance, parameters.layout.names) && Distinct(nuisance)
              ==> r.Ok?
      ensures r.Ok? ==> Unstacked() && parameters.layout.constraint.None? && AllIn(nuisance, parameters.layout.names)
      ensures r.Ok? ==> old(parameters.SumAxes(prior, nuisance, true)).Ok? &&
                        r.value == MarginalEIGOf(old(parameters.SumAxes(prior, nuisance, true)).value, nuisance)
    {
      if !initialized {
        return Err(NotInitialized);
      }
      var reduced := parameters.SumAxes(prior, nuisance, true);
      if reduced.Err? {
        return Err(reduced.error);
      }
      if old(Unstacked()) && prior.shape == parameters.layout.shape {
        FitsWhole(prior.shape, parameters.layout.shape);
      }
      var ok, eig := MarginalStack(MarginalEntropy(reduced.value.data, log2), |reduced.value.data|, nuisance);
      if !ok {
        return Err(AlreadyStacked);
      }
      r := Ok(eig);
    }

    /** Marginalizing over no nuisance axis reproduces calculateEIG. */
    lemma NoNuisance()
      requires Valid() && Computed() && parameters.layout.constraint.None?
      ensures parameters.SumAxes(prior, [], true) == Ok(prior)
      ensures MarginalEIGOf(prior, []) == EIG
    {
      assert Slice(prior.shape, 0, |parameters.layout.shape|) == parameters.layout.shape;
      assert Positions(parameters.layout.names, [], 0) == [];
      var ds := Positions(parameters.layout.names, [], |features.layout.names| + |designs.layout.names|);
      assert ds == [];
      assert |prior.data| == NP();
      NoNuisanceEntropy(prior.data, parameters.layout, log2);
      NoNuisanceInfoGain(H0, buffer[..], NF() * ND(), parameters.layout, log2);
    }
  }
}

=== FILE: errors.dfy ===
/** Outcomes of the operations of the model: a value, or the exception the
    Python code raises, named after its cause. */
module Errors {

  datatype Error =
    | InvalidAxis(axisName: string)              // RuntimeError: an axis that is not 1-D
    | NotCallable                                // ValueError: the constraint is not a function
    | InvalidConstraintName(argName: string)     // ValueError: a constraint argument that is not an axis
    | NegativeConstraint                         // ValueError: a negative constraint value
    | NoConstrainedAxis                          // IndexError: a constraint that names no axis
    | SqueezedAxis                               // KeyError or IndexError: np.squeeze dropped a constrained axis
    | ShapeMismatch                              // ValueError: values do not have the grid's shape
    | NotInGrid(missingName: string)             // ValueError raised by Grid.axis
    | UnknownAxis(unknownName: string)           // KeyError on the axes dictionary
    | EmptySequence                              // ValueError: min, max, argmin or argmax of nothing
    | SumWithConstraint                          // NotImplementedError: named sum under a constraint
    | InvalidAxisNames                           // ValueError: named sum with an unknown name
    | DuplicateAxes                              // ValueError from np.sum: an axis named twice
    | NoArguments                                // IndexError: PermutationInvariant with no axis
    | NotIdentical                               // ValueError: PermutationInvariant over different axes
    | AlreadyStacked                             // AssertionError on GridStack entry
    | InvalidGridNames(names: seq<string>)       // ValueError raised by GridStack.at
    | IndexOutOfRange                            // IndexError while slicing a tensor
    | LikelihoodNotNormalized                    // AssertionError in the designer's constructor
    | PriorNotNormalized                         // ValueError raised by calculateEIG
    | NotInitialized                             // RuntimeError raised by calculateMarginalEIG

  datatype Result<T> = Ok(value: T) | Err(error: Error)

  datatype Option<T> = None | Some(value: T)
}

=== FILE: grid_index.dfy ===
/** Index bookkeeping shared by the Grid operations: where a cell of the
    reduced grid sits in the expanded grid, argmin/argmax over flat arrays,
    and the lookup of a name among the axes. */
module GridIndex {
  import opened Shapes
  import opened GridLayout

  /** A cell of an expanded array: NaN where a constraint removed the cell. */
  datatype Cell = NaN | Num(x: real)

  /** Every value of a reduced array, as cells. */
  function Wrap(data: seq<real>): (cells: seq<Cell>)
    ensures |cells| == |data| && forall i :: 0 <= i < |data| ==> cells[i] == Num(data[i])
  {
    seq(|data|, i requires 0 <= i < |data| => Num(data[i]))
  }

  /** Position of the first occurrence of `x` in `s` (tuple.index). */
  function IndexOf<T(==)>(s: seq<T>, x: T): (i: nat)
    requires x in s
    ensures i < |s| && s[i] == x && x !in s[..i]
  {
    if s[0] == x then 0
    else
      assert s == [s[0]] + s[1..];
      var j := IndexOf(s[1..], x);
      assert s[..j + 1] == [s[0]] + s[1..][..j];
      j + 1
  }

  /** `ii` with the position of each of the first `m` constrained axes replaced
      by that axis's original index for kept cell `i0` (the inner loop of
      Grid.expand). */
  function LiftUpTo(ci: ConstraintInfo, ii: seq<nat>, i0: nat, m: nat): (jj: seq<nat>)
    requires m <= |ci.offsets| && |ci.indices| == |ci.offsets|
    requires forall j :: 0 <= j < m ==> ci.offsets[j] < |ii| && i0 < |ci.indices[j]|
    requires forall j, j' :: 0 <= j < j' < |ci.offsets| ==> ci.offsets[j] < ci.offsets[j']
    ensures |jj| == |ii|
    ensures forall j :: 0 <= j < m ==> jj[ci.offsets[j]] == ci.indices[j][i0]
    ensures forall p :: 0 <= p < |ii| && p !in ci.offsets[..m] ==> jj[p] == ii[p]
    decreases m
  {
    if m == 0 then ii
    else
      var prev := LiftUpTo(ci, ii, i0, m - 1);
      assert ci.offsets[..m] == ci.offsets[..m - 1] + [ci.offsets[m - 1]];
      prev[ci.offsets[m - 1] := ci.indices[m - 1][i0]]
  }

  /** The full-grid index of cell `c` of a constrained grid: its unconstrained
      coordinates are kept and its constrained ones are taken from the kept cell
      it lies on. */
  function Origin(l: Layout, c: nat): (jj: seq<nat>)
    requires ValidLayout(l) && l.constraint.Some? && c < Prod(l.shape)
    ensures InRange(l.expandedShape, jj)
  {
    var ci := l.constraint.value;
    var ii := Unflatten(l.shape, c);
    assert ci.offsets[..|ci.offsets|] == ci.offsets;
    LiftUpTo(ci, ii, ii[ci.offsets[0]], |ci.offsets|)
  }

  /** Row-major position in the expanded array of cell `c` of the reduced array. */
  function Target(l: Layout, c: nat): (t: nat)
    requires ValidLayout(l) && l.constraint.Some? && c < Prod(l.shape)
    ensures t < Prod(l.expandedShape)
  {
    FlattenBound(l.expandedShape, Origin(l, c));
    Flatten(l.expandedShape, Origin(l, c))
  }

  /** What Origin keeps and what it replaces. */
  lemma OriginFacts(l: Layout, c: nat)
    requires ValidLayout(l) && l.constraint.Some? && c < Prod(l.shape)
    ensures var ci, ii := l.constraint.value, Unflatten(l.shape, c);
      (forall j :: 0 <= j < |ci.offsets| ==> Origin(l, c)[ci.offsets[j]] == ci.indices[j][ii[ci.offsets[0]]]) &&
      (forall p :: 0 <= p < |l.shape| && p !in ci.offsets ==> Origin(l, c)[p] == ii[p])
  {
    var ci := l.constraint.value;
    assert ci.offsets[..|ci.offsets|] == ci.offsets;
  }

  /** Two reduced cells with the same expanded coordinates lie on the same kept cell. */
  lemma SameKeptCell(l: Layout, c: nat, c': nat)
    requires ValidLayout(l) && l.constraint.Some? && c < Prod(l.shape) && c' < Prod(l.shape)
    requires Origin(l, c) == Origin(l, c')
    ensures var o0 := l.constraint.value.offsets[0];
      Unflatten(l.shape, c)[o0] == Unflatten(l.shape, c')[o0]
  {
    var ci := l.constraint.value;
    var i0, i0' := Unflatten(l.shape, c)[ci.offsets[0]], Unflatten(l.shape, c')[ci.offsets[0]];
    OriginFacts(l, c);
    OriginFacts(l, c');
    assert KeptTuple(ci, i0) == KeptTuple(ci, i0') by {
      forall j | 0 <= j < |ci.offsets|
        ensures KeptTuple(ci, i0)[j] == KeptTuple(ci, i0')[j]
      {
        assert Origin(l, c)[ci.offsets[j]] == ci.indices[j][i0];
      }
    }
  }

  /** Distinct reduced cells land on distinct expanded cells. */
  lemma OriginInjective(l: Layout, c: nat, c': nat)
    requires ValidLayout(l) && l.constraint.Some? && c < Prod(l.shape) && c' < Prod(l.shape)
    requires Origin(l, c) == Origin(l, c')
    ensures c == c'
  {
    var ci := l.constraint.value;
    var ii, ii' := Unflatten(l.shape, c), Unflatten(l.shape, c');
    SameKeptCell(l, c, c');
    OriginFacts(l, c);
    OriginFacts(l, c');
    forall p | 0 <= p < |l.shape|
      ensures ii[p] == ii'[p]
    {
      if p in ci.offsets {
        var j :| 0 <= j < |ci.offsets| && ci.offsets[j] == p;
        if j > 0 {
          assert l.shape[p] == 1;
        }
      } else {
        assert Origin(l, c)[p] == ii[p];
      }
    }
    assert ii == ii';
    FlattenUnflatten(l.shape, c);
    FlattenUnflatten(l.shape, c');
  }

  /** Target is injective, so no kept value overwrites another. */
  lemma TargetInjective(l: Layout, c: nat, c': nat)
    requires ValidLayout(l) && l.constraint.Some? && c < Prod(l.shape) && c' < Prod(l.shape)
    requires Target(l, c) == Target(l, c')
    ensures c == c'
  {
    FlattenInjective(l.expandedShape, Origin(l, c), Origin(l, c'));
    OriginInjective(l, c, c');
  }

  /** Expanded cell `t` is the image of some kept cell. */
  ghost predicate Kept(l: Layout, t: nat)
    requires ValidLayout(l) && l.constraint.Some?
  {
    exists c :: 0 <= c < Prod(l.shape) && Target(l, c) == t
  }

  /** The reduced array read back from an expanded one. */
  function Restrict(l: Layout, cells: seq<Cell>): (r: seq<Cell>)
    requires ValidLayout(l) && |cells| == Prod(l.expandedShape)
    ensures |r| == Prod(l.shape)
  {
    if l.constraint.None? then cells
    else seq(Prod(l.shape), c requires 0 <= c < Prod(l.shape) => cells[Target(l, c)])
  }

  function Abs(x: real): real
  {
    if x < 0.0 then -x else x
  }

  /** Position of the first smallest element (np.argmin). */
  function ArgMin(s: seq<real>): (i: nat)
    requires |s| > 0
    ensures i < |s|
    ensures forall j :: 0 <= j < |s| ==> s[i] <= s[j]
    ensures forall j :: 0 <= j < i ==> s[i] < s[j]
  {
    if |s| == 1 then 0
    else
      var i := ArgMin(s[..|s| - 1]);
      if s[|s| - 1] < s[i] then |s| - 1 else i
  }

  /** Position of the first largest element (np.argmax). */
  function ArgMax(s: seq<real>): (i: nat)
    requires |s| > 0
    ensures i < |s|
    ensures forall j :: 0 <= j < |s| ==> s[j] <= s[i]
    ensures forall j :: 0 <= j < i ==> s[j] < s[i]
  {
    if |s| == 1 then 0
    else
      var i := ArgMax(s[..|s| - 1]);
      if s[i] < s[|s| - 1] then |s| - 1 else i
  }

  /** Smallest and largest element (ndarray.min / ndarray.max). */
  function MinOf(s: seq<real>): (m: real)
    requires |s| > 0
    ensures m in s && forall j :: 0 <= j < |s| ==> m <= s[j]
  {
    if |s| == 1 then s[0]
    else
      var m := MinOf(s[..|s| - 1]);
      assert m in s[..|s| - 1];
      if s[|s| - 1] < m then s[|s| - 1] else m
  }

  function MaxOf(s: seq<real>): (m: real)
    requires |s| > 0
    ensures m in s && forall j :: 0 <= j < |s| ==> s[j] <= m
  {
    if |s| == 1 then s[0]
    else
      var m := MaxOf(s[..|s| - 1]);
      assert m in s[..|s| - 1];
      if m < s[|s| - 1] then s[|s| - 1] else m
  }
}

=== FILE: grid_layout.dfy ===
/** The construction of a named-axis grid (src/bed/grid.py, Grid.__init__):
    each named 1-D axis gets its own broadcast position, and an optional
    non-negative constraint collapses the surviving cells of the axes it
    names onto the first of them. The result is a `Layout`, the immutable
    part of a Grid. */
module GridLayout {
  import opened Errors
  import opened Shapes

  /** One keyword argument of the constructor: the axis name, the numpy
      dimensions of the value given for it, and its values in order. */
  datatype AxisInput = AxisInput(name: string, dims: seq<nat>, values: seq<real>)

  /** The `constraint` argument. A callable is described by the names of
      its parameters (what the source reads with inspect.signature) and by
      its value at one cell, given the coordinates of that cell on the
      constrained axes in grid order. */
  datatype Constraint =
    | NoConstraint
    | NotAFunction
    | Callable(argNames: seq<string>, weight: seq<real> -> real)

  /** What a constraint leaves behind: the positions of the constrained
      axes, the non-zero constraint values of the kept cells in row-major
      order, and, for each constrained axis, the original index of every
      kept cell along that axis. */
  datatype ConstraintInfo = ConstraintInfo(offsets: seq<nat>, weights: seq<real>, indices: seq<seq<nat>>)

  /** Axis names, axis values (for a constrained axis: its value at every
      kept cell), the grid's own shape, the shape before the constraint,
      and the constraint data. */
  datatype Layout = Layout(
    names: seq<string>,
    axes: seq<seq<real>>,
    shape: seq<nat>,
    expandedShape: seq<nat>,
    constraint: Option<ConstraintInfo>)

  predicate Distinct<T(==)>(s: seq<T>)
  {
    forall i, j :: 0 <= i < j < |s| ==> s[i] != s[j]
  }

  function NamesOf(inputs: seq<AxisInput>): (names: seq<string>)
    ensures |names| == |inputs|
    ensures forall i :: 0 <= i < |inputs| ==> names[i] == inputs[i].name
  {
    seq(|inputs|, i requires 0 <= i < |inputs| => inputs[i].name)
  }

  /** A numpy value is accepted as an axis when np.atleast_1d makes it 1-D. */
  predicate OneDimensional(a: AxisInput)
  {
    |a.dims| <= 1
  }

  /** The tuple of the coordinate `c` of a cell of the constrained
      sub-grid, one entry per constrained axis. */
  function KeptTuple(ci: ConstraintInfo, c: nat): seq<nat>
    requires forall j :: 0 <= j < |ci.indices| ==> c < |ci.indices[j]|
  {
    seq(|ci.indices|, j requires 0 <= j < |ci.indices| => ci.indices[j][c])
  }

  ghost predicate ValidConstraint(l: Layout, ci: ConstraintInfo)
    requires |l.axes| == |l.names| && |l.shape| == |l.names| && |l.expandedShape| == |l.names|
  {
    var n, k := |l.names|, |ci.weights|;
    |ci.offsets| >= 1 && |ci.indices| == |ci.offsets| &&
    (forall j :: 0 <= j < |ci.offsets| ==> ci.offsets[j] < n) &&
    (forall j, j' :: 0 <= j < j' < |ci.offsets| ==> ci.offsets[j] < ci.offsets[j']) &&
    l.shape[ci.offsets[0]] == k &&
    (forall j :: 1 <= j < |ci.offsets| ==> l.shape[ci.offsets[j]] == 1) &&
    (forall p :: 0 <= p < n && p !in ci.offsets ==> l.shape[p] == l.expandedShape[p] && |l.axes[p]| == l.shape[p]) &&
    (forall j :: 0 <= j < |ci.offsets| ==> |l.axes[ci.offsets[j]]| == k && |ci.indices[j]| == k) &&
    (forall j, c :: 0 <= j < |ci.offsets| && 0 <= c < k ==> ci.indices[j][c] < l.expandedShape[ci.offsets[j]]) &&
    (forall c :: 0 <= c < k ==> ci.weights[c] > 0.0) &&
    (forall c, c' :: 0 <= c < c' < k ==> KeptTuple(ci, c) != KeptTuple(ci, c'))
  }

  /** The invariant of every constructed grid. */
  ghost predicate ValidLayout(l: Layout)
  {
    var n := |l.names|;
    |l.axes| == n && |l.shape| == n && |l.expandedShape| == n && Distinct(l.names) &&
    match l.constraint
    case None => l.shape == l.expandedShape && forall p :: 0 <= p < n ==> |l.axes[p]| == l.shape[p]
    case Some(ci) => ValidConstraint(l, ci)
  }

  /** Positions, in grid order, of the first `p` axes that the constraint names. */
  function OffsetsUpTo(names: seq<string>, argNames: seq<string>, p: nat): (offs: seq<nat>)
    requires p <= |names|
    ensures forall j :: 0 <= j < |offs| ==> offs[j] < p && names[offs[j]] in argNames
    ensures forall j, j' :: 0 <= j < j' < |offs| ==> offs[j] < offs[j']
    ensures forall q :: 0 <= q < p && names[q] in argNames ==> q in offs
  {
    if p == 0 then []
    else OffsetsUpTo(names, argNames, p - 1) + (if names[p - 1] in argNames then [p - 1] else [])
  }

  lemma {:induction false} OffsetsPrefix(names: seq<string>, argNames: seq<string>, p: nat, q: nat)
    requires p <= q <= |names|
    ensures OffsetsUpTo(names, argNames, p) <= OffsetsUpTo(names, argNames, q)
  {
    if p < q {
      OffsetsPrefix(names, argNames, p, q - 1);
    }
  }

  /** Every parameter of the constraint is an axis of the grid. */
  predicate ArgsAreAxes(argNames: seq<string>, names: seq<string>)
  {
    forall i :: 0 <= i < |argNames| ==> argNames[i] in names
  }

  /** Lengths of the constrained axes, in grid order: the shape of the
      constrained sub-grid the constraint is evaluated on. */
  function SubShape(axes: seq<seq<real>>, offs: seq<nat>): (cs: seq<nat>)
    requires forall j :: 0 <= j < |offs| ==> offs[j] < |axes|
    ensures |cs| == |offs| && forall j :: 0 <= j < |offs| ==> cs[j] == |axes[offs[j]]|
  {
    seq(|offs|, j requires 0 <= j < |offs| => |axes[offs[j]]|)
  }

  /** Coordinates on the constrained axes of cell `c` of the constrained sub-grid. */
  function CellCoords(axes: seq<seq<real>>, offs: seq<nat>, c: nat): seq<real>
    requires forall j :: 0 <= j < |offs| ==> offs[j] < |axes|
    requires c < Prod(SubShape(axes, offs))
  {
    var idx := Unflatten(SubShape(axes, offs), c);
    seq(|offs|, j requires 0 <= j < |offs| => axes[offs[j]][idx[j]])
  }

  /** The constraint evaluated on the broadcast constrained sub-grid, in row-major order. */
  function ConstraintEval(axes: seq<seq<real>>, offs: seq<nat>, weight: seq<real> -> real): (eval: seq<real>)
    requires forall j :: 0 <= j < |offs| ==> offs[j] < |axes|
    ensures |eval| == Prod(SubShape(axes, offs))
  {
    seq(Prod(SubShape(axes, offs)), c requires 0 <= c < Prod(SubShape(axes, offs)) => weight(CellCoords(axes, offs, c)))
  }

  /** Positions of the non-zero cells, in increasing order (np.nonzero on a flat array). */
  function NonZero(s: seq<real>): (kept: seq<nat>)
    ensures forall c :: 0 <= c < |kept| ==> kept[c] < |s| && s[kept[c]] != 0.0
    ensures forall c, c' :: 0 <= c < c' < |kept| ==> kept[c] < kept[c']
    ensures forall i :: 0 <= i < |s| && s[i] != 0.0 ==> i in kept
  {
    if |s| == 0 then []
    else NonZero(s[..|s| - 1]) + (if s[|s| - 1] != 0.0 then [|s| - 1] else [])
  }

  function AxesOf(inputs: seq<AxisInput>): (axes: seq<seq<real>>)
    ensures |axes| == |inputs|
    ensures forall i :: 0 <= i < |inputs| ==> axes[i] == inputs[i].values
  {
    seq(|inputs|, i requires 0 <= i < |inputs| => inputs[i].values)
  }

  function ShapeOf(axes: seq<seq<real>>): (shape: seq<nat>)
    ensures |shape| == |axes|
    ensures forall i :: 0 <= i < |axes| ==> shape[i] == |axes[i]|
  {
    seq(|axes|, i requires 0 <= i < |axes| => |axes[i]|)
  }

  /** `np.squeeze` drops every dimension of length one from the constraint
      values, so with two or more constrained axes, one of length one leaves
      fewer index arrays than names: `zip` then builds a `mapper` with no
      entry for some constrained name, and the loop over the names fails
      with a KeyError (or with an IndexError first, at a misaligned index). */
  predicate Squeezed(axes: seq<seq<real>>, offs: seq<nat>)
    requires forall j :: 0 <= j < |offs| ==> offs[j] < |axes|
  {
    |offs| > 1 && 1 in SubShape(axes, offs)
  }

  /** The constraint's checks, in the order the constructor makes them, all pass. */
  ghost predicate AcceptsConstraint(names: seq<string>, axes: seq<seq<real>>, argNames: seq<string>, weight: seq<real> -> real)
    requires |axes| == |names|
  {
    ArgsAreAxes(argNames, names) &&
    (forall c :: 0 <= c < |ConstraintEval(axes, OffsetsUpTo(names, argNames, |names|), weight)| ==>
       ConstraintEval(axes, OffsetsUpTo(names, argNames, |names|), weight)[c] >= 0.0) &&
    !Squeezed(axes, OffsetsUpTo(names, argNames, |names|)) &&
    |argNames| > 0
  }

  /** All of the constructor's checks pass. */
  ghost predicate Accepts(inputs: seq<AxisInput>, constraint: Constraint)
  {
    (forall i :: 0 <= i < |inputs| ==> OneDimensional(inputs[i])) &&
    match constraint
    case NoConstraint => true
    case NotAFunction => false
    case Callable(argNames, weight) => AcceptsConstraint(NamesOf(inputs), AxesOf(inputs), argNames, weight)
  }

  /** The layout a successful constraint leaves: the first constrained axis
      holds the kept cells, the other constrained axes have size 1, the
      unconstrained axes are untouched, and the weights are the non-zero
      constraint values in row-major order. */
  ghost predicate Collapsed(l: Layout, axes0: seq<seq<real>>, argNames: seq<string>, weight: seq<real> -> real)
    requires |axes0| == |l.names| && |l.shape| == |l.names| && |l.axes| == |l.names|
  {
    var offs := OffsetsUpTo(l.names, argNames, |l.names|);
    var eval := ConstraintEval(axes0, offs, weight);
    var kept := NonZero(eval);
    l.constraint.Some? &&
    var ci := l.constraint.value;
    |offs| > 0 && ci.offsets == offs && |ci.indices| == |offs| &&
    ci.weights == KeptWeights(eval, kept) &&
    l.shape[offs[0]] == |kept| &&
    (forall j :: 1 <= j < |offs| ==> l.shape[offs[j]] == 1) &&
    (forall p :: 0 <= p < |l.names| && p !in offs ==> l.shape[p] == |axes0[p]| && l.axes[p] == axes0[p]) &&
    (forall j :: 0 <= j < |offs| ==> |ci.indices[j]| == |kept| && |l.axes[offs[j]]| == |kept|) &&
    (forall j, c :: 0 <= j < |offs| && 0 <= c < |kept| ==>
       ci.indices[j][c] == Unflatten(SubShape(axes0, offs), kept[c])[j] &&
       l.axes[offs[j]][c] == axes0[offs[j]][ci.indices[j][c]])
  }

  /** Grid.__init__: the loop that places the axes, then the constraint. */
  method BuildLayout(inputs: seq<AxisInput>, constraint: Constraint) returns (r: Result<Layout>)
    requires Distinct(NamesOf(inputs))
    ensures r.Ok? <==> Accepts(inputs, constraint)
    ensures r.Ok? ==> ValidLayout(r.value)
    ensures r.Ok? ==> r.value.names == NamesOf(inputs) && r.value.constraint.Some? == constraint.Callable?
    ensures r.Ok? ==> r.value.expandedShape == ShapeOf(AxesOf(inputs))
    // A non-1-D axis is the first error reported, for the first such axis.
    ensures (exists i :: 0 <= i < |inputs| && !OneDimensional(inputs[i])) ==>
      exists i :: 0 <= i < |inputs| && !OneDimensional(inputs[i]) &&
        (forall k :: 0 <= k < i ==> OneDimensional(inputs[k])) && r == Err(InvalidAxis(inputs[i].name))
    ensures (forall i :: 0 <= i < |inputs| ==> OneDimensional(inputs[i])) && constraint.NotAFunction? ==>
      r == Err(NotCallable)
    ensures ((forall i :: 0 <= i < |inputs| ==> OneDimensional(inputs[i])) && constraint.Callable? &&
             !ArgsAreAxes(constraint.argNames, NamesOf(inputs))) ==>
      exists i :: 0 <= i < |constraint.argNames| && constraint.argNames[i] !in NamesOf(inputs) &&
        ArgsAreAxes(constraint.argNames[..i], NamesOf(inputs)) && r == Err(InvalidConstraintName(constraint.argNames[i]))
    ensures r.Err? && r.error.NegativeConstraint? ==>
      constraint.Callable? && ArgsAreAxes(constraint.argNames, NamesOf(inputs))
    ensures r == Err(SqueezedAxis) <==>
      (forall i :: 0 <= i < |inputs| ==> OneDimensional(inputs[i])) && constraint.Callable? &&
      ArgsAreAxes(constraint.argNames, NamesOf(inputs)) &&
      (forall c :: 0 <= c < |ConstraintEval(AxesOf(inputs), OffsetsUpTo(NamesOf(inputs), constraint.argNames, |inputs|), constraint.weight)| ==>
         ConstraintEval(AxesOf(inputs), OffsetsUpTo(NamesOf(inputs), constraint.argNames, |inputs|), constraint.weight)[c] >= 0.0) &&
      Squeezed(AxesOf(inputs), OffsetsUpTo(NamesOf(inputs), constraint.argNames, |inputs|))
    // Without a constraint every axis keeps its values at its own position.
    ensures r.Ok? && constraint.NoConstraint? ==>
      r.value.shape == r.value.expandedShape && r.value.axes == AxesOf(inputs)
    ensures r.Ok? && constraint.Callable? ==>
      Collapsed(r.value, AxesOf(inputs), constraint.argNames, constraint.weight)
  {
    // Lines 12-24: one broadcast position per axis.
    var names: seq<string> := [];
    var axes: seq<seq<real>> := [];
    var i := 0;
    while i < |inputs|
      invariant 0 <= i <= |inputs|
      invariant names == NamesOf(inputs[..i]) && axes == AxesOf(inputs[..i])
      invariant forall k :: 0 <= k < i ==> OneDimensional(inputs[k])
    {
      if !OneDimensional(inputs[i]) {
        return Err(InvalidAxis(inputs[i].name));
      }
      names := names + [inputs[i].name];
      axes := axes + [inputs[i].values];
      i := i + 1;
    }
    assert inputs[..i] == inputs;
    var shape := ShapeOf(axes);
    match constraint
    case NoConstraint =>
      return Ok(Layout(names, axes, shape, shape, None));
    case NotAFunction =>
      return Err(NotCallable);
    case Callable(argNames, weight) =>
      r := ApplyConstraint(names, axes, argNames, weight);
  }

  /** x = [0] and y = [0, 1, 2], constrained by x + y + 1: the values are
      positive, but x has length one, so squeezing them leaves one index
      array for two names and the constructor fails. */
  lemma SqueezedExample()
    ensures Squeezed([[0.0], [0.0, 1.0, 2.0]], OffsetsUpTo(["x", "y"], ["x", "y"], 2))
    ensures !AcceptsConstraint(["x", "y"], [[0.0], [0.0, 1.0, 2.0]], ["x", "y"],
                               c => if |c| == 2 then c[0] + c[1] + 1.0 else 1.0)
  {
    var names, axes := ["x", "y"], [[0.0], [0.0, 1.0, 2.0]];
    assert OffsetsUpTo(names, names, 0) == [];
    assert OffsetsUpTo(names, names, 1) == [0];
    var offs := OffsetsUpTo(names, names, 2);
    assert offs == [0] + [1];
    assert SubShape(axes, offs)[0] == |axes[0]| == 1;
  }

  /** `dict(zip(constraint_names, nonzero()))` at src/bed/grid.py:40 as
      written: the i-th parameter of the constraint's signature gets the
      i-th index array, while the index arrays come in grid order. */
  function ZipMapper(argNames: seq<string>, indices: seq<seq<nat>>): (m: map<string, seq<nat>>)
    ensures forall a :: a in m ==> a in argNames
    ensures forall i :: 0 <= i < |argNames| && i < |indices| && argNames[i] !in argNames[i + 1..] ==>
      argNames[i] in m && m[argNames[i]] == indices[i]
  {
    if |argNames| == 0 || |indices| == 0 then map[]
    else
      var rest := ZipMapper(argNames[1..], indices[1..]);
      assert forall i :: 1 <= i < |argNames| ==>
        (argNames[1..][i - 1] == argNames[i] && argNames[1..][i - 1 + 1..] == argNames[i + 1..]);
      map[argNames[0] := indices[0]] + rest
  }

  /** x = [0, 1] and y = [0, 1, 2] with `lambda y, x: ...` keeping only the
      cell x = 1, y = 0: the index arrays come as (x's, y's) = ([1], [0]),
      but zip hands x's to y and y's to x, so the axis x would keep x[0]
      instead of x[1]. */
  lemma SignatureOrderMisaligned()
    ensures var axes, argNames := [[0.0, 1.0], [0.0, 1.0, 2.0]], ["y", "x"];
      var indices := KeptIndices([2, 3], NonZero(ConstraintEval(axes, [0, 1], OneCell)));
      OffsetsUpTo(["x", "y"], argNames, 2) == [0, 1] && indices == [[1], [0]] &&
      "x" in ZipMapper(argNames, indices) && ZipMapper(argNames, indices)["x"] == [0] &&
      "y" in ZipMapper(argNames, indices) && ZipMapper(argNames, indices)["y"] == [1] &&
      axes[0][ZipMapper(argNames, indices)["x"][0]] != axes[0][indices[0][0]]
  {
    var axes, argNames := [[0.0, 1.0], [0.0, 1.0, 2.0]], ["y", "x"];
    ExampleIndices();
    var indices := KeptIndices([2, 3], NonZero(ConstraintEval(axes, [0, 1], OneCell)));
    assert argNames[1] == "x" && argNames[2..] == [] && argNames[0] == "y" && "y" !in argNames[1..];
  }

  /** The kept cell of SignatureOrderMisaligned is x = 1, y = 0. */
  lemma ExampleIndices()
    ensures KeptIndices([2, 3], NonZero(ConstraintEval([[0.0, 1.0], [0.0, 1.0, 2.0]], [0, 1], OneCell))) == [[1], [0]]
  {
    ExampleKept();
    IndicesOfCellThree();
  }

  lemma ExampleKept()
    ensures NonZero(ConstraintEval([[0.0, 1.0], [0.0, 1.0, 2.0]], [0, 1], OneCell)) == [3]
  {
    var axes := [[0.0, 1.0], [0.0, 1.0, 2.0]];
    var eval := ConstraintEval(axes, [0, 1], OneCell);
    CellsOfTwoByThree(axes, [0, 1], eval);
    KeptOfTwoByThree(eval);
  }

  lemma IndicesOfCellThree()
    ensures KeptIndices([2, 3], [3]) == [[1], [0]]
  {
    assert [2, 3][1..] == [3] && [3][1..] == [];
    assert Prod([3]) == 3;
    assert Unflatten([3], 0) == [0];
    assert Unflatten([2, 3], 3) == [1, 0];
    var m := KeptIndices([2, 3], [3]);
    assert m[0][0] == 1 && m[1][0] == 0;
    assert m[0] == [1] && m[1] == [0];
  }

  /** The constraint of SignatureOrderMisaligned: one at x = 1, y = 0 (its
      coordinates come in grid order), zero elsewhere. */
  function OneCell(c: seq<real>): real
  {
    if c == [1.0, 0.0] then 1.0 else 0.0
  }

  lemma ExampleOffsets()
    ensures OffsetsUpTo(["x", "y"], ["y", "x"], 2) == [0, 1]
    ensures SubShape([[0.0, 1.0], [0.0, 1.0, 2.0]], [0, 1]) == [2, 3]
  {
    var names, argNames := ["x", "y"], ["y", "x"];
    assert names[0] in argNames by {
      assert names[0] == argNames[1];
    }
    assert names[1] in argNames by {
      assert names[1] == argNames[0];
    }
    calc {
      OffsetsUpTo(names, argNames, 2);
      OffsetsUpTo(names, argNames, 1) + [1];
      OffsetsUpTo(names, argNames, 0) + [0] + [1];
    }
  }

  /** Row-major positions of a 2 x 3 array. */
  lemma TwoByThree()
    ensures Prod([2, 3]) == 6
    ensures forall c :: 0 <= c < 6 ==> Unflatten([2, 3], c) == [c / 3, c % 3]
  {
    assert [2, 3][1..] == [3] && [3][1..] == [];
    assert Prod([3]) == 3;
    forall c | 0 <= c < 6
      ensures Unflatten([2, 3], c) == [c / 3, c % 3]
    {
      assert Unflatten([3], c % 3) == [c % 3];
    }
  }

  /** The six cells of the 2 x 3 sub-grid of SignatureOrderMisaligned. */
  lemma CellsOfTwoByThree(axes: seq<seq<real>>, offs: seq<nat>, eval: seq<real>)
    requires axes == [[0.0, 1.0], [0.0, 1.0, 2.0]] && offs == [0, 1]
    requires eval == ConstraintEval(axes, offs, OneCell)
    ensures |eval| == 6 && eval[3] == 1.0
    ensures forall c :: 0 <= c < 6 && c != 3 ==> eval[c] == 0.0
  {
    ExampleOffsets();
    TwoByThree();
    forall c | 0 <= c < 6
      ensures eval[c] == (if c == 3 then 1.0 else 0.0)
    {
      var cc := CellCoords(axes, offs, c);
      assert cc == [axes[0][c / 3], axes[1][c % 3]];
      assert eval[c] == OneCell(cc);
      if c == 3 {
        assert cc == [1.0, 0.0];
      } else {
        assert c / 3 != 1 || c % 3 != 0;
        assert cc[0] != 1.0 || cc[1] != 0.0;
      }
    }
  }

  lemma KeptOfTwoByThree(eval: seq<real>)
    requires |eval| == 6 && eval[3] == 1.0
    requires forall c :: 0 <= c < 6 && c != 3 ==> eval[c] == 0.0
    ensures NonZero(eval) == [3]
  {
    assert NonZero(eval[..0]) == [];
    assert eval[..1][..0] == eval[..0];
    assert NonZero(eval[..1]) == [];
    assert eval[..2][..1] == eval[..1];
    assert NonZero(eval[..2]) == [];
    assert eval[..3][..2] == eval[..2];
    assert NonZero(eval[..3]) == [];
    assert eval[..4][..3] == eval[..3];
    assert NonZero(eval[..4]) == [3];
    assert eval[..5][..4] == eval[..4];
    assert NonZero(eval[..5]) == [3];
    assert eval[..5] == eval[..|eval| - 1];
  }

  /** The same input as the constructor here models it: the axes are paired
      with index arrays by grid position, so x keeps 1 and y keeps 0. */
  lemma SignatureOrderPaired(l: Layout)
    requires |l.names| == 2 && |l.shape| == 2 && |l.axes| == 2 && l.names == ["x", "y"]
    requires Collapsed(l, [[0.0, 1.0], [0.0, 1.0, 2.0]], ["y", "x"], OneCell)
    ensures l.axes == [[1.0], [0.0]]
  {
    ExampleOffsets();
    ExampleKept();
    IndicesOfCellThree();
    TwoByThree();
    var ci := l.constraint.value;
    assert ci.indices[0][0] == 1 && ci.indices[1][0] == 0;
    assert l.axes[0] == [1.0];
    assert l.axes[1] == [0.0];
  }

  /** Lines 27-61 for a callable constraint. */
  method ApplyConstraint(names: seq<string>, axes: seq<seq<real>>, argNames: seq<string>, weight: seq<real> -> real)
    returns (r: Result<Layout>)
    requires |axes| == |names| && Distinct(names)
    ensures r.Ok? <==> AcceptsConstraint(names, axes, argNames, weight)
    ensures r.Ok? ==> r.value.names == names && r.value.expandedShape == ShapeOf(axes)
    ensures r.Ok? ==> ValidLayout(r.value) && Collapsed(r.value, axes, argNames, weight)
    ensures !ArgsAreAxes(argNames, names) ==>
      exists i :: 0 <= i < |argNames| && argNames[i] !in names &&
        ArgsAreAxes(argNames[..i], names) && r == Err(InvalidConstraintName(argNames[i]))
    ensures r.Err? && r.error.NegativeConstraint? ==> ArgsAreAxes(argNames, names)
    ensures r == Err(SqueezedAxis) <==>
      ArgsAreAxes(argNames, names) &&
      (forall c :: 0 <= c < |ConstraintEval(axes, OffsetsUpTo(names, argNames, |names|), weight)| ==>
         ConstraintEval(axes, OffsetsUpTo(names, argNames, |names|), weight)[c] >= 0.0) &&
      Squeezed(axes, OffsetsUpTo(names, argNames, |names|))
  {
    // Lines 31-33: every parameter must name an axis.
    var j := 0;
    while j < |argNames|
      invariant 0 <= j <= |argNames|
      invariant ArgsAreAxes(argNames[..j], names)
    {
      if argNames[j] !in names {
        return Err(InvalidConstraintName(argNames[j]));
      }
      assert argNames[..j + 1] == argNames[..j] + [argNames[j]];
      j := j + 1;
    }
    assert argNames[..j] == argNames;
    r := EvaluateConstraint(names, axes, argNames, weight);
  }

  /** Every named axis of a constraint with parameters is found among the axes. */
  lemma OffsetsNonEmpty(names: seq<string>, argNames: seq<string>)
    requires ArgsAreAxes(argNames, names) && |argNames| > 0
    ensures |OffsetsUpTo(names, argNames, |names|)| > 0
  {
    assert argNames[0] in names;
    var q :| 0 <= q < |names| && names[q] == argNames[0];
    assert q in OffsetsUpTo(names, argNames, |names|);
  }

  /** Lines 35-61, once every parameter is known to be an axis. */
  method EvaluateConstraint(names: seq<string>, axes: seq<seq<real>>, argNames: seq<string>, weight: seq<real> -> real)
    returns (r: Result<Layout>)
    requires |axes| == |names| && Distinct(names) && ArgsAreAxes(argNames, names)
    ensures r.Ok? <==> AcceptsConstraint(names, axes, argNames, weight)
    ensures r.Ok? ==> r.value.names == names && r.value.expandedShape == ShapeOf(axes)
    ensures r.Ok? ==> ValidLayout(r.value) && Collapsed(r.value, axes, argNames, weight)
    ensures r.Err? ==> r.error in {NegativeConstraint, SqueezedAxis, NoConstrainedAxis}
    ensures r == Err(SqueezedAxis) <==>
      (forall c :: 0 <= c < |ConstraintEval(axes, OffsetsUpTo(names, argNames, |names|), weight)| ==>
         ConstraintEval(axes, OffsetsUpTo(names, argNames, |names|), weight)[c] >= 0.0) &&
      Squeezed(axes, OffsetsUpTo(names, argNames, |names|))
  {
    // Lines 35-38: evaluate on the constrained sub-grid and reject negative values.
    var allOffsets := OffsetsUpTo(names, argNames, |names|);
    var cshape := SubShape(axes, allOffsets);
    var eval := ConstraintEval(axes, allOffsets, weight);
    if exists c :: 0 <= c < |eval| && eval[c] < 0.0 {
      return Err(NegativeConstraint);
    }
    // Line 40: np.squeeze loses a constrained axis of length one.
    if Squeezed(axes, allOffsets) {
      return Err(SqueezedAxis);
    }
    // Line 52: a constraint that names no axis has no first offset.
    if |argNames| > 0 {
      OffsetsNonEmpty(names, argNames);
    }
    r := CollapseConstraint(names, axes, argNames, weight, allOffsets, eval);
  }

  /** Lines 40-61, once the constraint values are known to be non-negative
      and no constrained axis is squeezed away. */
  method CollapseConstraint(names: seq<string>, axes: seq<seq<real>>, argNames: seq<string>, weight: seq<real> -> real,
                            allOffsets: seq<nat>, eval: seq<real>)
    returns (r: Result<Layout>)
    requires |axes| == |names| && Distinct(names)
    requires allOffsets == OffsetsUpTo(names, argNames, |names|) && eval == ConstraintEval(axes, allOffsets, weight)
    requires forall c :: 0 <= c < |eval| ==> eval[c] >= 0.0
    requires !Squeezed(axes, allOffsets)
    ensures r.Ok? <==> |allOffsets| > 0
    ensures r.Err? ==> r.error == NoConstrainedAxis
    ensures r.Ok? ==> r.value.names == names && r.value.expandedShape == ShapeOf(axes)
    ensures r.Ok? ==> ValidLayout(r.value) && Collapsed(r.value, axes, argNames, weight)
  {
    var kept := NonZero(eval);
    var mapper := KeptIndices(SubShape(axes, allOffsets), kept);
    MapperFits(names, axes, argNames, weight, allOffsets, eval, kept, mapper);
    // Lines 41-51.
    var offs, newAxes, newShape := CollapseAxes(names, axes, argNames, allOffsets, |kept|, mapper);
    if |offs| == 0 {
      return Err(NoConstrainedAxis);
    }
    // Lines 52-61: weights of the kept cells and the indices needed to expand.
    var weights := KeptWeights(eval, kept);
    var l := Layout(names, newAxes, newShape, ShapeOf(axes), Some(ConstraintInfo(offs, weights, mapper)));
    CollapsedLayout(l, axes, argNames, weight, allOffsets, eval, kept);
    r := Ok(l);
  }

  /** The offsets of the constrained axes and the kept-cell indices along
      them are what CollapseAxes needs. */
  lemma MapperFits(names: seq<string>, axes: seq<seq<real>>, argNames: seq<string>, weight: seq<real> -> real,
                   allOffsets: seq<nat>, eval: seq<real>, kept: seq<nat>, mapper: seq<seq<nat>>)
    requires |axes| == |names| && Distinct(names)
    requires allOffsets == OffsetsUpTo(names, argNames, |names|) && eval == ConstraintEval(axes, allOffsets, weight)
    requires kept == NonZero(eval) && mapper == KeptIndices(SubShape(axes, allOffsets), kept)
    ensures Collapsible(names, axes, argNames, allOffsets, |kept|, mapper)
  {
  }

  /** The layout ApplyConstraint builds is valid and collapsed. */
  lemma CollapsedLayout(l: Layout, axes: seq<seq<real>>, argNames: seq<string>, weight: seq<real> -> real,
                        offs: seq<nat>, eval: seq<real>, kept: seq<nat>)
    requires |axes| == |l.names| && |l.axes| == |l.names| && |l.shape| == |l.names| && Distinct(l.names)
    requires l.expandedShape == ShapeOf(axes) && l.constraint.Some?
    requires offs == OffsetsUpTo(l.names, argNames, |l.names|)
    requires eval == ConstraintEval(axes, offs, weight) && kept == NonZero(eval)
    requires |offs| > 0 && l.constraint.value.offsets == offs
    requires forall c :: 0 <= c < |eval| ==> eval[c] >= 0.0
    requires l.constraint.value.weights == KeptWeights(eval, kept)
    requires l.constraint.value.indices == KeptIndices(SubShape(axes, offs), kept)
    requires forall q :: 0 <= q < |l.names| && q !in offs ==> l.axes[q] == axes[q] && l.shape[q] == |axes[q]|
    requires forall j :: 0 <= j < |offs| ==> l.shape[offs[j]] == (if j == 0 then |kept| else 1)
    requires forall j :: 0 <= j < |offs| ==> l.axes[offs[j]] == Gather(axes[offs[j]], l.constraint.value.indices[j])
    ensures ValidLayout(l) && Collapsed(l, axes, argNames, weight)
  {
    BuiltValid(l, axes, argNames, weight, offs, eval, kept);
    BuiltCollapsed(l, axes, argNames, weight, offs, eval, kept);
  }

  lemma BuiltValid(l: Layout, axes: seq<seq<real>>, argNames: seq<string>, weight: seq<real> -> real,
                   offs: seq<nat>, eval: seq<real>, kept: seq<nat>)
    requires |axes| == |l.names| && |l.axes| == |l.names| && |l.shape| == |l.names| && Distinct(l.names)
    requires l.expandedShape == ShapeOf(axes) && l.constraint.Some?
    requires offs == OffsetsUpTo(l.names, argNames, |l.names|)
    requires eval == ConstraintEval(axes, offs, weight) && kept == NonZero(eval)
    requires |offs| > 0 && l.constraint.value.offsets == offs
    requires forall c :: 0 <= c < |eval| ==> eval[c] >= 0.0
    requires l.constraint.value.weights == KeptWeights(eval, kept)
    requires l.constraint.value.indices == KeptIndices(SubShape(axes, offs), kept)
    requires forall q :: 0 <= q < |l.names| && q !in offs ==> l.axes[q] == axes[q] && l.shape[q] == |axes[q]|
    requires forall j :: 0 <= j < |offs| ==> l.shape[offs[j]] == (if j == 0 then |kept| else 1)
    requires forall j :: 0 <= j < |offs| ==> l.axes[offs[j]] == Gather(axes[offs[j]], l.constraint.value.indices[j])
    ensures ValidLayout(l)
  {
    var ci := l.constraint.value;
    KeptTuplesDistinct(ci, SubShape(axes, offs), kept);
    KeptWeightsPositive(eval, kept, ci.weights);
    KeptIndexBounds(axes, offs, kept, ci.indices, l.expandedShape);
    assert forall j :: 0 <= j < |offs| ==> |l.axes[offs[j]]| == |kept|;
    assert forall q :: 0 <= q < |l.names| && q !in offs ==> l.shape[q] == l.expandedShape[q] && |l.axes[q]| == l.shape[q];
    ConstraintValid(l, offs, kept);
  }

  lemma BuiltCollapsed(l: Layout, axes: seq<seq<real>>, argNames: seq<string>, weight: seq<real> -> real,
                       offs: seq<nat>, eval: seq<real>, kept: seq<nat>)
    requires |axes| == |l.names| && |l.axes| == |l.names| && |l.shape| == |l.names| && Distinct(l.names)
    requires l.expandedShape == ShapeOf(axes) && l.constraint.Some?
    requires offs == OffsetsUpTo(l.names, argNames, |l.names|)
    requires eval == ConstraintEval(axes, offs, weight) && kept == NonZero(eval)
    requires |offs| > 0 && l.constraint.value.offsets == offs
    requires forall c :: 0 <= c < |eval| ==> eval[c] >= 0.0
    requires l.constraint.value.weights == KeptWeights(eval, kept)
    requires l.constraint.value.indices == KeptIndices(SubShape(axes, offs), kept)
    requires forall q :: 0 <= q < |l.names| && q !in offs ==> l.axes[q] == axes[q] && l.shape[q] == |axes[q]|
    requires forall j :: 0 <= j < |offs| ==> l.shape[offs[j]] == (if j == 0 then |kept| else 1)
    requires forall j :: 0 <= j < |offs| ==> l.axes[offs[j]] == Gather(axes[offs[j]], l.constraint.value.indices[j])
    ensures Collapsed(l, axes, argNames, weight)
  {
    var ci := l.constraint.value;
    assert |ci.indices| == |offs|;
    forall j | 0 <= j < |offs|
      ensures |ci.indices[j]| == |kept| && |l.axes[offs[j]]| == |kept|
    {
    }
    forall j, c | 0 <= j < |offs| && 0 <= c < |kept|
      ensures ci.indices[j][c] == Unflatten(SubShape(axes, offs), kept[c])[j]
      ensures l.axes[offs[j]][c] == axes[offs[j]][ci.indices[j][c]]
    {
    }
  }

  lemma ConstraintValid(l: Layout, offs: seq<nat>, kept: seq<nat>)
    requires |l.expandedShape| == |l.names| && |l.axes| == |l.names| && |l.shape| == |l.names|
    requires l.constraint.Some? && l.constraint.value.offsets == offs && |offs| > 0
    requires forall j :: 0 <= j < |offs| ==> offs[j] < |l.names|
    requires forall j, j' :: 0 <= j < j' < |offs| ==> offs[j] < offs[j']
    requires |l.constraint.value.weights| == |kept|
    requires forall c :: 0 <= c < |kept| ==> l.constraint.value.weights[c] > 0.0
    requires |l.constraint.value.indices| == |offs|
    requires forall j :: 0 <= j < |offs| ==> |l.constraint.value.indices[j]| == |kept| && |l.axes[offs[j]]| == |kept|
    requires forall j, c :: 0 <= j < |offs| && 0 <= c < |kept| ==> l.constraint.value.indices[j][c] < l.expandedShape[offs[j]]
    requires forall c, c' :: 0 <= c < c' < |kept| ==> KeptTuple(l.constraint.value, c) != KeptTuple(l.constraint.value, c')
    requires forall q :: 0 <= q < |l.names| && q !in offs ==> l.shape[q] == l.expandedShape[q] && |l.axes[q]| == l.shape[q]
    requires forall j :: 0 <= j < |offs| ==> l.shape[offs[j]] == (if j == 0 then |kept| else 1)
    ensures ValidConstraint(l, l.constraint.value)
  {
  }

  lemma KeptWeightsPositive(eval: seq<real>, kept: seq<nat>, weights: seq<real>)
    requires kept == NonZero(eval) && weights == KeptWeights(eval, kept)
    requires forall c :: 0 <= c < |eval| ==> eval[c] >= 0.0
    ensures forall c :: 0 <= c < |weights| ==> weights[c] > 0.0
  {
    forall c | 0 <= c < |kept|
      ensures weights[c] > 0.0
    {
      assert eval[kept[c]] >= 0.0 && eval[kept[c]] != 0.0;
    }
  }

  lemma KeptIndexBounds(axes: seq<seq<real>>, offs: seq<nat>, kept: seq<nat>, indices: seq<seq<nat>>, expanded: seq<nat>)
    requires forall j :: 0 <= j < |offs| ==> offs[j] < |axes|
    requires forall c :: 0 <= c < |kept| ==> kept[c] < Prod(SubShape(axes, offs))
    requires indices == KeptIndices(SubShape(axes, offs), kept) && expanded == ShapeOf(axes)
    ensures |indices| == |offs|
    ensures forall j :: 0 <= j < |offs| ==> |indices[j]| == |kept|
    ensures forall j, c :: 0 <= j < |offs| && 0 <= c < |kept| ==> indices[j][c] < expanded[offs[j]]
  {
  }

  /** For each constrained axis, its index in every kept cell of the sub-grid. */
  function KeptIndices(cshape: seq<nat>, kept: seq<nat>): (m: seq<seq<nat>>)
    requires forall c :: 0 <= c < |kept| ==> kept[c] < Prod(cshape)
    ensures |m| == |cshape| && forall j :: 0 <= j < |cshape| ==> |m[j]| == |kept|
    ensures forall j, c :: 0 <= j < |cshape| && 0 <= c < |kept| ==>
      m[j][c] == Unflatten(cshape, kept[c])[j] && m[j][c] < cshape[j]
  {
    seq(|cshape|, j requires 0 <= j < |cshape| =>
      seq(|kept|, c requires 0 <= c < |kept| => Unflatten(cshape, kept[c])[j]))
  }

  /** The constraint values at the kept cells. */
  function KeptWeights(eval: seq<real>, kept: seq<nat>): (w: seq<real>)
    requires forall c :: 0 <= c < |kept| ==> kept[c] < |eval|
    ensures |w| == |kept| && forall c :: 0 <= c < |kept| ==> w[c] == eval[kept[c]]
  {
    seq(|kept|, c requires 0 <= c < |kept| => eval[kept[c]])
  }

  /** The values of an axis at the given indices (numpy fancy indexing). */
  function Gather(axis: seq<real>, idx: seq<nat>): (r: seq<real>)
    requires forall c :: 0 <= c < |idx| ==> idx[c] < |axis|
    ensures |r| == |idx| && forall c :: 0 <= c < |idx| ==> r[c] == axis[idx[c]]
  {
    seq(|idx|, c requires 0 <= c < |idx| => axis[idx[c]])
  }

  /** Lines 41-51: the first constrained axis takes the `count` kept cells,
      the others size 1; each constrained axis keeps its values at the kept cells. */
  method CollapseAxes(names: seq<string>, axes: seq<seq<real>>, argNames: seq<string>, ghost all: seq<nat>,
                      count: nat, mapper: seq<seq<nat>>)
    returns (offs: seq<nat>, newAxes: seq<seq<real>>, newShape: seq<nat>)
    requires Collapsible(names, axes, argNames, all, count, mapper)
    ensures offs == all
    ensures |newAxes| == |names| && |newShape| == |names|
    ensures forall q :: 0 <= q < |names| && q !in offs ==> newAxes[q] == axes[q] && newShape[q] == |axes[q]|
    ensures forall j :: 0 <= j < |offs| ==> newShape[offs[j]] == (if j == 0 then count else 1)
    ensures forall j :: 0 <= j < |offs| ==> newAxes[offs[j]] == Gather(axes[offs[j]], mapper[j])
  {
    offs := [];
    newAxes, newShape := axes, ShapeOf(axes);
    var p := 0;
    while p < |names|
      invariant p <= |names| && CollapsedTo(names, axes, argNames, all, count, mapper, p, offs, newAxes, newShape)
    {
      if names[p] in argNames {
        var m := |offs|;
        ClaimStep(names, axes, argNames, all, count, mapper, p, offs, newAxes, newShape);
        newShape := newShape[p := if m == 0 then count else 1];
        newAxes := newAxes[p := Gather(axes[p], mapper[m])];
        offs := offs + [p];
      } else {
        PassStep(names, axes, argNames, all, count, mapper, p, offs, newAxes, newShape);
      }
      p := p + 1;
    }
    CollapseDone(names, axes, argNames, all, count, mapper, offs, newAxes, newShape);
  }

  /** What CollapseAxes needs of its arguments. */
  ghost predicate Collapsible(names: seq<string>, axes: seq<seq<real>>, argNames: seq<string>, all: seq<nat>,
                              count: nat, mapper: seq<seq<nat>>)
  {
    |axes| == |names| &&
    (forall j :: 0 <= j < |all| ==> all[j] < |names| && names[all[j]] in argNames) &&
    (forall j, j' :: 0 <= j < j' < |all| ==> all[j] < all[j']) &&
    (forall q :: 0 <= q < |names| && names[q] in argNames ==> q in all) &&
    |mapper| == |all| &&
    (forall j :: 0 <= j < |mapper| ==> |mapper[j]| == count) &&
    (forall j, c :: 0 <= j < |mapper| && 0 <= c < count ==> mapper[j][c] < |axes[all[j]]|)
  }

  /** The invariant of CollapseAxes's loop once the axes before p are done:
      `offs` holds the constrained ones, each collapsed, the others untouched. */
  ghost predicate CollapsedTo(names: seq<string>, axes: seq<seq<real>>, argNames: seq<string>, all: seq<nat>,
                              count: nat, mapper: seq<seq<nat>>, p: nat,
                              offs: seq<nat>, newAxes: seq<seq<real>>, newShape: seq<nat>)
    requires Collapsible(names, axes, argNames, all, count, mapper)
  {
    |offs| <= |all| && offs == all[..|offs|] &&
    (forall j :: 0 <= j < |offs| ==> all[j] < p) &&
    (|offs| < |all| ==> all[|offs|] >= p) &&
    |newAxes| == |names| && |newShape| == |names| &&
    (forall q :: 0 <= q < |names| && (p <= q || names[q] !in argNames) ==>
       newAxes[q] == axes[q] && newShape[q] == |axes[q]|) &&
    (forall j :: 0 <= j < |offs| ==> newShape[all[j]] == (if j == 0 then count else 1)) &&
    (forall j :: 0 <= j < |offs| ==> newAxes[all[j]] == Gather(axes[all[j]], mapper[j]))
  }

  /** A constrained axis met by the loop is the next one of `all`. */
  lemma ClaimStep(names: seq<string>, axes: seq<seq<real>>, argNames: seq<string>, all: seq<nat>,
                  count: nat, mapper: seq<seq<nat>>, p: nat,
                  offs: seq<nat>, newAxes: seq<seq<real>>, newShape: seq<nat>)
    requires Collapsible(names, axes, argNames, all, count, mapper)
    requires p < |names| && names[p] in argNames
    requires CollapsedTo(names, axes, argNames, all, count, mapper, p, offs, newAxes, newShape)
    ensures |offs| < |all| && all[|offs|] == p
    ensures CollapsedTo(names, axes, argNames, all, count, mapper, p + 1, offs + [p],
                        newAxes[p := Gather(axes[p], mapper[|offs|])],
                        newShape[p := if |offs| == 0 then count else 1])
  {
    var m := |offs|;
    assert p in all;
    assert m < |all| && all[m] == p by {
      var k :| 0 <= k < |all| && all[k] == p;
      assert k >= m;
    }
    assert offs + [p] == all[..m + 1];
  }

  /** An unconstrained axis is left as it is. */
  lemma PassStep(names: seq<string>, axes: seq<seq<real>>, argNames: seq<string>, all: seq<nat>,
                 count: nat, mapper: seq<seq<nat>>, p: nat,
                 offs: seq<nat>, newAxes: seq<seq<real>>, newShape: seq<nat>)
    requires Collapsible(names, axes, argNames, all, count, mapper)
    requires p < |names| && names[p] !in argNames
    requires CollapsedTo(names, axes, argNames, all, count, mapper, p, offs, newAxes, newShape)
    ensures CollapsedTo(names, axes, argNames, all, count, mapper, p + 1, offs, newAxes, newShape)
  {
    if |offs| < |all| {
      assert names[all[|offs|]] in argNames;
    }
  }

  /** Past the last axis, every constrained axis has been collapsed. */
  lemma CollapseDone(names: seq<string>, axes: seq<seq<real>>, argNames: seq<string>, all: seq<nat>,
                     count: nat, mapper: seq<seq<nat>>,
                     offs: seq<nat>, newAxes: seq<seq<real>>, newShape: seq<nat>)
    requires Collapsible(names, axes, argNames, all, count, mapper)
    requires CollapsedTo(names, axes, argNames, all, count, mapper, |names|, offs, newAxes, newShape)
    ensures offs == all
    ensures |newAxes| == |names| && |newShape| == |names|
    ensures forall q :: 0 <= q < |names| && q !in offs ==> newAxes[q] == axes[q] && newShape[q] == |axes[q]|
    ensures forall j :: 0 <= j < |offs| ==> newShape[offs[j]] == (if j == 0 then count else 1)
    ensures forall j :: 0 <= j < |offs| ==> newAxes[offs[j]] == Gather(axes[offs[j]], mapper[j])
  {
    assert |offs| == |all|;
    forall q | 0 <= q < |names| && q !in offs
      ensures newAxes[q] == axes[q] && newShape[q] == |axes[q]|
    {
      assert names[q] !in argNames;
    }
  }

  /** Kept cells sit at distinct positions of the sub-grid, so their index
      tuples are distinct. */
  lemma KeptTuplesDistinct(ci: ConstraintInfo, cshape: seq<nat>, kept: seq<nat>)
    requires |ci.indices| == |cshape|
    requires forall c :: 0 <= c < |kept| ==> kept[c] < Prod(cshape)
    requires forall c, c' :: 0 <= c < c' < |kept| ==> kept[c] < kept[c']
    requires forall j :: 0 <= j < |cshape| ==> |ci.indices[j]| == |kept|
    requires forall j, c :: 0 <= j < |cshape| && 0 <= c < |kept| ==> ci.indices[j][c] == Unflatten(cshape, kept[c])[j]
    ensures forall c, c' :: 0 <= c < c' < |kept| ==> KeptTuple(ci, c) != KeptTuple(ci, c')
  {
    forall c, c' | 0 <= c < c' < |kept|
      ensures KeptTuple(ci, c) != KeptTuple(ci, c')
    {
      KeptTupleIs(ci, cshape, kept, c);
      KeptTupleIs(ci, cshape, kept, c');
      UnflattenInjective(cshape, kept[c], kept[c']);
    }
  }

  lemma KeptTupleIs(ci: ConstraintInfo, cshape: seq<nat>, kept: seq<nat>, k: nat)
    requires |ci.indices| == |cshape| && k < |kept|
    requires forall c :: 0 <= c < |kept| ==> kept[c] < Prod(cshape)
    requires forall j :: 0 <= j < |cshape| ==> |ci.indices[j]| == |kept|
    requires forall j, c :: 0 <= j < |cshape| && 0 <= c < |kept| ==> ci.indices[j][c] == Unflatten(cshape, kept[c])[j]
    ensures KeptTuple(ci, k) == Unflatten(cshape, kept[k])
  {
  }

  lemma UnflattenInjective(s: seq<nat>, a: nat, b: nat)
    requires a < Prod(s) && b < Prod(s) && a != b
    ensures Unflatten(s, a) != Unflatten(s, b)
  {
    FlattenUnflatten(s, a);
    FlattenUnflatten(s, b);
  }
}

=== FILE: grids.dfy ===
/** The Grid class: a fixed layout of named axes, possibly collapsed by a
    constraint, and the stack position (offset and pad) that GridStack writes
    into it while several grids are combined. */
module Grids {
  import opened Errors
  import opened Shapes
  import opened GridLayout
  import opened GridIndex
  import opened Reduce

  /** Python slicing s[lo:hi]: both ends clamped to the length. */
  function Slice<T>(s: seq<T>, lo: nat, hi: nat): (r: seq<T>)
    ensures |r| <= |s|
  {
    var a := if lo < |s| then lo else |s|;
    var b := if hi < |s| then hi else |s|;
    if a <= b then s[a..b] else []
  }

  function Ones(n: nat): (s: seq<nat>)
    ensures |s| == n && forall d :: 0 <= d < n ==> s[d] == 1
  {
    seq(n, d => 1)
  }

  /** Prod of a shape made of three blocks. */
  lemma ProdThree(a: seq<nat>, b: seq<nat>, c: seq<nat>)
    ensures Prod(a + b + c) == Prod(a) * Prod(b) * Prod(c)
  {
    ProdConcat(a + b, c);
    ProdConcat(a, b);
  }

  /** Weight of cell m of a grid in a full sum: one without a constraint,
      otherwise the weight of the kept cell it lies on. */
  function CellWeight(l: Layout, m: nat): real
    requires ValidLayout(l)
  {
    match l.constraint
    case None => 1.0
    case Some(ci) =>
      if m < Prod(l.shape) then ci.weights[Unflatten(l.shape, m)[ci.offsets[0]]] else 0.0
  }

  function Min(a: nat, b: nat): nat
  {
    if a < b then a else b
  }

  /** The dimensions of a stacked array before the grid's own, and after them. */
  function Before(vshape: seq<nat>, offset: nat): seq<nat>
  {
    vshape[..Min(offset, |vshape|)]
  }

  function After(vshape: seq<nat>, offset: nat, n: nat): seq<nat>
  {
    vshape[Min(offset + n, |vshape|)..]
  }

  /** The check at the head of Grid.sum: the dimensions a grid stacked at
      `offset` covers are its own shape. */
  predicate Fits(vshape: seq<nat>, offset: nat, shape: seq<nat>)
  {
    Slice(vshape, offset, offset + |shape|) == shape
  }

  /** An array that fits is made of the dimensions before, the grid's, and those after. */
  lemma FitsSplit(vshape: seq<nat>, offset: nat, shape: seq<nat>)
    requires Fits(vshape, offset, shape)
    ensures vshape == Before(vshape, offset) + shape + After(vshape, offset, |shape|)
    ensures Prod(vshape) == Prod(Before(vshape, offset)) * Prod(shape) * Prod(After(vshape, offset, |shape|))
  {
    var pre, post := Before(vshape, offset), After(vshape, offset, |shape|);
    if |shape| == 0 {
      assert vshape == pre + post;
    } else {
      assert offset + |shape| <= |vshape|;
      assert vshape == vshape[..offset] + vshape[offset..offset + |shape|] + vshape[offset + |shape|..];
    }
    ProdThree(pre, shape, post);
  }

  /** The weights of a full sum, as a function of the grid cell. */
  function Weights(l: Layout): nat -> real
    requires ValidLayout(l)
  {
    (m: nat) => CellWeight(l, m)
  }

  /** Every cell of a valid grid weighs more than zero. */
  lemma WeightsPositive(l: Layout)
    requires ValidLayout(l)
    ensures forall m :: 0 <= m < Prod(l.shape) ==> Weights(l)(m) > 0.0
  {
    forall m | 0 <= m < Prod(l.shape)
      ensures Weights(l)(m) > 0.0
    {
      if l.constraint.Some? {
        var ci := l.constraint.value;
        var ii := Unflatten(l.shape, m);
        assert ii[ci.offsets[0]] < l.shape[ci.offsets[0]] == |ci.weights|;
      }
    }
  }

  /** Every element of `scaled` is the matching element of `data` divided by
      the block sum over it. */
  ghost predicate DividedBy(scaled: seq<real>, data: seq<real>, norm: seq<real>, m: nat, inner: nat)
  {
    |scaled| == |data| &&
    forall k :: 0 <= k < |scaled| ==>
      NormIndex(k, m, inner) < |norm| && scaled[k] * norm[NormIndex(k, m, inner)] == data[k]
  }

  /** The loop behind `values /= norm` for a keepdims block sum `norm`. */
  method DivideBlocks(values: array<real>, norm: seq<real>, m: nat, inner: nat)
    requires forall k :: 0 <= k < values.Length ==> NormIndex(k, m, inner) < |norm|
    requires forall i :: 0 <= i < |norm| ==> norm[i] != 0.0
    modifies values
    ensures DividedBy(values[..], old(values[..]), norm, m, inner)
  {
    ghost var data := values[..];
    var i := 0;
    while i < values.Length
      invariant 0 <= i <= values.Length && |data| == values.Length
      invariant DividedUpTo(values[..], data, norm, m, inner, i)
      invariant values[i..] == data[i..]
    {
      var n := norm[NormIndex(i, m, inner)];
      ghost var before := values[..];
      assert before[i] == data[i] by { assert before[i..][0] == data[i..][0]; }
      DivideStep(before, data, norm, m, inner, i);
      values[i] := values[i] / n;
      assert values[..] == before[i := data[i] / n];
      assert values[i + 1..] == before[i + 1..];
      i := i + 1;
    }
  }

  /** The first i elements have been divided by the block sum over them. */
  ghost predicate DividedUpTo(scaled: seq<real>, data: seq<real>, norm: seq<real>, m: nat, inner: nat, i: nat)
    requires i <= |scaled| == |data|
  {
    forall k :: 0 <= k < i ==>
      NormIndex(k, m, inner) < |norm| && scaled[k] * norm[NormIndex(k, m, inner)] == data[k]
  }

  /** Dividing element i keeps the first i divided and divides one more. */
  lemma DivideStep(scaled: seq<real>, data: seq<real>, norm: seq<real>, m: nat, inner: nat, i: nat)
    requires i < |scaled| == |data| && scaled[i] == data[i]
    requires NormIndex(i, m, inner) < |norm| && norm[NormIndex(i, m, inner)] != 0.0
    requires DividedUpTo(scaled, data, norm, m, inner, i)
    ensures DividedUpTo(scaled[i := data[i] / norm[NormIndex(i, m, inner)]], data, norm, m, inner, i + 1)
  {
    DivMul(data[i], norm[NormIndex(i, m, inner)]);
  }

  lemma DivMul(v: real, n: real)
    requires n != 0.0
    ensures (v / n) * n == v
  {
  }

  /** After the division every block sums to one. */
  lemma NormalizedTotal(outer: nat, m: nat, inner: nat, w: nat -> real,
                        data: seq<real>, norm: seq<real>, scaled: seq<real>)
    requires |data| == outer * m * inner && |scaled| == |data|
    requires norm == BlockSum(outer, m, inner, w, data)
    requires forall i :: 0 <= i < |norm| ==> norm[i] != 0.0
    requires DividedBy(scaled, data, norm, m, inner)
    ensures forall i :: 0 <= i < outer * inner ==> BlockSum(outer, m, inner, w, scaled)[i] == 1.0
  {
    forall a, j, t | 0 <= a < outer && 0 <= j < m && 0 <= t < inner
      ensures At(scaled, Pos(a, j, t, m, inner)) * At(norm, a * inner + t) == At(data, Pos(a, j, t, m, inner))
    {
      PosBound(a, j, t, outer, m, inner);
      NormIndexPos(a, j, t, m, inner);
    }
    BlockSumNormalized(outer, m, inner, w, data, norm, scaled);
  }

  predicate AllIn(xs: seq<string>, names: seq<string>)
  {
    forall i :: 0 <= i < |xs| ==> xs[i] in names
  }

  /** Stacked positions of the named axes (names.index(name) + _stack_offset). */
  function Positions(names: seq<string>, axisNames: seq<string>, offset: nat): (ds: seq<nat>)
    requires AllIn(axisNames, names)
    ensures |ds| == |axisNames|
    ensures forall i :: 0 <= i < |ds| ==> offset <= ds[i] < offset + |names| && names[ds[i] - offset] == axisNames[i]
  {
    seq(|axisNames|, i requires 0 <= i < |axisNames| => IndexOf(names, axisNames[i]) + offset)
  }

  /** Two names give the same position exactly when they are the same name. */
  lemma PositionsDistinct(names: seq<string>, axisNames: seq<string>, offset: nat)
    requires AllIn(axisNames, names) && Distinct(names)
    ensures Distinct(Positions(names, axisNames, offset)) <==> Distinct(axisNames)
  {
  }

  /** Squeezing dimensions that have become one only looks at the others. */
  lemma {:induction false} SqueezeShape(s: seq<nat>, s': seq<nat>, ds: seq<nat>, from: nat)
    requires |s| == |s'| && forall p :: 0 <= p < |s| && from + p !in ds ==> s'[p] == s[p]
    ensures Squeeze(s', ds, from) == Squeeze(s, ds, from)
    decreases |s|
  {
    if |s| > 0 {
      SqueezeShape(s[1..], s'[1..], ds, from + 1);
    }
  }

  /** The positions of a grid's axes lie inside an array the grid fits. */
  lemma PositionsInRange(vshape: seq<nat>, offset: nat, shape: seq<nat>, names: seq<string>, axisNames: seq<string>)
    requires Fits(vshape, offset, shape) && |names| == |shape| && AllIn(axisNames, names)
    ensures forall i :: 0 <= i < |axisNames| ==> Positions(names, axisNames, offset)[i] < |vshape|
  {
    if |axisNames| > 0 {
      assert axisNames[0] in names;
      FitsSplit(vshape, offset, shape);
    }
  }

  /** np.sum over the dimensions `ds`, keeping them with length one or dropping them. */
  function NamedSum(values: Tensor, ds: seq<nat>, keepdims: bool): (r: Tensor)
    requires WellFormed(values) && forall i :: 0 <= i < |ds| ==> ds[i] < |values.shape|
    ensures WellFormed(r) && r.data == ReduceAxes(values, ds).data
    ensures r.shape == (if keepdims then ReduceAxes(values, ds).shape else Squeeze(values.shape, ds, 0))
  {
    var reduced := ReduceAxes(values, ds);
    if keepdims then reduced
    else
      SqueezeProd(reduced.shape, ds, 0);
      SqueezeShape(values.shape, reduced.shape, ds, 0);
      Tensor(Squeeze(values.shape, ds, 0), reduced.data)
  }

  class Grid {
    /** Names, axis values, shapes and constraint data; never changed after construction. */
    const layout: Layout
    /** Number of stacked axes before this grid's (_stack_offset). */
    var stackOffset: nat
    /** Number of stacked axes after this grid's (_stack_pad). */
    var stackPad: nat

    ghost predicate Valid()
    {
      ValidLayout(layout)
    }

    /** Grid.__init__ once its layout is built: the grid starts unstacked. */
    constructor (l: Layout)
      requires ValidLayout(l)
      ensures Valid() && layout == l && stackOffset == 0 && stackPad == 0
    {
      layout := l;
      stackOffset := 0;
      stackPad := 0;
    }

    /** Position of the named axis in the stack. */
    function Axis(name: string): (r: Result<nat>)
      reads this
      ensures r.Ok? <==> name in layout.names
      ensures r.Err? ==> r.error == NotInGrid(name)
      ensures r.Ok? ==> stackOffset <= r.value < stackOffset + |layout.names| &&
                        layout.names[r.value - stackOffset] == name &&
                        name !in layout.names[..r.value - stackOffset]
    {
      if name in layout.names then Ok(IndexOf(layout.names, name) + stackOffset)
      else Err(NotInGrid(name))
    }

    /** Scatters values tabulated on the grid to the full shape, NaN where the
        constraint removed a cell. */
    method Expand(values: Tensor) returns (r: Result<seq<Cell>>)
      requires Valid() && WellFormed(values)
      ensures r.Err? <==> values.shape != layout.shape
      ensures r.Err? ==> r.error == ShapeMismatch
      ensures r.Ok? && layout.constraint.None? ==> r.value == Wrap(values.data)
      ensures r.Ok? && layout.constraint.Some? ==>
        |r.value| == Prod(layout.expandedShape) &&
        (forall c :: 0 <= c < Prod(layout.shape) ==> r.value[Target(layout, c)] == Num(values.data[c])) &&
        (forall t :: 0 <= t < |r.value| && !Kept(layout, t) ==> r.value[t] == NaN)
      ensures r.Ok? ==> |r.value| == Prod(layout.expandedShape) && Restrict(layout, r.value) == Wrap(values.data)
    {
      if values.shape != layout.shape {
        return Err(ShapeMismatch);
      }
      if layout.constraint.None? {
        return Ok(Wrap(values.data));
      }
      var cells := Scatter(values);
      r := Ok(cells);
      RestrictExpanded(layout, cells, values.data);
    }

    /** The loop of expand: a NaN-filled full array, then every reduced value
        written at its target. */
    method Scatter(values: Tensor) returns (cells: seq<Cell>)
      requires Valid() && WellFormed(values) && values.shape == layout.shape && layout.constraint.Some?
      ensures |cells| == Prod(layout.expandedShape)
      ensures forall c :: 0 <= c < Prod(layout.shape) ==> cells[Target(layout, c)] == Num(values.data[c])
      ensures forall t :: 0 <= t < |cells| && !Kept(layout, t) ==> cells[t] == NaN
    {
      var n := Prod(layout.expandedShape);
      var expanded := new Cell[n](_ => NaN);
      ghost var targets := Targets(layout);
      var c := 0;
      while c < Prod(layout.shape)
        invariant 0 <= c <= Prod(layout.shape) && expanded.Length == n
        invariant Placed(expanded[..], targets, values.data, c) && OnlyPlaced(expanded[..], targets, c)
      {
        var t := ExpandedIndex(c);
        ghost var before := expanded[..];
        ScatterStep(before, targets, values.data, c);
        expanded[t] := Num(values.data[c]);
        assert expanded[..] == before[t := Num(values.data[c])];
        c := c + 1;
      }
      cells := expanded[..];
      Scattered(layout, cells, targets, values.data);
    }

    /** The inner loop of expand: the full-grid position of reduced cell `c`. */
    method ExpandedIndex(c: nat) returns (t: nat)
      requires Valid() && layout.constraint.Some? && c < Prod(layout.shape)
      ensures t == Target(layout, c)
    {
      var ci := layout.constraint.value;
      var ii := Unflatten(layout.shape, c);
      var i0 := ii[ci.offsets[0]];
      var jj := ii;
      var k := 0;
      while k < |ci.offsets|
        invariant 0 <= k <= |ci.offsets|
        invariant jj == LiftUpTo(ci, ii, i0, k)
      {
        jj := jj[ci.offsets[k] := ci.indices[k][i0]];
        k := k + 1;
      }
      t := Flatten(layout.expandedShape, jj);
    }

    /** Smallest and largest value of the named axis. */
    function Extent(name: string): (r: Result<(real, real)>)
      requires Valid()
      ensures r.Err? <==> name !in layout.names || |layout.axes[IndexOf(layout.names, name)]| == 0
      ensures name !in layout.names ==> r == Err(UnknownAxis(name))
      ensures name in layout.names && r.Err? ==> r.error == EmptySequence
      ensures r.Ok? ==> var axis := layout.axes[IndexOf(layout.names, name)];
        r.value.0 in axis && r.value.1 in axis &&
        forall j :: 0 <= j < |axis| ==> r.value.0 <= axis[j] <= r.value.1
    {
      if name !in layout.names then Err(UnknownAxis(name))
      else
        var axis := layout.axes[IndexOf(layout.names, name)];
        if |axis| == 0 then Err(EmptySequence) else Ok((MinOf(axis), MaxOf(axis)))
    }

    /** The stacked position of the named axis and the first position along it
        whose value is closest to `value`. */
    function Index(name: string, value: real): (r: Result<(nat, nat)>)
      requires Valid()
      reads this
      ensures name !in layout.names ==> r == Err(NotInGrid(name))
      ensures name in layout.names ==>
        var axis := layout.axes[IndexOf(layout.names, name)];
        (r.Err? <==> |axis| == 0) && (r.Err? ==> r.error == EmptySequence) &&
        (r.Ok? ==>
          r.value.0 == IndexOf(layout.names, name) + stackOffset && r.value.1 < |axis| &&
          (forall j :: 0 <= j < |axis| ==> Abs(value - axis[r.value.1]) <= Abs(value - axis[j])) &&
          (forall j :: 0 <= j < r.value.1 ==> Abs(value - axis[r.value.1]) < Abs(value - axis[j])))
    {
      var a := Axis(name);
      if a.Err? then Err(a.error)
      else
        var axis := layout.axes[a.value - stackOffset];
        if |axis| == 0 then Err(EmptySequence)
        else Ok((a.value, ArgMin(Distances(axis, value))))
    }

    /** The full weighted sum over the grid's own dimensions of a stacked array. */
    function Total(vshape: seq<nat>, data: seq<real>): (norm: seq<real>)
      requires Valid()
      reads this
      ensures |norm| == Prod(Before(vshape, stackOffset)) * Prod(After(vshape, stackOffset, |layout.shape|))
    {
      BlockSum(Prod(Before(vshape, stackOffset)), Prod(layout.shape), Prod(After(vshape, stackOffset, |layout.shape|)),
               Weights(layout), data)
    }

    /** Grid.sum without axis_names: check the grid's dimensions, then sum over
        them, each cell weighted by its constraint weight. */
    function Sum(values: Tensor, keepdims: bool): (r: Result<Tensor>)
      requires Valid() && WellFormed(values)
      reads this
      ensures r.Err? <==> !Fits(values.shape, stackOffset, layout.shape)
      ensures r.Err? ==> r.error == ShapeMismatch
      ensures r.Ok? ==> WellFormed(r.value) && r.value.data == Total(values.shape, values.data)
      ensures r.Ok? ==> r.value.shape == Before(values.shape, stackOffset) +
                                         (if keepdims then Ones(|layout.shape|) else []) +
                                         After(values.shape, stackOffset, |layout.shape|)
    {
      if !Fits(values.shape, stackOffset, layout.shape) then Err(ShapeMismatch)
      else
        var pre, post := Before(values.shape, stackOffset), After(values.shape, stackOffset, |layout.shape|);
        var kept := if keepdims then Ones(|layout.shape|) else [];
        ProdAllOnes(kept);
        ProdThree(pre, kept, post);
        Ok(Tensor(pre + kept + post, Total(values.shape, values.data)))
    }

    /** Grid.sum with axis_names: the named axes summed out, in a grid without
        a constraint. */
    function SumAxes(values: Tensor, axisNames: seq<string>, keepdims: bool): (r: Result<Tensor>)
      requires Valid() && WellFormed(values)
      reads this
      ensures !Fits(values.shape, stackOffset, layout.shape) ==> r == Err(ShapeMismatch)
      ensures Fits(values.shape, stackOffset, layout.shape) && layout.constraint.Some? ==> r == Err(SumWithConstraint)
      ensures Fits(values.shape, stackOffset, layout.shape) && layout.constraint.None? &&
              !AllIn(axisNames, layout.names)
              ==> r == Err(InvalidAxisNames)
      ensures Fits(values.shape, stackOffset, layout.shape) && layout.constraint.None? &&
              AllIn(axisNames, layout.names) && !Distinct(axisNames)
              ==> r == Err(DuplicateAxes)
      ensures r.Ok? <==> Fits(values.shape, stackOffset, layout.shape) && layout.constraint.None? &&
                         AllIn(axisNames, layout.names) && Distinct(axisNames)
      ensures r.Ok? ==>
        var ds := Positions(layout.names, axisNames, stackOffset);
        (forall i :: 0 <= i < |ds| ==> ds[i] < |values.shape|) &&
        r.value.data == ReduceAxes(values, ds).data &&
        r.value.shape == (if keepdims then ReduceAxes(values, ds).shape else Squeeze(values.shape, ds, 0))
    {
      if !Fits(values.shape, stackOffset, layout.shape) then Err(ShapeMismatch)
      else if layout.constraint.Some? then Err(SumWithConstraint)
      else if !AllIn(axisNames, layout.names) then Err(InvalidAxisNames)
      else
        var ds := Positions(layout.names, axisNames, stackOffset);
        PositionsDistinct(layout.names, axisNames, stackOffset);
        if !Distinct(ds) then Err(DuplicateAxes)
        else
          PositionsInRange(values.shape, stackOffset, layout.shape, layout.names, axisNames);
          Ok(NamedSum(values, ds, keepdims))
    }

    /** Grid.normalize: divide an array in place by its keepdims sum and return it. */
    method Normalize(values: array<real>, vshape: seq<nat>) returns (r: Result<array<real>>)
      requires Valid() && values.Length == Prod(vshape)
      requires Fits(vshape, stackOffset, layout.shape) ==>
        forall i :: 0 <= i < |Total(vshape, values[..])| ==> Total(vshape, values[..])[i] != 0.0
      modifies values
      ensures r.Err? <==> !Fits(vshape, stackOffset, layout.shape)
      ensures r.Err? ==> r.error == ShapeMismatch && values[..] == old(values[..])
      ensures r.Ok? ==> r.value == values
      ensures r.Ok? ==> DividedBy(values[..], old(values[..]), old(Total(vshape, values[..])),
                                  Prod(layout.shape), Prod(After(vshape, stackOffset, |layout.shape|)))
      ensures r.Ok? ==> var total := Total(vshape, values[..]);
        forall i :: 0 <= i < |total| ==> total[i] == 1.0
    {
      if !Fits(vshape, stackOffset, layout.shape) {
        return Err(ShapeMismatch);
      }
      DivideBySum(values, vshape);
      r := Ok(values);
    }

    /** The division of normalize once the shape check has passed. */
    method DivideBySum(values: array<real>, vshape: seq<nat>)
      requires Valid() && values.Length == Prod(vshape) && Fits(vshape, stackOffset, layout.shape)
      requires forall i :: 0 <= i < |Total(vshape, values[..])| ==> Total(vshape, values[..])[i] != 0.0
      modifies values
      ensures DividedBy(values[..], old(values[..]), old(Total(vshape, values[..])),
                        Prod(layout.shape), Prod(After(vshape, stackOffset, |layout.shape|)))
      ensures var total := Total(vshape, values[..]);
        forall i :: 0 <= i < |total| ==> total[i] == 1.0
    {
      var sum := Sum(Tensor(vshape, values[..]), true);
      ghost var data := values[..];
      TotalBounds(vshape);
      DivideBlocks(values, sum.value.data, Prod(layout.shape), Prod(After(vshape, stackOffset, |layout.shape|)));
      DividedTotal(vshape, data, values[..]);
    }

    /** Every cell of an array that fits has its sum in the keepdims total. */
    lemma TotalBounds(vshape: seq<nat>)
      requires Valid() && Fits(vshape, stackOffset, layout.shape)
      ensures forall k :: 0 <= k < Prod(vshape) ==>
        NormIndex(k, Prod(layout.shape), Prod(After(vshape, stackOffset, |layout.shape|))) <
        Prod(Before(vshape, stackOffset)) * Prod(After(vshape, stackOffset, |layout.shape|))
    {
      FitsSplit(vshape, stackOffset, layout.shape);
      NormIndexBounds(Prod(Before(vshape, stackOffset)), Prod(layout.shape), Prod(After(vshape, stackOffset, |layout.shape|)));
    }

    /** Dividing by the keepdims total leaves totals of one. */
    lemma DividedTotal(vshape: seq<nat>, data: seq<real>, scaled: seq<real>)
      requires Valid() && |data| == Prod(vshape) && Fits(vshape, stackOffset, layout.shape)
      requires forall i :: 0 <= i < |Total(vshape, data)| ==> Total(vshape, data)[i] != 0.0
      requires DividedBy(scaled, data, Total(vshape, data), Prod(layout.shape), Prod(After(vshape, stackOffset, |layout.shape|)))
      ensures var total := Total(vshape, scaled);
        forall i :: 0 <= i < |total| ==> total[i] == 1.0
    {
      FitsSplit(vshape, stackOffset, layout.shape);
      NormalizedTotal(Prod(Before(vshape, stackOffset)), Prod(layout.shape), Prod(After(vshape, stackOffset, |layout.shape|)),
                      Weights(layout), data, Total(vshape, data), scaled);
    }

    /** Coordinates, one per axis, of the first largest of `values`; the
        constrained axes all read the kept cell found on the first of them. */
    function GetMax(values: Tensor): (r: Result<seq<real>>)
      requires Valid() && WellFormed(values)
      ensures r.Err? <==> values.shape != layout.shape || |values.data| == 0
      ensures values.shape != layout.shape ==> r == Err(ShapeMismatch)
      ensures values.shape == layout.shape && |values.data| == 0 ==> r == Err(EmptySequence)
      ensures r.Ok? ==>
        var m := ArgMax(values.data);
        var ii := Unflatten(layout.shape, m);
        |r.value| == |layout.names| &&
        (forall i :: 0 <= i < |values.data| ==> values.data[i] <= values.data[m]) &&
        (forall i :: 0 <= i < m ==> values.data[i] < values.data[m]) &&
        (forall p :: 0 <= p < |layout.names| && (layout.constraint.None? || p !in layout.constraint.value.offsets) ==>
          ii[p] < |layout.axes[p]| && r.value[p] == layout.axes[p][ii[p]]) &&
        (layout.constraint.Some? ==> var ci := layout.constraint.value;
          forall j :: 0 <= j < |ci.offsets| ==>
            ii[ci.offsets[0]] < |layout.axes[ci.offsets[j]]| &&
            r.value[ci.offsets[j]] == layout.axes[ci.offsets[j]][ii[ci.offsets[0]]])
    {
      if values.shape != layout.shape then Err(ShapeMismatch)
      else if |values.data| == 0 then Err(EmptySequence)
      else
        var ii := Unflatten(layout.shape, ArgMax(values.data));
        var indices := MaxIndices(layout, ii);
        Ok(seq(|layout.names|, p requires 0 <= p < |layout.names| => layout.axes[p][indices[p]]))
    }
  }

  /** Target of every reduced cell, in row-major order; no two coincide. */
  ghost function Targets(l: Layout): (ts: seq<nat>)
    requires ValidLayout(l) && l.constraint.Some?
    ensures |ts| == Prod(l.shape) && forall c :: 0 <= c < |ts| ==> ts[c] == Target(l, c) && ts[c] < Prod(l.expandedShape)
    ensures forall c, c' :: 0 <= c < c' < |ts| ==> ts[c] != ts[c']
  {
    forall c, c' | 0 <= c < c' < Prod(l.shape)
      ensures Target(l, c) != Target(l, c')
    {
      if Target(l, c) == Target(l, c') {
        TargetInjective(l, c, c');
      }
    }
    seq(Prod(l.shape), c requires 0 <= c < Prod(l.shape) => Target(l, c))
  }

  /** The first c values have been written at their targets. */
  ghost predicate Placed(cells: seq<Cell>, ts: seq<nat>, data: seq<real>, c: nat)
    requires c <= |ts| && c <= |data|
  {
    forall c' :: 0 <= c' < c ==> ts[c'] < |cells| && cells[ts[c']] == Num(data[c'])
  }

  /** Nothing but the targets of the first c values has been written. */
  ghost predicate OnlyPlaced(cells: seq<Cell>, ts: seq<nat>, c: nat)
    requires c <= |ts|
  {
    forall t :: 0 <= t < |cells| && cells[t].Num? ==> t in ts[..c]
  }

  /** Writing value c at its target, which no earlier value has, keeps both. */
  lemma ScatterStep(cells: seq<Cell>, ts: seq<nat>, data: seq<real>, c: nat)
    requires c < |ts| && c < |data| && ts[c] < |cells|
    requires forall c1, c2 :: 0 <= c1 < c2 < |ts| ==> ts[c1] != ts[c2]
    requires Placed(cells, ts, data, c) && OnlyPlaced(cells, ts, c)
    ensures Placed(cells[ts[c] := Num(data[c])], ts, data, c + 1)
    ensures OnlyPlaced(cells[ts[c] := Num(data[c])], ts, c + 1)
  {
    assert ts[..c + 1] == ts[..c] + [ts[c]];
  }

  /** Once every value is written, the cells are what expand promises. */
  lemma Scattered(l: Layout, cells: seq<Cell>, ts: seq<nat>, data: seq<real>)
    requires ValidLayout(l) && l.constraint.Some? && ts == Targets(l) && |data| == |ts|
    requires |cells| == Prod(l.expandedShape)
    requires Placed(cells, ts, data, |ts|) && OnlyPlaced(cells, ts, |ts|)
    ensures forall c :: 0 <= c < Prod(l.shape) ==> cells[Target(l, c)] == Num(data[c])
    ensures forall t :: 0 <= t < |cells| && !Kept(l, t) ==> cells[t] == NaN
  {
    forall t | 0 <= t < |cells| && cells[t].Num?
      ensures Kept(l, t)
    {
      assert ts[..|ts|] == ts;
      var c :| 0 <= c < |ts| && ts[c] == t;
    }
  }

  /** Distance of every axis value from `value`. */
  function Distances(axis: seq<real>, value: real): (d: seq<real>)
    ensures |d| == |axis| && forall j :: 0 <= j < |axis| ==> d[j] == Abs(value - axis[j])
  {
    seq(|axis|, j requires 0 <= j < |axis| => Abs(value - axis[j]))
  }

  /** Reading back the kept cells of an array that holds each value at its
      target gives the values. */
  lemma RestrictExpanded(l: Layout, cells: seq<Cell>, data: seq<real>)
    requires ValidLayout(l) && |cells| == Prod(l.expandedShape) && |data| == Prod(l.shape)
    requires l.constraint.None? ==> cells == Wrap(data)
    requires l.constraint.Some? ==> forall c :: 0 <= c < Prod(l.shape) ==> cells[Target(l, c)] == Num(data[c])
    ensures Restrict(l, cells) == Wrap(data)
  {
  }

  /** The indices getmax reads the coordinates at: those of the maximum, with
      every constrained axis given the index found on the first one. */
  function MaxIndices(l: Layout, ii: seq<nat>): (idx: seq<nat>)
    requires ValidLayout(l) && InRange(l.shape, ii)
    ensures |idx| == |l.names| && forall p :: 0 <= p < |l.names| ==> idx[p] < |l.axes[p]|
    ensures l.constraint.None? ==> idx == ii
    ensures l.constraint.Some? ==> var ci := l.constraint.value;
      (forall p :: 0 <= p < |l.names| && p !in ci.offsets ==> idx[p] == ii[p]) &&
      (forall j :: 0 <= j < |ci.offsets| ==> idx[ci.offsets[j]] == ii[ci.offsets[0]])
  {
    match l.constraint
    case None => ii
    case Some(ci) =>
      seq(|ii|, p requires 0 <= p < |ii| => if p in ci.offsets then ii[ci.offsets[0]] else ii[p])
  }

  /** The constraint weight `values * constraint_weights` applies to the
      element of a stacked array at coordinates `cs`, as written: the weight
      array has one dimension per grid axis, with the kept cells along the
      first constrained axis `o0`, and numpy broadcasting lines up trailing
      dimensions, so the weight index is read `naxes - o0` places from the
      right of `cs`. */
  function AsWrittenWeight(w: seq<real>, naxes: nat, o0: nat, cs: seq<nat>): real
  {
    var q := |cs| - naxes + o0;
    if 0 <= q < |cs| && cs[q] < |w| then w[cs[q]] else 0.0
  }

  /** The weight of the element at `cs` for a grid stacked at `offset`: the
      index along the grid's own first constrained axis. */
  function GridWeight(w: seq<real>, offset: nat, o0: nat, cs: seq<nat>): real
  {
    var q := offset + o0;
    if q < |cs| && cs[q] < |w| then w[cs[q]] else 0.0
  }

  /** With nothing stacked after the grid the two agree. */
  lemma AsWrittenUnpadded(w: seq<real>, offset: nat, naxes: nat, o0: nat, cs: seq<nat>)
    requires o0 < naxes && |cs| == offset + naxes
    ensures AsWrittenWeight(w, naxes, o0, cs) == GridWeight(w, offset, o0, cs)
  {
  }

  /** Axes stacked after the grid do not change the weight it gives. */
  lemma GridWeightPadded(w: seq<real>, offset: nat, naxes: nat, o0: nat, cs: seq<nat>, tail: seq<nat>)
    requires o0 < naxes && |cs| == offset + naxes
    ensures GridWeight(w, offset, o0, cs + tail) == GridWeight(w, offset, o0, cs)
  {
  }

  /** The weight Grid.sum uses on a cell is the grid weight of that cell at
      any place in any stack. */
  lemma CellWeightIsGridWeight(l: Layout, pre: seq<nat>, m: nat, post: seq<nat>)
    requires ValidLayout(l) && l.constraint.Some? && m < Prod(l.shape)
    ensures var ci := l.constraint.value;
      CellWeight(l, m) == GridWeight(ci.weights, |pre|, ci.offsets[0], pre + Unflatten(l.shape, m) + post)
  {
    var ci := l.constraint.value;
    var ii := Unflatten(l.shape, m);
    var cs := pre + ii + post;
    assert cs[|pre| + ci.offsets[0]] == ii[ci.offsets[0]];
  }

  /** A grid with one axis, constrained to two kept cells of weights 1 and 2,
      stacked before a grid with one axis of length 2, summing an array of
      ones: at t = 0 the weights applied as written add up to 2, the weights
      of the grid's own cells to 3. */
  lemma PaddedWeightsMisaligned()
    ensures Sum(2, (a: nat) => AsWrittenWeight([1.0, 2.0], 1, 0, [a, 0])) == 2.0
    ensures Sum(2, (a: nat) => GridWeight([1.0, 2.0], 0, 0, [a, 0])) == 3.0
  {
    var f := (a: nat) => AsWrittenWeight([1.0, 2.0], 1, 0, [a, 0]);
    var g := (a: nat) => GridWeight([1.0, 2.0], 0, 0, [a, 0]);
    assert Sum(2, f) == f(1) + f(0) + Sum(0, f);
    assert Sum(2, g) == g(1) + g(0) + Sum(0, g);
  }
}

=== FILE: indexing.dfy ===
/** numpy basic indexing with the tuple GridStack.at returns: a position
    along some dimensions, the whole dimension (slice(None)) along the
    others. The result keeps the whole dimensions, in order. */
module Indexing {
  import opened Shapes
  import opened Stacks

  /** Number of whole dimensions in an index tuple. */
  function Free(loc: seq<Loc>): nat
  {
    if |loc| == 0 then 0 else (if loc[0].All? then 1 else 0) + Free(loc[1..])
  }

  /** The shape of the selection: the dimensions taken whole. */
  function Kept(shape: seq<nat>, loc: seq<Loc>): (k: seq<nat>)
    requires |loc| == |shape|
    ensures |k| == Free(loc)
  {
    if |loc| == 0 then []
    else (if loc[0].All? then [shape[0]] else []) + Kept(shape[1..], loc[1..])
  }

  /** The full multi-index of a cell of the selection: the fixed positions,
      and the cell's own index along the whole dimensions. */
  function Fill(loc: seq<Loc>, sub: seq<nat>): (idx: seq<nat>)
    requires |sub| == Free(loc)
    ensures |idx| == |loc|
  {
    if |loc| == 0 then []
    else if loc[0].All? then [sub[0]] + Fill(loc[1..], sub[1..])
    else [loc[0].i] + Fill(loc[1..], sub)
  }

  /** values[loc], in row-major order, for positions inside the tensor
      (PointsIn). numpy raises IndexError for a position past the end of a
      dimension; there this function reads whatever cell the row-major
      position lands on (0 past the end of the data), so its callers check
      PointsIn first. A position
      from GridStack.at can be past the end: every constrained axis of a
      grid holds the k kept values, so `at` looks a later constrained axis
      up among them and gets an index from 0 to k-1, while the stacked
      array holds that axis with length one. */
  function Select(t: Tensor, loc: seq<Loc>): (r: Tensor)
    requires |loc| == |t.shape|
    ensures WellFormed(r) && r.shape == Kept(t.shape, loc)
  {
    var k := Kept(t.shape, loc);
    Tensor(k, seq(Prod(k), o requires 0 <= o < Prod(k) => At(t.data, Flatten(t.shape, Fill(loc, Unflatten(k, o))))))
  }

  /** Every position of `loc` lies inside `shape`. */
  predicate PointsIn(shape: seq<nat>, loc: seq<Loc>)
    requires |loc| == |shape|
  {
    forall q :: 0 <= q < |loc| && loc[q].Point? ==> loc[q].i < shape[q]
  }

  function Alls(n: nat): (loc: seq<Loc>)
    ensures |loc| == n && forall q :: 0 <= q < n ==> loc[q] == All
  {
    seq(n, q => All)
  }

  function Points(idx: seq<nat>): (loc: seq<Loc>)
    ensures |loc| == |idx| && forall q :: 0 <= q < |idx| ==> loc[q] == Point(idx[q])
  {
    seq(|idx|, q requires 0 <= q < |idx| => Point(idx[q]))
  }

  lemma {:induction false} FillInRange(shape: seq<nat>, loc: seq<Loc>, sub: seq<nat>)
    requires |loc| == |shape| && PointsIn(shape, loc) && InRange(Kept(shape, loc), sub)
    ensures InRange(shape, Fill(loc, sub))
  {
    if |loc| > 0 {
      var rest := if loc[0].All? then sub[1..] else sub;
      assert InRange(Kept(shape[1..], loc[1..]), rest) by {
        if loc[0].All? {
          assert Kept(shape, loc) == [shape[0]] + Kept(shape[1..], loc[1..]);
        }
      }
      FillInRange(shape[1..], loc[1..], rest);
      if loc[0].All? {
        assert sub[0] < shape[0] by {
          assert Kept(shape, loc)[0] == shape[0];
        }
      }
    }
  }

  /** Each cell of a selection at positions inside the tensor is a cell of
      the tensor. */
  lemma SelectCell(t: Tensor, loc: seq<Loc>, o: nat)
    requires WellFormed(t) && |loc| == |t.shape| && PointsIn(t.shape, loc)
    requires o < |Select(t, loc).data|
    ensures InRange(t.shape, Fill(loc, Unflatten(Kept(t.shape, loc), o)))
    ensures Flatten(t.shape, Fill(loc, Unflatten(Kept(t.shape, loc), o))) < |t.data|
    ensures Select(t, loc).data[o] == t.data[Flatten(t.shape, Fill(loc, Unflatten(Kept(t.shape, loc), o)))]
  {
    var idx := Fill(loc, Unflatten(Kept(t.shape, loc), o));
    FillInRange(t.shape, loc, Unflatten(Kept(t.shape, loc), o));
    FlattenBound(t.shape, idx);
  }

  lemma {:induction false} AllsKept(shape: seq<nat>)
    ensures Free(Alls(|shape|)) == |shape| && Kept(shape, Alls(|shape|)) == shape
  {
    if |shape| > 0 {
      assert Alls(|shape|)[1..] == Alls(|shape[1..]|);
      AllsKept(shape[1..]);
    }
  }

  lemma {:induction false} AllsFill(sub: seq<nat>)
    requires Free(Alls(|sub|)) == |sub|
    ensures Fill(Alls(|sub|), sub) == sub
  {
    if |sub| > 0 {
      assert Alls(|sub|)[1..] == Alls(|sub[1..]|);
      AllsKept(sub[1..]);
      AllsFill(sub[1..]);
    }
  }

  /** Taking every dimension whole selects the whole tensor. */
  lemma SelectAll(t: Tensor)
    requires WellFormed(t)
    ensures Select(t, Alls(|t.shape|)) == t
  {
    AllsKept(t.shape);
    var s := Select(t, Alls(|t.shape|));
    forall o | 0 <= o < |t.data|
      ensures s.data[o] == t.data[o]
    {
      var sub := Unflatten(t.shape, o);
      AllsFill(sub);
      FlattenUnflatten(t.shape, o);
    }
  }

  lemma {:induction false} PrefixKept(a: seq<nat>, b: seq<nat>, idx: seq<nat>)
    requires |idx| == |a|
    ensures Free(Points(idx) + Alls(|b|)) == |b|
    ensures Kept(a + b, Points(idx) + Alls(|b|)) == b
  {
    if |a| == 0 {
      assert a + b == b && Points(idx) + Alls(|b|) == Alls(|b|);
      AllsKept(b);
    } else {
      assert (a + b)[1..] == a[1..] + b;
      assert (Points(idx) + Alls(|b|))[1..] == Points(idx[1..]) + Alls(|b|);
      PrefixKept(a[1..], b, idx[1..]);
    }
  }

  lemma {:induction false} PrefixFill(idx: seq<nat>, sub: seq<nat>)
    requires Free(Points(idx) + Alls(|sub|)) == |sub|
    ensures Fill(Points(idx) + Alls(|sub|), sub) == idx + sub
  {
    var loc := Points(idx) + Alls(|sub|);
    if |idx| == 0 {
      assert loc == Alls(|sub|);
      AllsFill(sub);
    } else {
      assert loc[0] == Point(idx[0]);
      assert loc[1..] == Points(idx[1..]) + Alls(|sub|);
      assert Fill(loc, sub) == [idx[0]] + Fill(loc[1..], sub);
      PrefixFill(idx[1..], sub);
      assert idx + sub == [idx[0]] + (idx[1..] + sub);
    }
  }

  lemma Regroup(x0: nat, p1: nat, pb: nat, f1: nat, fb: nat)
    ensures x0 * (p1 * pb) + (f1 * pb + fb) == (x0 * p1 + f1) * pb + fb
  {
    assert x0 * (p1 * pb) == (x0 * p1) * pb;
    assert (x0 * p1) * pb + f1 * pb == (x0 * p1 + f1) * pb;
  }

  lemma {:induction false} FlattenConcat(a: seq<nat>, b: seq<nat>, x: seq<nat>, y: seq<nat>)
    requires |x| == |a| && |y| == |b|
    ensures Flatten(a + b, x + y) == Flatten(a, x) * Prod(b) + Flatten(b, y)
  {
    if |a| > 0 {
      var ab, xy := a + b, x + y;
      assert ab[1..] == a[1..] + b && xy[1..] == x[1..] + y && xy[0] == x[0];
      FlattenConcat(a[1..], b, x[1..], y);
      ProdConcat(a[1..], b);
      assert Flatten(ab, xy) == x[0] * (Prod(a[1..]) * Prod(b)) + (Flatten(a[1..], x[1..]) * Prod(b) + Flatten(b, y));
      assert Flatten(a, x) == x[0] * Prod(a[1..]) + Flatten(a[1..], x[1..]);
      Regroup(x[0], Prod(a[1..]), Prod(b), Flatten(a[1..], x[1..]), Flatten(b, y));
    } else {
      assert a + b == b && x + y == y;
    }
  }

  lemma BlockBound(f: nat, pa: nat, pb: nat, o: nat)
    requires f < pa && o < pb
    ensures f * pb + o < pa * pb
  {
    MulLe(f + 1, pa, pb);
  }

  /** The block a prefix of positions fixes lies inside the data. */
  lemma SliceFits(t: Tensor, a: seq<nat>, b: seq<nat>, idx: seq<nat>)
    requires WellFormed(t) && t.shape == a + b && InRange(a, idx)
    ensures 0 <= Flatten(a, idx) * Prod(b) && Flatten(a, idx) * Prod(b) + Prod(b) <= |t.data|
  {
    MulNat(Flatten(a, idx), Prod(b));
    FlattenBound(a, idx);
    ProdConcat(a, b);
    MulLe(Flatten(a, idx) + 1, Prod(a), Prod(b));
    MulSucc(Flatten(a, idx), Prod(b));
  }

  lemma RowOf(row: seq<real>, data: seq<real>, base: nat, n: nat)
    requires |row| == n && base + n <= |data|
    requires forall o :: 0 <= o < n ==> row[o] == At(data, base + o)
    ensures row == data[base..base + n]
  {
  }

  /** Fixing the leading dimensions at `idx` and taking the rest whole
      selects one contiguous block of the row-major data. */
  lemma SelectedSlice(t: Tensor, a: seq<nat>, b: seq<nat>, idx: seq<nat>)
    requires WellFormed(t) && t.shape == a + b && InRange(a, idx)
    ensures Select(t, Points(idx) + Alls(|b|)).shape == b
    ensures Flatten(a, idx) * Prod(b) + Prod(b) <= |t.data|
    ensures Select(t, Points(idx) + Alls(|b|)).data == t.data[Flatten(a, idx) * Prod(b)..Flatten(a, idx) * Prod(b) + Prod(b)]
  {
    var base := SelectedBase(t, a, b, idx);
  }

  /** The same, with the start of the block named. */
  lemma SelectedBase(t: Tensor, a: seq<nat>, b: seq<nat>, idx: seq<nat>) returns (base: nat)
    requires WellFormed(t) && t.shape == a + b && InRange(a, idx)
    ensures base == Flatten(a, idx) * Prod(b) && base + Prod(b) <= |t.data|
    ensures Select(t, Points(idx) + Alls(|b|)).shape == b
    ensures Select(t, Points(idx) + Alls(|b|)).data == t.data[base..base + Prod(b)]
  {
    PrefixKept(a, b, idx);
    SliceFits(t, a, b, idx);
    base := Flatten(a, idx) * Prod(b);
    SelectedCells(t, a, b, idx, base);
    RowOf(Select(t, Points(idx) + Alls(|b|)).data, t.data, base, Prod(b));
  }

  lemma SelectedCells(t: Tensor, a: seq<nat>, b: seq<nat>, idx: seq<nat>, base: int)
    requires WellFormed(t) && t.shape == a + b && InRange(a, idx)
    requires base == Flatten(a, idx) * Prod(b)
    ensures |Select(t, Points(idx) + Alls(|b|)).data| == Prod(b)
    ensures forall o :: 0 <= o < Prod(b) ==> Select(t, Points(idx) + Alls(|b|)).data[o] == At(t.data, base + o)
  {
    PrefixKept(a, b, idx);
    forall o | 0 <= o < Prod(b)
      ensures Select(t, Points(idx) + Alls(|b|)).data[o] == At(t.data, base + o)
    {
      SelectPrefix(t, a, b, idx, o);
    }
  }

  lemma SelectPrefix(t: Tensor, a: seq<nat>, b: seq<nat>, idx: seq<nat>, o: nat)
    requires WellFormed(t) && t.shape == a + b && InRange(a, idx) && o < Prod(b)
    ensures Select(t, Points(idx) + Alls(|b|)).shape == b
    ensures 0 <= Flatten(a, idx) * Prod(b) && Flatten(a, idx) * Prod(b) + o < |t.data|
    ensures Select(t, Points(idx) + Alls(|b|)).data[o] == t.data[Flatten(a, idx) * Prod(b) + o]
  {
    PrefixCell(a, b, idx, o);
    SliceFits(t, a, b, idx);
  }

  /** The cell `o` of the block fixed by `idx` sits at `o` past the block's
      start. */
  lemma PrefixCell(a: seq<nat>, b: seq<nat>, idx: seq<nat>, o: nat)
    requires InRange(a, idx) && o < Prod(b)
    ensures Free(Points(idx) + Alls(|b|)) == |b| && Kept(a + b, Points(idx) + Alls(|b|)) == b
    ensures Flatten(a + b, Fill(Points(idx) + Alls(|b|), Unflatten(b, o))) == Flatten(a, idx) * Prod(b) + o
  {
    PrefixKept(a, b, idx);
    var sub := Unflatten(b, o);
    PrefixFill(idx, sub);
    FlattenConcat(a, b, idx, sub);
    FlattenUnflatten(b, o);
  }
}

=== FILE: perm.dfy ===
/** PermutationInvariant (src/bed/grid.py): constraint weights for a grid
    whose constrained axes all carry the same values, so that only one
    ordering of every tuple of indices is kept, weighted by the number of
    orderings it stands for. */
module Perm {
  import opened Errors
  import opened Shapes

  function Fact(n: nat): (f: nat)
    ensures f >= 1
  {
    if n == 0 then 1 else n * Fact(n - 1)
  }

  /** `k` copies of `n`: the shape of the index tuples. */
  function Repeat(n: nat, k: nat): (s: seq<nat>)
    ensures |s| == k && forall i :: 0 <= i < k ==> s[i] == n
  {
    seq(k, i => n)
  }

  /** The rows of the index table: every k-tuple of indices below `size`, in
      row-major order (np.meshgrid with indexing="ij", reshaped). */
  function Row(size: nat, k: nat, f: nat): (row: seq<nat>)
    requires f < Prod(Repeat(size, k))
    ensures |row| == k && forall i :: 0 <= i < k ==> row[i] < size
  {
    Unflatten(Repeat(size, k), f)
  }

  predicate NonDecreasing(row: seq<nat>)
  {
    forall i :: 1 <= i < |row| ==> row[i - 1] <= row[i]
  }

  /** Length of the run of equal indices that ends at position i. */
  function RunLength(row: seq<nat>, i: nat): (n: nat)
    requires i < |row|
    ensures 1 <= n <= i + 1
  {
    if i == 0 || row[i] != row[i - 1] then 1 else RunLength(row, i - 1) + 1
  }

  /** Product of RunLength over the first n positions; over a whole row it is
      the product of the factorials of its run lengths. */
  function RunProduct(row: seq<nat>, n: nat): (d: nat)
    requires n <= |row|
    ensures d >= 1
  {
    if n == 0 then 1 else RunProduct(row, n - 1) * RunLength(row, n - 1)
  }

  /** The weight of one row: the number of distinct orderings of a sorted row
      (k! over the product of the factorials of its run lengths), zero for a
      row that is not sorted. */
  function Weight(row: seq<nat>): real
  {
    if NonDecreasing(row) then (Fact(|row|) as real) / (RunProduct(row, |row|) as real) else 0.0
  }

  /** How often v occurs in the row. */
  function Count(row: seq<nat>, v: nat): (c: nat)
    ensures c <= |row|
  {
    if |row| == 0 then 0
    else Count(row[..|row| - 1], v) + (if row[|row| - 1] == v then 1 else 0)
  }

  /** The row with every occurrence of v removed. */
  function Without(row: seq<nat>, v: nat): (r: seq<nat>)
    ensures |r| == |row| - Count(row, v)
    ensures forall i :: 0 <= i < |r| ==> r[i] != v
  {
    if |row| == 0 then []
    else
      var last := row[|row| - 1];
      Without(row[..|row| - 1], v) + (if last == v then [] else [last])
  }

  /** The number of orderings that give the same multiset of indices, as
      a denominator: the product, over the distinct values of the row, of
      the factorial of how often each occurs. It depends on the multiset
      only, not on the order of the row. */
  function CountFactorials(row: seq<nat>): (d: nat)
    ensures d >= 1
    decreases |row|
  {
    if |row| == 0 then 1
    else
      var v := row[|row| - 1];
      assert Count(row, v) >= 1;
      Fact(Count(row, v)) * CountFactorials(Without(row, v))
  }

  /** nperm: one pass over the row keeping the current run length and the
      product of run lengths seen so far, stopping at the first descent. */
  method NPerm(row: seq<nat>) returns (w: real)
    ensures w == Weight(row)
    ensures NonDecreasing(row) ==> w == (Fact(|row|) as real) / (CountFactorials(row) as real)
    ensures !NonDecreasing(row) ==> w == 0.0
  {
    var k := |row|;
    if k == 0 {
      return 1.0;
    }
    var nrun := 1;
    var denom := 1;
    var i := 1;
    while i < k
      invariant 1 <= i <= k
      invariant NonDecreasing(row[..i])
      invariant nrun == RunLength(row, i - 1)
      invariant denom == RunProduct(row, i)
    {
      if row[i] < row[i - 1] {
        assert !NonDecreasing(row);
        return 0.0;
      } else if row[i] == row[i - 1] {
        nrun := nrun + 1;
      } else {
        nrun := 1;
      }
      denom := denom * nrun;
      i := i + 1;
    }
    assert row[..i] == row;
    w := (Fact(k) as real) / (denom as real);
    RunProductCounts(row);
  }

  /** The run that ends at position i starts at i + 1 - RunLength(row, i):
      every index in it equals row[i], and the one before it does not. */
  lemma {:induction false} RunFacts(row: seq<nat>, i: nat)
    requires i < |row|
    ensures forall t :: i + 1 - RunLength(row, i) <= t <= i ==> row[t] == row[i]
    ensures RunLength(row, i) <= i ==> row[i - RunLength(row, i)] != row[i]
  {
    if i > 0 && row[i] == row[i - 1] {
      RunFacts(row, i - 1);
    }
  }

  /** Inside a run that starts at s and lasts to the end of the row, the
      run length grows by one at every step. */
  lemma {:induction false} LastRunLength(row: seq<nat>, s: nat, j: nat)
    requires s + j < |row|
    requires forall t :: s <= t < |row| ==> row[t] == row[s]
    requires s > 0 ==> row[s - 1] != row[s]
    ensures RunLength(row, s + j) == j + 1
  {
    if j > 0 {
      LastRunLength(row, s, j - 1);
    }
  }

  /** The positions of that run contribute j! to the product. */
  lemma {:induction false} LastRunProduct(row: seq<nat>, s: nat, j: nat)
    requires s + j <= |row| && s < |row|
    requires forall t :: s <= t < |row| ==> row[t] == row[s]
    requires s > 0 ==> row[s - 1] != row[s]
    ensures RunProduct(row, s + j) == RunProduct(row, s) * Fact(j)
  {
    if j > 0 {
      LastRunProduct(row, s, j - 1);
      LastRunLength(row, s, j - 1);
      var p: int, f: int, r: int := RunProduct(row, s), Fact(j - 1), RunProduct(row, s + j - 1);
      assert r == p * f;
      assert RunProduct(row, s + j) == r * j;
      MulShuffle(p, f, j);
      assert Fact(j) == j * f;
    }
  }

  lemma MulShuffle(a: int, b: int, c: int)
    ensures (a * b) * c == a * (c * b)
  {
  }

  /** Run lengths and their product look only backwards, so a prefix of the
      row has the same ones. */
  lemma {:induction false} RunLengthPrefix(row: seq<nat>, m: nat, i: nat)
    requires i < m <= |row|
    ensures RunLength(row[..m], i) == RunLength(row, i)
  {
    if i > 0 && row[i] == row[i - 1] {
      RunLengthPrefix(row, m, i - 1);
    }
  }

  lemma {:induction false} RunProductPrefix(row: seq<nat>, m: nat, j: nat)
    requires j <= m <= |row|
    ensures RunProduct(row[..m], j) == RunProduct(row, j)
  {
    if j > 0 {
      RunProductPrefix(row, m, j - 1);
      RunLengthPrefix(row, m, j - 1);
    }
  }

  /** In a sorted row every index before position j is at most row[j]. */
  lemma {:induction false} SortedUpTo(row: seq<nat>, i: nat, j: nat)
    requires NonDecreasing(row) && i <= j < |row|
    ensures row[i] <= row[j]
  {
    if i < j {
      SortedUpTo(row, i, j - 1);
    }
  }

  /** Removing a value that fills exactly the positions from s on leaves the
      first s indices. */
  lemma {:induction false} WithoutTail(row: seq<nat>, v: nat, s: nat)
    requires s <= |row|
    requires forall t :: 0 <= t < s ==> row[t] != v
    requires forall t :: s <= t < |row| ==> row[t] == v
    ensures Without(row, v) == row[..s]
  {
    if |row| > 0 {
      var front := row[..|row| - 1];
      assert row == front + [row[|row| - 1]];
      if s == |row| {
        WithoutTail(front, v, s - 1);
      } else {
        WithoutTail(front, v, s);
      }
    }
  }

  /** The last run of a sorted row holds every occurrence of its largest
      index: removing that index leaves the row before the run. */
  lemma LastRunRemoved(row: seq<nat>)
    requires NonDecreasing(row) && |row| > 0
    ensures var c := RunLength(row, |row| - 1);
            Without(row, row[|row| - 1]) == row[..|row| - c] && Count(row, row[|row| - 1]) == c
  {
    var n := |row|;
    var v := row[n - 1];
    var s := n - RunLength(row, n - 1);
    RunFacts(row, n - 1);
    if s > 0 {
      SortedUpTo(row, s - 1, n - 1);
      assert row[s - 1] < v;
    }
    forall t | 0 <= t < s
      ensures row[t] != v
    {
      SortedUpTo(row, t, s - 1);
    }
    WithoutTail(row, v, s);
    assert |Without(row, v)| == s;
  }

  /** The last run contributes the factorial of its length to the product. */
  lemma LastRunFactor(row: seq<nat>)
    requires |row| > 0
    ensures var c := RunLength(row, |row| - 1);
            RunProduct(row, |row|) == RunProduct(row[..|row| - c], |row| - c) * Fact(c)
  {
    var n := |row|;
    var c := RunLength(row, n - 1);
    var s := n - c;
    RunFacts(row, n - 1);
    LastRunProduct(row, s, c);
    assert s + c == n;
    RunProductPrefix(row, s, s);
  }

  /** For a sorted row the product of the run lengths is the product of the
      factorials of the multiplicities: nperm's denominator is the number of
      orderings of each group of equal indices. */
  lemma {:induction false} RunProductCounts(row: seq<nat>)
    requires NonDecreasing(row)
    ensures RunProduct(row, |row|) == CountFactorials(row)
    decreases |row|
  {
    if |row| > 0 {
      var c := RunLength(row, |row| - 1);
      var front := row[..|row| - c];
      LastRunRemoved(row);
      LastRunFactor(row);
      assert NonDecreasing(front);
      RunProductCounts(front);
      var a: int, b: int := CountFactorials(front), Fact(c);
      assert CountFactorials(row) == b * a;
      assert a * b == b * a;
    }
  }

  /** The weight of a row is the number of its distinct orderings, k! over
      the factorials of the multiplicities of its indices, when it is
      sorted, and zero otherwise. */
  lemma WeightCounts(row: seq<nat>)
    ensures NonDecreasing(row) ==> Weight(row) == (Fact(|row|) as real) / (CountFactorials(row) as real)
    ensures !NonDecreasing(row) ==> Weight(row) == 0.0
  {
    if NonDecreasing(row) {
      RunProductCounts(row);
    }
  }

  /** The row (0, 0, 1) of three identical axes stands for its 3!/2! = 3
      orderings. */
  lemma ThreeAxesRow()
    ensures CountFactorials([0, 0, 1]) == 2
    ensures Weight([0, 0, 1]) == 3.0
  {
    assert Fact(1) == 1 && Fact(2) == 2 && Fact(3) == 6;
    assert Without([0, 0], 0) == [];
    assert Count([0], 0) == 1 && Count([0, 0], 0) == 2;
    assert CountFactorials([0, 0]) == Fact(2) * CountFactorials([]) == 2;
    assert Without([0, 0, 1], 1) == [0, 0];
    assert Count([0], 1) == 0 && Count([0, 0], 1) == 0 && Count([0, 0, 1], 1) == 1;
    assert CountFactorials([0, 0, 1]) == Fact(1) * CountFactorials([0, 0]) == 2;
    assert NonDecreasing([0, 0, 1]);
    WeightCounts([0, 0, 1]);
    DivExact(6.0, 2.0, 3.0);
  }

  lemma DivExact(x: real, y: real, z: real)
    requires y != 0.0 && z * y == x
    ensures x / y == z
  {
  }

  /** Whether every argument has the values of the first. */
  method AllIdentical(args: seq<seq<real>>) returns (same: bool)
    requires |args| > 0
    ensures same <==> forall i :: 1 <= i < |args| ==> args[i] == args[0]
  {
    var i := 1;
    while i < |args|
      invariant 1 <= i <= |args|
      invariant forall j :: 1 <= j < i ==> args[j] == args[0]
    {
      if args[i] != args[0] {
        return false;
      }
      i := i + 1;
    }
    return true;
  }

  /** PermutationInvariant(*args): the values of each constrained axis come
      in `args`; the result holds the weight of every index tuple in
      row-major order. */
  method PermutationInvariant(args: seq<seq<real>>) returns (r: Result<seq<real>>)
    ensures |args| == 0 ==> r == Err(NoArguments)
    ensures |args| > 0 ==> (r.Err? <==> exists i :: 1 <= i < |args| && args[i] != args[0])
    ensures |args| > 0 && r.Err? ==> r.error == NotIdentical
    ensures r.Ok? ==> var size, k := |args[0]|, |args|;
      |r.value| == Prod(Repeat(size, k)) &&
      forall f :: 0 <= f < |r.value| ==> r.value[f] == Weight(Row(size, k, f))
  {
    if |args| == 0 {
      return Err(NoArguments);
    }
    var same := AllIdentical(args);
    if !same {
      return Err(NotIdentical);
    }
    var size, k := |args[0]|, |args|;
    var n := Prod(Repeat(size, k));
    var weights: seq<real> := [];
    var f := 0;
    while f < n
      invariant 0 <= f <= n && |weights| == f
      invariant forall g :: 0 <= g < f ==> weights[g] == Weight(Row(size, k, g))
    {
      var w := NPerm(Row(size, k, f));
      weights := weights + [w];
      f := f + 1;
    }
    return Ok(weights);
  }

  /** A row of one repeated index is kept once, with weight one. */
  lemma {:induction false} ConstantRunProduct(row: seq<nat>, n: nat)
    requires n <= |row| && forall i :: 0 <= i < |row| ==> row[i] == row[0]
    ensures RunProduct(row, n) == Fact(n)
  {
    if n > 0 {
      ConstantRunProduct(row, n - 1);
      ConstantRunLength(row, n - 1);
    }
  }

  lemma {:induction false} ConstantRunLength(row: seq<nat>, i: nat)
    requires i < |row| && forall j :: 0 <= j < |row| ==> row[j] == row[0]
    ensures RunLength(row, i) == i + 1
  {
    if i > 0 {
      ConstantRunLength(row, i - 1);
    }
  }

  lemma ConstantRowWeight(row: seq<nat>)
    requires |row| > 0 && forall i :: 0 <= i < |row| ==> row[i] == row[0]
    ensures Weight(row) == 1.0
  {
    ConstantRunProduct(row, |row|);
    assert NonDecreasing(row);
    DivSelf(Fact(|row|) as real);
  }

  lemma DivSelf(x: real)
    requires x != 0.0
    ensures x / x == 1.0
  {
  }

  /** A row of distinct increasing indices stands for all k! orderings. */
  lemma {:induction false} StrictRunProduct(row: seq<nat>, n: nat)
    requires n <= |row| && forall i :: 1 <= i < |row| ==> row[i - 1] < row[i]
    ensures RunProduct(row, n) == 1
  {
    if n > 0 {
      StrictRunProduct(row, n - 1);
    }
  }

  lemma StrictRowWeight(row: seq<nat>)
    requires forall i :: 1 <= i < |row| ==> row[i - 1] < row[i]
    ensures Weight(row) == Fact(|row|) as real
  {
    StrictRunProduct(row, |row|);
  }

  /** A row with a descent is dropped. */
  lemma DescentWeight(row: seq<nat>, i: nat)
    requires 1 <= i < |row| && row[i] < row[i - 1]
    ensures Weight(row) == 0.0
  {
  }

  /** Two identical axes of three values: the nine index pairs get weights
      1 2 2 / 0 1 2 / 0 0 1, which add up to the nine pairs. */
  lemma TwoAxesOfThree()
    ensures Weight([0, 0]) == 1.0 && Weight([0, 1]) == 2.0 && Weight([1, 0]) == 0.0
    ensures Weight([0, 1]) + Weight([0, 2]) + Weight([1, 2]) + Weight([0, 0]) + Weight([1, 1]) + Weight([2, 2]) == 9.0
  {
    ConstantRowWeight([0, 0]);
    ConstantRowWeight([1, 1]);
    ConstantRowWeight([2, 2]);
    StrictRowWeight([0, 1]);
    StrictRowWeight([0, 2]);
    StrictRowWeight([1, 2]);
    DescentWeight([1, 0], 1);
  }
}

=== FILE: reduce.dfy ===
/** Sums over one block of dimensions of a row-major array: the arithmetic
    behind Grid.sum (every grid axis at once, with the constraint weights) and
    behind Grid.sum with axis_names (one axis at a time). An array whose shape
    is Pre + Mid + Post is seen as outer x m x inner with outer = Prod(Pre),
    m = Prod(Mid) and inner = Prod(Post). */
module Reduce {
  import opened Shapes

  /** Row-major position of element (a, j, t) of an outer x m x inner array. */
  function Pos(a: nat, j: nat, t: nat, m: nat, inner: nat): nat
  {
    (a * m + j) * inner + t
  }

  lemma PosBound(a: nat, j: nat, t: nat, outer: nat, m: nat, inner: nat)
    requires a < outer && j < m && t < inner
    ensures Pos(a, j, t, m, inner) < outer * m * inner
  {
    var q := a * m + j;
    assert q + 1 <= (a + 1) * m;
    MulLe(a + 1, outer, m);
    MulLe(q + 1, outer * m, inner);
    assert Pos(a, j, t, m, inner) < (q + 1) * inner;
  }

  /** Position a * inner + t of the reduced array names row a, column t. */
  /** With one inner element, Pos is the plain row-major position. */
  lemma PosFlat(a: nat, j: nat, m: nat)
    ensures Pos(a, j, 0, m, 1) == a * m + j
    ensures Pos(0, j, 0, m, 1) == j
  {
  }

  /** Pos in row `a` of a flat table whose rows start at `base`. */
  lemma PosRow(a: nat, j: nat, m: nat, base: nat)
    requires base == a * m
    ensures Pos(a, j, 0, m, 1) == base + j && Pos(0, j, 0, m, 1) == j
  {
    PosFlat(a, j, m);
  }

  lemma BlockIndex(a: nat, t: nat, outer: nat, inner: nat)
    requires a < outer && t < inner
    ensures a * inner + t < outer * inner
    ensures (a * inner + t) / inner == a && (a * inner + t) % inner == t
  {
    DivModUnique(a * inner + t, inner, a, t);
    MulLe(a + 1, outer, inner);
  }

  /** Every position below outer * inner splits into a row and a column. */
  lemma SplitIndex(i: nat, outer: nat, inner: nat)
    requires i < outer * inner
    ensures inner > 0 && i / inner < outer && i == (i / inner) * inner + i % inner && i % inner < inner
  {
    assert outer * 0 == 0;
    if i / inner >= outer {
      MulLe(outer, i / inner, inner);
    }
  }

  /** Sum over the middle dimension, element j of it weighted by w(j)
      (np.sum over a block of axes, after multiplying by broadcast weights). */
  function BlockSum(outer: nat, m: nat, inner: nat, w: nat -> real, data: seq<real>): (r: seq<real>)
    ensures |r| == outer * inner
  {
    if inner == 0 then
      assert outer * inner == 0;
      []
    else
      seq(outer * inner, i requires 0 <= i < outer * inner =>
        Sum(m, (j: nat) => w(j) * At(data, Pos(i / inner, j, i % inner, m, inner))))
  }

  /** Element (a, t) of a block sum is the weighted sum of the column of the
      input that lies over it. */
  lemma BlockSumCell(outer: nat, m: nat, inner: nat, w: nat -> real, data: seq<real>, a: nat, t: nat)
    requires a < outer && t < inner
    ensures a * inner + t < outer * inner
    ensures BlockSum(outer, m, inner, w, data)[a * inner + t] ==
            Sum(m, (j: nat) => w(j) * At(data, Pos(a, j, t, m, inner)))
  {
    BlockIndex(a, t, outer, inner);
  }

  /** One block of a normalized array sums to one. */
  lemma BlockCellNormalized(outer: nat, m: nat, inner: nat, w: nat -> real,
                            data: seq<real>, n: real, scaled: seq<real>, a: nat, t: nat)
    requires a < outer && t < inner && n != 0.0
    requires n == Sum(m, (j: nat) => w(j) * At(data, Pos(a, j, t, m, inner)))
    requires forall j :: 0 <= j < m ==> At(scaled, Pos(a, j, t, m, inner)) * n == At(data, Pos(a, j, t, m, inner))
    ensures Sum(m, (j: nat) => w(j) * At(scaled, Pos(a, j, t, m, inner))) == 1.0
  {
    var f := (j: nat) => w(j) * At(data, Pos(a, j, t, m, inner));
    var g := (j: nat) => w(j) * At(scaled, Pos(a, j, t, m, inner));
    forall j | 0 <= j < m
      ensures g(j) == (1.0 / n) * f(j)
    {
      Divided(w(j), At(scaled, Pos(a, j, t, m, inner)), At(data, Pos(a, j, t, m, inner)), n);
    }
    ScaledSumOne(m, f, g, n);
  }

  /** Dividing every term of a nonzero sum by that sum gives terms that add up to one. */
  lemma ScaledSumOne(m: nat, f: nat -> real, g: nat -> real, n: real)
    requires n != 0.0 && n == Sum(m, f)
    requires forall j :: 0 <= j < m ==> g(j) == (1.0 / n) * f(j)
    ensures Sum(m, g) == 1.0
  {
    SumScale(m, f, 1.0 / n, g);
    Divided(1.0, 1.0, n, n);
  }

  /** A weighted element divided by n: w * s == (1 / n) * (w * d) when s * n == d. */
  lemma Divided(w: real, s: real, d: real, n: real)
    requires n != 0.0 && s * n == d
    ensures w * s == (1.0 / n) * (w * d)
  {
    assert s == d / n;
  }

  /** After dividing every element by the block sum over it, every block sums to one. */
  lemma BlockSumNormalized(outer: nat, m: nat, inner: nat, w: nat -> real,
                           data: seq<real>, norm: seq<real>, scaled: seq<real>)
    requires |data| == outer * m * inner && |scaled| == |data|
    requires norm == BlockSum(outer, m, inner, w, data)
    requires forall i :: 0 <= i < |norm| ==> norm[i] != 0.0
    requires forall a, j, t :: 0 <= a < outer && 0 <= j < m && 0 <= t < inner ==>
      At(scaled, Pos(a, j, t, m, inner)) * At(norm, a * inner + t) == At(data, Pos(a, j, t, m, inner))
    ensures forall i :: 0 <= i < outer * inner ==> BlockSum(outer, m, inner, w, scaled)[i] == 1.0
  {
    forall i | 0 <= i < outer * inner
      ensures BlockSum(outer, m, inner, w, scaled)[i] == 1.0
    {
      SplitIndex(i, outer, inner);
      NormalizedAt(outer, m, inner, w, data, norm, scaled, i / inner, i % inner);
    }
  }

  /** The block over row a, column t of a normalized array sums to one. */
  lemma NormalizedAt(outer: nat, m: nat, inner: nat, w: nat -> real,
                     data: seq<real>, norm: seq<real>, scaled: seq<real>, a: nat, t: nat)
    requires a < outer && t < inner
    requires norm == BlockSum(outer, m, inner, w, data)
    requires forall i :: 0 <= i < |norm| ==> norm[i] != 0.0
    requires forall a, j, t :: 0 <= a < outer && 0 <= j < m && 0 <= t < inner ==>
      At(scaled, Pos(a, j, t, m, inner)) * At(norm, a * inner + t) == At(data, Pos(a, j, t, m, inner))
    ensures a * inner + t < outer * inner
    ensures BlockSum(outer, m, inner, w, scaled)[a * inner + t] == 1.0
  {
    BlockIndex(a, t, outer, inner);
    var k := a * inner + t;
    ColumnScaled(outer, m, inner, data, norm, scaled, a, t, k);
    CellNormalized(outer, m, inner, w, data, scaled, a, t, k, norm[k]);
  }

  /** The same, once the norm n of that block is known to divide the column. */
  lemma CellNormalized(outer: nat, m: nat, inner: nat, w: nat -> real,
                       data: seq<real>, scaled: seq<real>, a: nat, t: nat, k: nat, n: real)
    requires a < outer && t < inner && k == a * inner + t && k < outer * inner && n != 0.0
    requires n == BlockSum(outer, m, inner, w, data)[k]
    requires forall j :: 0 <= j < m ==> At(scaled, Pos(a, j, t, m, inner)) * n == At(data, Pos(a, j, t, m, inner))
    ensures BlockSum(outer, m, inner, w, scaled)[k] == 1.0
  {
    BlockSumCell(outer, m, inner, w, data, a, t);
    BlockSumCell(outer, m, inner, w, scaled, a, t);
    BlockCellNormalized(outer, m, inner, w, data, n, scaled, a, t);
  }

  /** Every element over row a, column t was divided by the same norm. */
  lemma ColumnScaled(outer: nat, m: nat, inner: nat, data: seq<real>, norm: seq<real>,
                     scaled: seq<real>, a: nat, t: nat, k: nat)
    requires a < outer && t < inner && k == a * inner + t && k < |norm|
    requires forall a, j, t :: 0 <= a < outer && 0 <= j < m && 0 <= t < inner ==>
      At(scaled, Pos(a, j, t, m, inner)) * At(norm, a * inner + t) == At(data, Pos(a, j, t, m, inner))
    ensures forall j :: 0 <= j < m ==> At(scaled, Pos(a, j, t, m, inner)) * norm[k] == At(data, Pos(a, j, t, m, inner))
  {
    forall j | 0 <= j < m
      ensures At(scaled, Pos(a, j, t, m, inner)) * norm[k] == At(data, Pos(a, j, t, m, inner))
    {
      assert At(norm, a * inner + t) == norm[k];
    }
  }

  /** The block sum over a row-major position: the reduced element an input
      element is divided by in Grid.normalize. */
  function NormIndex(i: nat, m: nat, inner: nat): nat
  {
    if m * inner == 0 then 0 else (i / (m * inner)) * inner + i % inner
  }

  lemma NormIndexBound(i: nat, outer: nat, m: nat, inner: nat)
    requires i < outer * m * inner
    ensures NormIndex(i, m, inner) < outer * inner
  {
    assert outer * m * inner == outer * (m * inner);
    SplitIndex(i, outer, m * inner);
    assert m * 0 == 0;
    assert inner > 0;
    var q := i / (m * inner);
    assert NormIndex(i, m, inner) == q * inner + i % inner;
    MulLe(q + 1, outer, inner);
  }

  lemma NormIndexBounds(outer: nat, m: nat, inner: nat)
    ensures forall i :: 0 <= i < outer * m * inner ==> NormIndex(i, m, inner) < outer * inner
  {
    forall i | 0 <= i < outer * m * inner
      ensures NormIndex(i, m, inner) < outer * inner
    {
      NormIndexBound(i, outer, m, inner);
    }
  }

  lemma NormIndexPos(a: nat, j: nat, t: nat, m: nat, inner: nat)
    requires j < m && t < inner
    ensures NormIndex(Pos(a, j, t, m, inner), m, inner) == a * inner + t
  {
    var p := Pos(a, j, t, m, inner);
    MulLe(j + 1, m, inner);
    assert p == a * (m * inner) + (j * inner + t);
    DivModUnique(p, m * inner, a, j * inner + t);
    DivModUnique(p, inner, a * m + j, t);
  }

  /** Prod of a shape split around one of its dimensions. */
  lemma ProdSplit(s: seq<nat>, d: nat)
    requires d < |s|
    ensures Prod(s) == Prod(s[..d]) * s[d] * Prod(s[d + 1..])
    ensures Prod(s[d := 1]) == Prod(s[..d]) * Prod(s[d + 1..])
  {
    var pre, post := Prod(s[..d]), Prod(s[d + 1..]);
    assert s == s[..d] + s[d..];
    ProdConcat(s[..d], s[d..]);
    assert s[d..][1..] == s[d + 1..];
    assert Prod(s[d..]) == s[d] * post;
    MulAssoc(pre, s[d], post);
    var s1 := s[d := 1];
    assert s1 == s[..d] + s1[d..];
    assert s1[d..][1..] == s[d + 1..];
    ProdConcat(s[..d], s1[d..]);
  }

  /** Weight one for every element: a plain sum. */
  function Unit(): nat -> real
  {
    (j: nat) => 1.0
  }

  /** np.sum over dimension d, keeping it with length 1. */
  function ReduceAxis(t: Tensor, d: nat): (r: Tensor)
    requires WellFormed(t) && d < |t.shape|
    ensures WellFormed(r) && r.shape == t.shape[d := 1]
  {
    ProdSplit(t.shape, d);
    Tensor(t.shape[d := 1], BlockSum(Prod(t.shape[..d]), t.shape[d], Prod(t.shape[d + 1..]), Unit(), t.data))
  }

  /** np.sum over the listed dimensions, one after the other, keeping each with length 1. */
  function ReduceAxes(t: Tensor, ds: seq<nat>): (r: Tensor)
    requires WellFormed(t) && forall i :: 0 <= i < |ds| ==> ds[i] < |t.shape|
    ensures WellFormed(r) && |r.shape| == |t.shape|
    ensures forall p :: 0 <= p < |t.shape| ==> r.shape[p] == (if p in ds then 1 else t.shape[p])
    decreases |ds|
  {
    if |ds| == 0 then t
    else
      var prev := ReduceAxes(t, ds[..|ds| - 1]);
      assert forall p :: p in ds <==> p in ds[..|ds| - 1] || p == ds[|ds| - 1];
      ReduceAxis(prev, ds[|ds| - 1])
  }

  /** The shape without the dimensions listed in `ds`, the first dimension of
      `shape` being dimension `from`. */
  function Squeeze(shape: seq<nat>, ds: seq<nat>, from: nat): (r: seq<nat>)
    decreases |shape|
  {
    if |shape| == 0 then []
    else (if from in ds then [] else [shape[0]]) + Squeeze(shape[1..], ds, from + 1)
  }

  /** Dropping dimensions of length one keeps the number of elements. */
  lemma {:induction false} SqueezeProd(shape: seq<nat>, ds: seq<nat>, from: nat)
    requires forall p :: 0 <= p < |shape| && from + p in ds ==> shape[p] == 1
    ensures Prod(Squeeze(shape, ds, from)) == Prod(shape)
    decreases |shape|
  {
    if |shape| > 0 {
      forall p | 0 <= p < |shape[1..]| && from + 1 + p in ds
        ensures shape[1..][p] == 1
      {
        assert shape[p + 1] == 1;
      }
      SqueezeProd(shape[1..], ds, from + 1);
      var head: seq<nat> := if from in ds then [] else [shape[0]];
      ProdConcat(head, Squeeze(shape[1..], ds, from + 1));
      if from in ds {
        assert shape[0] == 1;
      }
    }
  }

  /** Element (a, j, t) of an outer x m x inner array, 0 outside it. */
  function Elem(data: seq<real>, a: nat, j: nat, t: nat, m: nat, inner: nat): real
  {
    At(data, Pos(a, j, t, m, inner))
  }

  lemma PosSplit(a: nat, j: nat, t: nat, m: nat, inner: nat)
    ensures a * (m * inner) + (j * inner + t) == Pos(a, j, t, m, inner)
  {
    assert (a * m + j) * inner == a * m * inner + j * inner;
  }

  /** Sum of block j of row a: its inner elements. */
  function InnerSum(data: seq<real>, a: nat, j: nat, m: nat, inner: nat): real
  {
    Sum(inner, (t: nat) => Elem(data, a, j, t, m, inner))
  }

  /** Sum of column t of row a: element t of each of its m blocks. */
  function MidSum(data: seq<real>, a: nat, t: nat, m: nat, inner: nat): real
  {
    Sum(m, (j: nat) => Elem(data, a, j, t, m, inner))
  }

  /** One row of the input, read as m blocks of inner elements. */
  lemma RowAsBlocks(data: seq<real>, a: nat, m: nat, inner: nat)
    ensures Sum(m * inner, (r: nat) => At(data, a * (m * inner) + r)) ==
            Sum(m, (j: nat) => InnerSum(data, a, j, m, inner))
  {
    var f := (r: nat) => At(data, a * (m * inner) + r);
    SumBlocks(m, inner, f);
    forall j: nat | j < m
      ensures Sum(inner, (t: nat) => f(j * inner + t)) == InnerSum(data, a, j, m, inner)
    {
      forall t: nat | t < inner
        ensures f(j * inner + t) == Elem(data, a, j, t, m, inner)
      {
        PosSplit(a, j, t, m, inner);
      }
      SumExt(inner, (t: nat) => f(j * inner + t), (t: nat) => Elem(data, a, j, t, m, inner));
    }
    SumExt(m, (j: nat) => Sum(inner, (t: nat) => f(j * inner + t)), (j: nat) => InnerSum(data, a, j, m, inner));
  }

  /** The total of an outer x c array, row by row. */
  lemma TotalAsRows(data: seq<real>, outer: nat, c: nat)
    requires |data| == outer * c
    ensures SumAll(data) == Sum(outer, (a: nat) => Sum(c, (r: nat) => At(data, a * c + r)))
  {
    var f := (i: nat) => At(data, i);
    assert SumAll(data) == Sum(outer * c, f);
    SumBlocks(outer, c, f);
    RowsAsRead(data, outer, c, f);
  }

  /** Rows read through `f`, which reads the data, are the rows of the data. */
  lemma RowsAsRead(data: seq<real>, outer: nat, c: nat, f: nat -> real)
    requires forall i: nat :: f(i) == At(data, i)
    ensures Sum(outer, (a: nat) => Sum(c, (j: nat) => f(a * c + j))) == Sum(outer, (a: nat) => Sum(c, (r: nat) => At(data, a * c + r)))
  {
    forall a: nat | a < outer
      ensures Sum(c, (j: nat) => f(a * c + j)) == Sum(c, (r: nat) => At(data, a * c + r))
    {
      SumExt(c, (j: nat) => f(a * c + j), (r: nat) => At(data, a * c + r));
    }
    SumExt(outer, (a: nat) => Sum(c, (j: nat) => f(a * c + j)), (a: nat) => Sum(c, (r: nat) => At(data, a * c + r)));
  }

  /** The total of an outer x m x inner array, row by row and block by block. */
  lemma TotalAsTriple(data: seq<real>, outer: nat, m: nat, inner: nat)
    requires |data| == outer * m * inner
    ensures SumAll(data) == Sum(outer, (a: nat) => Sum(m, (j: nat) => InnerSum(data, a, j, m, inner)))
  {
    MulAssoc(outer, m, inner);
    TotalAsRows(data, outer, m * inner);
    forall a: nat | a < outer
      ensures Sum(m * inner, (r: nat) => At(data, a * (m * inner) + r)) == Sum(m, (j: nat) => InnerSum(data, a, j, m, inner))
    {
      RowAsBlocks(data, a, m, inner);
    }
    SumExt(outer, (a: nat) => Sum(m * inner, (r: nat) => At(data, a * (m * inner) + r)),
                  (a: nat) => Sum(m, (j: nat) => InnerSum(data, a, j, m, inner)));
  }

  lemma MulAssoc(a: nat, b: nat, c: nat)
    ensures a * b * c == a * (b * c)
  {
  }

  /** The total of a plain block sum, row by row and column by column. */
  lemma ReducedAsTriple(data: seq<real>, outer: nat, m: nat, inner: nat)
    ensures SumAll(BlockSum(outer, m, inner, Unit(), data)) ==
            Sum(outer, (a: nat) => Sum(inner, (t: nat) => MidSum(data, a, t, m, inner)))
  {
    var f := (k: nat) => At(BlockSum(outer, m, inner, Unit(), data), k);
    SumAllAs(BlockSum(outer, m, inner, Unit(), data), outer * inner, f);
    SumBlocks(outer, inner, f);
    forall a: nat | a < outer
      ensures Sum(inner, (t: nat) => f(a * inner + t)) == Sum(inner, (t: nat) => MidSum(data, a, t, m, inner))
    {
      ReducedRow(data, outer, m, inner, a, f);
    }
    SumRowsExt(outer, inner, f, (a: nat) => Sum(inner, (t: nat) => MidSum(data, a, t, m, inner)));
  }

  /** The total of s, read through f. */
  lemma SumAllAs(s: seq<real>, n: nat, f: nat -> real)
    requires |s| == n && forall k: nat :: f(k) == At(s, k)
    ensures SumAll(s) == Sum(n, f)
  {
    SumExt(n, (i: nat) => At(s, i), f);
  }

  /** Rows of f, each of sum G(a), add up to the sum of G. */
  lemma SumRowsExt(outer: nat, inner: nat, f: nat -> real, G: nat -> real)
    requires forall a: nat :: a < outer ==> Sum(inner, (t: nat) => f(a * inner + t)) == G(a)
    ensures Sum(outer, (a: nat) => Sum(inner, (t: nat) => f(a * inner + t))) == Sum(outer, G)
  {
    SumExt(outer, (a: nat) => Sum(inner, (t: nat) => f(a * inner + t)), G);
  }

  /** Row a of a plain block sum, read through `f`, is made of the column sums of row a. */
  lemma ReducedRow(data: seq<real>, outer: nat, m: nat, inner: nat, a: nat, f: nat -> real)
    requires a < outer
    requires forall k: nat :: f(k) == At(BlockSum(outer, m, inner, Unit(), data), k)
    ensures Sum(inner, (t: nat) => f(a * inner + t)) == Sum(inner, (t: nat) => MidSum(data, a, t, m, inner))
  {
    forall t: nat | t < inner
      ensures f(a * inner + t) == MidSum(data, a, t, m, inner)
    {
      BlockSumCell(outer, m, inner, Unit(), data, a, t);
      SumExt(m, (j: nat) => Unit()(j) * At(data, Pos(a, j, t, m, inner)), (j: nat) => Elem(data, a, j, t, m, inner));
    }
    SumExt(inner, (t: nat) => f(a * inner + t), (t: nat) => MidSum(data, a, t, m, inner));
  }

  /** Within one row, adding up by columns or by blocks gives the same. */
  lemma RowSwap(data: seq<real>, a: nat, m: nat, inner: nat)
    ensures Sum(inner, (t: nat) => MidSum(data, a, t, m, inner)) == Sum(m, (j: nat) => InnerSum(data, a, j, m, inner))
  {
    var F := (t: nat, j: nat) => Elem(data, a, j, t, m, inner);
    SumSwap(inner, m, F);
    forall t: nat | t < inner
      ensures Sum(m, (j: nat) => F(t, j)) == MidSum(data, a, t, m, inner)
    {
      SumExt(m, (j: nat) => F(t, j), (j: nat) => Elem(data, a, j, t, m, inner));
    }
    SumExt(inner, (t: nat) => Sum(m, (j: nat) => F(t, j)), (t: nat) => MidSum(data, a, t, m, inner));
    forall j: nat | j < m
      ensures Sum(inner, (t: nat) => F(t, j)) == InnerSum(data, a, j, m, inner)
    {
      SumExt(inner, (t: nat) => F(t, j), (t: nat) => Elem(data, a, j, t, m, inner));
    }
    SumExt(m, (j: nat) => Sum(inner, (t: nat) => F(t, j)), (j: nat) => InnerSum(data, a, j, m, inner));
  }

  function RowByColumns(data: seq<real>, a: nat, m: nat, inner: nat): real
  {
    Sum(inner, (t: nat) => MidSum(data, a, t, m, inner))
  }

  function RowByBlocks(data: seq<real>, a: nat, m: nat, inner: nat): real
  {
    Sum(m, (j: nat) => InnerSum(data, a, j, m, inner))
  }

  /** Summing out a dimension keeps the total of the array. */
  lemma BlockSumTotal(data: seq<real>, outer: nat, m: nat, inner: nat)
    requires |data| == outer * m * inner
    ensures SumAll(BlockSum(outer, m, inner, Unit(), data)) == SumAll(data)
  {
    TotalAsTriple(data, outer, m, inner);
    ReducedAsTriple(data, outer, m, inner);
    SumExt(outer, (a: nat) => Sum(inner, (t: nat) => MidSum(data, a, t, m, inner)),
                  (a: nat) => RowByColumns(data, a, m, inner));
    SumExt(outer, (a: nat) => Sum(m, (j: nat) => InnerSum(data, a, j, m, inner)),
                  (a: nat) => RowByBlocks(data, a, m, inner));
    forall a: nat | a < outer
      ensures RowByColumns(data, a, m, inner) == RowByBlocks(data, a, m, inner)
    {
      RowSwap(data, a, m, inner);
    }
    SumExt(outer, (a: nat) => RowByColumns(data, a, m, inner), (a: nat) => RowByBlocks(data, a, m, inner));
  }

  /** Summing out any list of dimensions keeps the total of the array. */
  lemma {:induction false} ReduceAxesTotal(t: Tensor, ds: seq<nat>)
    requires WellFormed(t) && forall i :: 0 <= i < |ds| ==> ds[i] < |t.shape|
    ensures SumAll(ReduceAxes(t, ds).data) == SumAll(t.data)
    decreases |ds|
  {
    if |ds| > 0 {
      var prev := ReduceAxes(t, ds[..|ds| - 1]);
      ReduceAxesTotal(t, ds[..|ds| - 1]);
      var d := ds[|ds| - 1];
      ProdSplit(prev.shape, d);
      BlockSumTotal(prev.data, Prod(prev.shape[..d]), prev.shape[d], Prod(prev.shape[d + 1..]));
    }
  }
}

=== FILE: shapes.dfy ===
/** Row-major index arithmetic on tensor shapes and finite sums: the part of
    numpy's array model that the grids and the designer rely on. A tensor is
    a shape and a flat sequence of cells in row-major (C) order. */
module Shapes {

  /** Number of cells of a tensor of the given shape. */
  function Prod(s: seq<nat>): nat
  {
    if |s| == 0 then 1 else s[0] * Prod(s[1..])
  }

  datatype Tensor = Tensor(shape: seq<nat>, data: seq<real>)

  ghost predicate WellFormed(t: Tensor)
  {
    |t.data| == Prod(t.shape)
  }

  /** `idx` is a multi-index inside `s`. */
  predicate InRange(s: seq<nat>, idx: seq<nat>)
  {
    |idx| == |s| && forall d :: 0 <= d < |s| ==> idx[d] < s[d]
  }

  /** Row-major flat position of a multi-index. */
  function Flatten(s: seq<nat>, idx: seq<nat>): nat
    requires |idx| == |s|
  {
    if |s| == 0 then 0 else idx[0] * Prod(s[1..]) + Flatten(s[1..], idx[1..])
  }

  lemma {:induction false} MulLe(a: nat, b: nat, p: nat)
    requires a <= b
    ensures a * p <= b * p
  {
    if p > 0 {
      MulLe(a, b, p - 1);
      assert a * p == a * (p - 1) + a && b * p == b * (p - 1) + b;
    }
  }

  lemma QuotientLe(f: nat, p: nat, q: nat, r: nat, q0: nat, r0: nat)
    requires 0 <= r < p && 0 <= r0 < p && f == q * p + r && f == q0 * p + r0
    ensures q <= q0
  {
    if q > q0 {
      assert (q0 + 1) * p == q0 * p + p;
      MulLe(q0 + 1, q, p);
    }
  }

  lemma DivModUnique(f: nat, p: nat, q: nat, r: nat)
    requires 0 <= r < p && f == q * p + r
    ensures f / p == q && f % p == r
  {
    var q0, r0 := f / p, f % p;
    QuotientLe(f, p, q, r, q0, r0);
    QuotientLe(f, p, q0, r0, q, r);
  }

  /** Multi-index of a flat position (numpy's unravel_index). */
  function Unflatten(s: seq<nat>, f: nat): (idx: seq<nat>)
    requires f < Prod(s)
    ensures InRange(s, idx)
  {
    if |s| == 0 then []
    else
      var p := Prod(s[1..]);
      assert p > 0;
      DivModUnique(f, p, f / p, f % p);
      assert f / p < s[0] by {
        if f / p >= s[0] {
          MulLe(s[0], f / p, p);
        }
      }
      [f / p] + Unflatten(s[1..], f % p)
  }

  lemma {:induction false} FlattenBound(s: seq<nat>, idx: seq<nat>)
    requires InRange(s, idx)
    ensures Flatten(s, idx) < Prod(s)
  {
    if |s| > 0 {
      var p := Prod(s[1..]);
      FlattenBound(s[1..], idx[1..]);
      MulLe(idx[0] + 1, s[0], p);
      assert (idx[0] + 1) * p == idx[0] * p + p;
    }
  }

  lemma {:induction false} FlattenUnflatten(s: seq<nat>, f: nat)
    requires f < Prod(s)
    ensures Flatten(s, Unflatten(s, f)) == f
  {
    if |s| > 0 {
      var p := Prod(s[1..]);
      assert p > 0;
      FlattenUnflatten(s[1..], f % p);
      assert Unflatten(s, f)[1..] == Unflatten(s[1..], f % p);
    }
  }

  lemma {:induction false} UnflattenFlatten(s: seq<nat>, idx: seq<nat>)
    requires InRange(s, idx)
    ensures Flatten(s, idx) < Prod(s) && Unflatten(s, Flatten(s, idx)) == idx
  {
    FlattenBound(s, idx);
    if |s| > 0 {
      var p := Prod(s[1..]);
      var rest := Flatten(s[1..], idx[1..]);
      UnflattenFlatten(s[1..], idx[1..]);
      DivModUnique(Flatten(s, idx), p, idx[0], rest);
    }
  }

  /** Distinct multi-indices have distinct flat positions. */
  lemma FlattenInjective(s: seq<nat>, i: seq<nat>, j: seq<nat>)
    requires InRange(s, i) && InRange(s, j) && Flatten(s, i) == Flatten(s, j)
    ensures i == j
  {
    UnflattenFlatten(s, i);
    UnflattenFlatten(s, j);
  }

  lemma {:induction false} ProdConcat(a: seq<nat>, b: seq<nat>)
    ensures Prod(a + b) == Prod(a) * Prod(b)
  {
    if |a| == 0 {
      assert a + b == b;
    } else {
      assert (a + b)[0] == a[0];
      assert (a + b)[1..] == a[1..] + b;
      ProdConcat(a[1..], b);
      calc {
        Prod(a + b);
        a[0] * Prod(a[1..] + b);
        a[0] * (Prod(a[1..]) * Prod(b));
        (a[0] * Prod(a[1..])) * Prod(b);
      }
    }
  }

  lemma {:induction false} ProdAllOnes(s: seq<nat>)
    requires forall d :: 0 <= d < |s| ==> s[d] == 1
    ensures Prod(s) == 1
  {
    if |s| > 0 {
      ProdAllOnes(s[1..]);
    }
  }

  /** A cell of a flat sequence, 0 outside it: keeps sums over index
      arithmetic total. */
  function At(s: seq<real>, i: int): real
  {
    if 0 <= i < |s| then s[i] else 0.0
  }

  /** f(0) + ... + f(n - 1). */
  function Sum(n: nat, f: nat -> real): real
  {
    if n == 0 then 0.0 else Sum(n - 1, f) + f(n - 1)
  }

  lemma {:induction false} SumExt(n: nat, f: nat -> real, g: nat -> real)
    requires forall i :: 0 <= i < n ==> f(i) == g(i)
    ensures Sum(n, f) == Sum(n, g)
  {
    if n > 0 {
      SumExt(n - 1, f, g);
    }
  }

  lemma {:induction false} SumScale(n: nat, f: nat -> real, c: real, g: nat -> real)
    requires forall i :: 0 <= i < n ==> g(i) == c * f(i)
    ensures Sum(n, g) == c * Sum(n, f)
  {
    if n > 0 {
      SumScale(n - 1, f, c, g);
    }
  }

  lemma {:induction false} SumAdd(n: nat, f: nat -> real, g: nat -> real, h: nat -> real)
    requires forall i :: 0 <= i < n ==> h(i) == f(i) + g(i)
    ensures Sum(n, h) == Sum(n, f) + Sum(n, g)
  {
    if n > 0 {
      SumAdd(n - 1, f, g, h);
    }
  }

  /** Exchanging the order of a double sum. */
  lemma {:induction false} SumSwap(n: nat, m: nat, f: (nat, nat) -> real)
    ensures Sum(n, (i: nat) => Sum(m, (j: nat) => f(i, j))) == Sum(m, (j: nat) => Sum(n, (i: nat) => f(i, j)))
  {
    if n > 0 {
      var rows := (i: nat) => Sum(m, (j: nat) => f(i, j));
      var prev := (j: nat) => Sum(n - 1, (i: nat) => f(i, j));
      var last := (j: nat) => f(n - 1, j);
      var whole := (j: nat) => Sum(n, (i: nat) => f(i, j));
      SumSwap(n - 1, m, f);
      SumExt(n - 1, rows, (i: nat) => Sum(m, (j: nat) => f(i, j)));
      SumExt(m, prev, (j: nat) => Sum(n - 1, (i: nat) => f(i, j)));
      assert Sum(n, rows) == Sum(m, prev) + Sum(m, last);
      SumAdd(m, prev, last, whole);
      SumExt(m, whole, (j: nat) => Sum(n, (i: nat) => f(i, j)));
      SumExt(n, rows, (i: nat) => Sum(m, (j: nat) => f(i, j)));
    } else {
      SumZero(m, (j: nat) => Sum(n, (i: nat) => f(i, j)));
    }
  }

  /** A sum whose terms are all zero is zero. */
  lemma {:induction false} SumZero(n: nat, f: nat -> real)
    requires forall i :: 0 <= i < n ==> f(i) == 0.0
    ensures Sum(n, f) == 0.0
  {
    if n > 0 {
      SumZero(n - 1, f);
    }
  }

  /** A sum of non-negative terms is non-negative. */
  lemma {:induction false} SumNonNegative(n: nat, f: nat -> real)
    requires forall i :: 0 <= i < n ==> f(i) >= 0.0
    ensures Sum(n, f) >= 0.0
  {
    if n > 0 {
      SumNonNegative(n - 1, f);
    }
  }

  /** A sum of non-negative terms, one of them positive, is positive. */
  lemma {:induction false} SumPositive(n: nat, f: nat -> real, p: nat)
    requires p < n && f(p) > 0.0
    requires forall i :: 0 <= i < n ==> f(i) >= 0.0
    ensures Sum(n, f) > 0.0
  {
    if p < n - 1 {
      SumPositive(n - 1, f, p);
    } else {
      SumNonNegative(n - 1, f);
    }
  }

  /** A sum that is not zero has a term that is not zero. */
  lemma {:induction false} SumNonZeroTerm(n: nat, f: nat -> real)
    requires Sum(n, f) != 0.0
    ensures exists p: nat :: p < n && f(p) != 0.0
  {
    if f(n - 1) == 0.0 {
      SumNonZeroTerm(n - 1, f);
    }
  }

  /** Splitting a sum after its first `a` terms. */
  lemma {:induction false} SumShift(a: nat, b: nat, f: nat -> real)
    ensures Sum(a + b, f) == Sum(a, f) + Sum(b, (j: nat) => f(a + j))
    decreases b
  {
    var g := (j: nat) => f(a + j);
    if b > 0 {
      SumShift(a, b - 1, f);
      SumExt(b - 1, g, (j: nat) => f(a + j));
      assert Sum(b, g) == Sum(b - 1, g) + f(a + b - 1);
      SumExt(b, g, (j: nat) => f(a + j));
    } else {
      SumZero(b, (j: nat) => f(a + j));
    }
  }

  lemma MulSucc(m: nat, k: nat)
    ensures (m + 1) * k == m * k + k
  {
  }

  lemma MulNat(m: nat, k: nat)
    ensures 0 <= m * k
  {
  }

  lemma SumSplit(c: nat, b: nat, k: nat, f: nat -> real)
    requires c == b + k
    ensures Sum(c, f) == Sum(b, f) + Sum(k, (j: nat) => f(b + j))
  {
    SumShift(b, k, f);
  }

  /** A sum over n * k terms, as n consecutive blocks of k. */
  lemma {:induction false} SumBlocks(n: nat, k: nat, f: nat -> real)
    ensures Sum(n * k, f) == Sum(n, (i: nat) => Sum(k, (j: nat) => f(i * k + j)))
  {
    if n > 0 {
      var m := n - 1;
      SumBlocks(m, k, f);
      MulSucc(m, k);
      SumSplit(n * k, m * k, k, f);
    }
  }

  /** Sum of every element of a flat array. */
  function SumAll(s: seq<real>): real
  {
    Sum(|s|, (i: nat) => At(s, i))
  }
}

=== FILE: stacks.dfy ===
/** GridStack (src/bed/grid.py): several grids combined into one larger grid
    for the length of a `with` block. Entering the block tells every grid how
    many stacked axes come before its own (its offset) and after them (its
    pad); leaving it resets both. `at` turns named coordinates into an index
    of the stacked array. */
module Stacks {
  import opened Errors
  import opened GridLayout
  import opened GridIndex
  import opened Grids

  /** Number of axes of gs[lo..hi]. */
  function AxesIn(gs: seq<Grid>, lo: nat, hi: nat): nat
    requires lo <= hi <= |gs|
    decreases hi - lo
  {
    if lo == hi then 0 else |gs[lo].layout.names| + AxesIn(gs, lo + 1, hi)
  }

  lemma {:induction false} AxesSplit(gs: seq<Grid>, lo: nat, mid: nat, hi: nat)
    requires lo <= mid <= hi <= |gs|
    ensures AxesIn(gs, lo, hi) == AxesIn(gs, lo, mid) + AxesIn(gs, mid, hi)
    decreases mid - lo
  {
    if lo < mid {
      AxesSplit(gs, lo + 1, mid, hi);
    }
  }

  /** A grid's axes end before the axes of any later grid begin. */
  lemma LaterGridAfter(gs: seq<Grid>, j: nat, j': nat)
    requires j < j' <= |gs|
    ensures AxesIn(gs, 0, j') >= AxesIn(gs, 0, j) + |gs[j].layout.names|
  {
    AxesSplit(gs, 0, j, j');
    assert AxesIn(gs, j, j') == |gs[j].layout.names| + AxesIn(gs, j + 1, j');
  }

  /** A grid met a second time, earlier in the stack, with offset and pad
      still zero: it has no axes and neither have the grids between. */
  lemma AliasedEntry(gs: seq<Grid>, i: nat, j: nat)
    requires i < j < |gs| && gs[i] == gs[j] && AxesIn(gs, 0, j) == 0
    ensures AxesIn(gs, 0, i) == 0 && AxesIn(gs, i + 1, |gs|) == AxesIn(gs, j + 1, |gs|)
  {
    AxesSplit(gs, 0, i, j);
    AxesSplit(gs, i + 1, j, |gs|);
    AxesSplit(gs, 0, i + 1, j);
    AxesSplit(gs, 0, i, i + 1);
  }

  /** Index of the first grid that has an axis called `name`; |gs| if none has. */
  function FirstOwner(gs: seq<Grid>, name: string): (k: nat)
    ensures k <= |gs|
    ensures k < |gs| ==> name in gs[k].layout.names
    ensures forall j :: 0 <= j < k ==> name !in gs[j].layout.names
  {
    if |gs| == 0 then 0
    else if name in gs[0].layout.names then 0
    else 1 + FirstOwner(gs[1..], name)
  }

  /** One keyword argument of `at`: an axis name and a value along it. */
  datatype Coord = Coord(name: string, value: real)

  /** One entry of the index `at` returns: a whole dimension (slice(None))
      or one position along it. */
  datatype Loc = All | Point(i: nat)

  /** The names of the coordinates no grid has, in the order given. */
  function Missing(gs: seq<Grid>, cs: seq<Coord>): (m: seq<string>)
    ensures |m| == 0 <==> forall i :: 0 <= i < |cs| ==> FirstOwner(gs, cs[i].name) < |gs|
  {
    if |cs| == 0 then []
    else
      var last := cs[|cs| - 1];
      var prev := Missing(gs, cs[..|cs| - 1]);
      assert forall i :: 0 <= i < |cs| - 1 ==> cs[..|cs| - 1][i] == cs[i];
      prev + (if FirstOwner(gs, last.name) < |gs| then [] else [last.name])
  }

  predicate DistinctNames(cs: seq<Coord>)
  {
    forall i, j :: 0 <= i < j < |cs| ==> cs[i].name != cs[j].name
  }

  /** Position in the stacked array of the named axis of its first owner,
      with the grids laid out one after another. */
  function StackPos(gs: seq<Grid>, name: string): nat
    requires FirstOwner(gs, name) < |gs|
  {
    var k := FirstOwner(gs, name);
    AxesIn(gs, 0, k) + IndexOf(gs[k].layout.names, name)
  }

  /** The values along the named axis of its first owner. */
  function OwnerAxis(gs: seq<Grid>, name: string): seq<real>
    requires FirstOwner(gs, name) < |gs| && gs[FirstOwner(gs, name)].Valid()
  {
    var k := FirstOwner(gs, name);
    gs[k].layout.axes[IndexOf(gs[k].layout.names, name)]
  }

  /** Entry q of the index for the coordinates cs: the position closest to
      the value (first on ties) along q's axis for the coordinate whose axis
      lands on q, the whole dimension if none does. */
  function EntryAt(gs: seq<Grid>, cs: seq<Coord>, q: nat): Loc
    requires forall k :: 0 <= k < |gs| ==> gs[k].Valid()
  {
    if |cs| == 0 then All
    else if FirstOwner(gs, cs[0].name) < |gs| && StackPos(gs, cs[0].name) == q &&
            |OwnerAxis(gs, cs[0].name)| > 0
    then Point(ArgMin(Distances(OwnerAxis(gs, cs[0].name), cs[0].value)))
    else EntryAt(gs, cs[1..], q)
  }

  /** The index `at(**coords)` stands for, one entry per stacked axis,
      whatever the grids' offsets are at the moment. */
  function StackIndex(gs: seq<Grid>, cs: seq<Coord>): seq<Loc>
    requires forall k :: 0 <= k < |gs| ==> gs[k].Valid()
  {
    seq(AxesIn(gs, 0, |gs|), q requires 0 <= q => EntryAt(gs, cs, q))
  }

  /** Every coordinate some grid has names a non-empty axis of its first
      owner: `index` then finds a closest point for each. */
  ghost predicate OwnedAxesNonEmpty(gs: seq<Grid>, cs: seq<Coord>)
    requires forall k :: 0 <= k < |gs| ==> gs[k].Valid()
  {
    forall i :: 0 <= i < |cs| && FirstOwner(gs, cs[i].name) < |gs| ==> |OwnerAxis(gs, cs[i].name)| > 0
  }

  /** Different owned names have different stack positions. */
  lemma StackPosApart(gs: seq<Grid>, a: string, b: string)
    requires a != b && FirstOwner(gs, a) < |gs| && FirstOwner(gs, b) < |gs|
    ensures StackPos(gs, a) != StackPos(gs, b)
  {
    var k, k' := FirstOwner(gs, a), FirstOwner(gs, b);
    if k < k' {
      LaterGridAfter(gs, k, k');
    } else if k' < k {
      LaterGridAfter(gs, k', k);
    } else {
      var names := gs[k].layout.names;
      assert names[IndexOf(names, a)] != names[IndexOf(names, b)];
    }
  }

  /** A coordinate with an owner and a non-empty axis decides the entry at
      its own position. */
  lemma {:induction false} EntryOf(gs: seq<Grid>, cs: seq<Coord>, i: nat)
    requires forall k :: 0 <= k < |gs| ==> gs[k].Valid()
    requires DistinctNames(cs) && i < |cs| && FirstOwner(gs, cs[i].name) < |gs|
    requires |OwnerAxis(gs, cs[i].name)| > 0
    ensures EntryAt(gs, cs, StackPos(gs, cs[i].name)) ==
            Point(ArgMin(Distances(OwnerAxis(gs, cs[i].name), cs[i].value)))
  {
    if i > 0 {
      if FirstOwner(gs, cs[0].name) < |gs| {
        StackPosApart(gs, cs[0].name, cs[i].name);
      }
      assert DistinctNames(cs[1..]) by {
        forall a, b | 0 <= a < b < |cs| - 1
          ensures cs[1..][a].name != cs[1..][b].name
        {
          assert cs[1..][a] == cs[a + 1] && cs[1..][b] == cs[b + 1];
        }
      }
      EntryOf(gs, cs[1..], i - 1);
    }
  }

  /** A position no located coordinate lands on is taken whole. */
  lemma {:induction false} EntryNone(gs: seq<Grid>, cs: seq<Coord>, q: nat)
    requires forall k :: 0 <= k < |gs| ==> gs[k].Valid()
    requires forall i :: (0 <= i < |cs| && FirstOwner(gs, cs[i].name) < |gs| &&
      |OwnerAxis(gs, cs[i].name)| > 0) ==> StackPos(gs, cs[i].name) != q
    ensures EntryAt(gs, cs, q) == All
  {
    if |cs| > 0 {
      assert forall i :: 0 <= i < |cs| - 1 ==> cs[1..][i] == cs[i + 1];
      EntryNone(gs, cs[1..], q);
    }
  }

  class GridStack {
    const grids: seq<Grid>

    ghost predicate Valid()
    {
      forall k :: 0 <= k < |grids| ==> grids[k].Valid()
    }

    constructor (gs: seq<Grid>)
      ensures grids == gs
    {
      grids := gs;
    }

    /** Every grid knows its place in the stack. */
    ghost predicate Stacked()
      reads grids
    {
      forall k :: 0 <= k < |grids| ==>
        grids[k].stackOffset == AxesIn(grids, 0, k) && grids[k].stackPad == AxesIn(grids, k + 1, |grids|)
    }

    /** __enter__: from the last grid to the first, check that it is not
        stacked already, then give it its pad and its offset. */
    method Enter() returns (r: Result<GridStack>)
      modifies grids
      ensures r.Err? ==> r.error == AlreadyStacked
      ensures r.Ok? ==> r.value == this && Stacked()
      ensures Distinct(grids) && old(Unplaced(|grids|)) ==> r.Ok?
      ensures Distinct(grids) && !old(Unplaced(|grids|)) ==> r.Err?
      ensures AliasedAxes() ==> r.Err?
    {
      var n := |grids|;
      var offset := AxesIn(grids, 0, n);
      var pad := 0;
      var i := n;
      while i > 0
        invariant 0 <= i <= n
        invariant offset == AxesIn(grids, 0, i) && pad == AxesIn(grids, i, n)
        invariant PlacedFrom(i)
        invariant Distinct(grids) ==> Untouched(i) && PlacedZero(i)
      {
        i := i - 1;
        var g := grids[i];
        if g.stackOffset != 0 || g.stackPad != 0 {
          return Err(AlreadyStacked);
        }
        var ngrid := |g.layout.names|;
        AxesSplit(grids, 0, i, i + 1);
        Place(i, offset - ngrid, pad);
        pad := pad + ngrid;
        offset := offset - ngrid;
      }
      NoAliasedAxes();
      assert Distinct(grids) ==> old(Unplaced(n));
      return Ok(this);
    }

    /** One step of __enter__: grid i, not stacked yet, gets its pad and
        then its offset. */
    method Place(i: nat, offset: nat, pad: nat)
      requires i < |grids| && PlacedFrom(i + 1)
      requires grids[i].stackOffset == 0 && grids[i].stackPad == 0
      requires offset == AxesIn(grids, 0, i) && pad == AxesIn(grids, i + 1, |grids|)
      modifies grids[i]
      ensures PlacedFrom(i)
    {
      ReEntry(i);
      grids[i].stackPad := pad;
      grids[i].stackOffset := offset;
    }

    /** Some grid with axes is listed twice. */
    predicate AliasedAxes()
    {
      exists j, j' :: 0 <= j < j' < |grids| && grids[j] == grids[j'] && |grids[j].layout.names| > 0
    }

    /** The grids before i have the offset and pad they had on entry. */
    twostate predicate Untouched(i: nat)
      reads grids
    {
      forall j :: 0 <= j < i && j < |grids| ==>
        grids[j].stackOffset == old(grids[j].stackOffset) && grids[j].stackPad == old(grids[j].stackPad)
    }

    /** The grids from i on had offset and pad zero on entry. */
    twostate predicate PlacedZero(i: nat)
      reads grids
    {
      forall j :: i <= j < |grids| ==> old(grids[j].stackOffset) == 0 && old(grids[j].stackPad) == 0
    }

    /** The grids before i still have offset and pad zero. */
    ghost predicate Unplaced(i: nat)
      reads grids
    {
      forall j :: 0 <= j < i && j < |grids| ==> grids[j].stackOffset == 0 && grids[j].stackPad == 0
    }

    /** Grids i and later know their place in the stack. */
    ghost predicate PlacedFrom(i: nat)
      reads grids
    {
      forall j :: i <= j < |grids| ==>
        grids[j].stackOffset == AxesIn(grids, 0, j) && grids[j].stackPad == AxesIn(grids, j + 1, |grids|)
    }

    /** If grid i is also a later grid that is placed and still reads zero,
        placing it again writes the same offset and pad. */
    lemma ReEntry(i: nat)
      requires i < |grids| && PlacedFrom(i + 1)
      requires grids[i].stackOffset == 0 && grids[i].stackPad == 0
      ensures forall j :: i < j < |grids| && grids[j] == grids[i] ==>
        AxesIn(grids, 0, i) == AxesIn(grids, 0, j) && AxesIn(grids, i + 1, |grids|) == AxesIn(grids, j + 1, |grids|)
    {
      forall j | i < j < |grids| && grids[j] == grids[i]
        ensures AxesIn(grids, 0, i) == AxesIn(grids, 0, j) && AxesIn(grids, i + 1, |grids|) == AxesIn(grids, j + 1, |grids|)
      {
        AliasedEntry(grids, i, j);
      }
    }

    /** Once every grid is placed, a grid listed twice has no axes. */
    lemma NoAliasedAxes()
      requires PlacedFrom(0)
      ensures !AliasedAxes()
    {
      forall j, j' | 0 <= j < j' < |grids| && grids[j] == grids[j']
        ensures |grids[j].layout.names| == 0
      {
        LaterGridAfter(grids, j, j');
      }
    }

    /** __exit__: every grid back to offset and pad zero. */
    method Exit()
      modifies grids
      ensures forall k :: 0 <= k < |grids| ==> grids[k].stackOffset == 0 && grids[k].stackPad == 0
    {
      var i := 0;
      while i < |grids|
        invariant 0 <= i <= |grids|
        invariant forall k :: 0 <= k < i ==> grids[k].stackOffset == 0 && grids[k].stackPad == 0
      {
        grids[i].stackOffset := 0;
        grids[i].stackPad := 0;
        i := i + 1;
      }
    }

    /** Where the first grid with the coordinate's axis puts it: the stacked
        position of the axis and the position along it closest to the value. */
    function Lookup(c: Coord): Result<(nat, nat)>
      requires Valid() && FirstOwner(grids, c.name) < |grids|
      reads grids
    {
      grids[FirstOwner(grids, c.name)].Index(c.name, c.value)
    }

    /** Every coordinate some grid has can be looked up and lands inside the
        stacked array. */
    ghost predicate Locatable(cs: seq<Coord>)
      requires Valid()
      reads grids
    {
      forall i :: 0 <= i < |cs| && FirstOwner(grids, cs[i].name) < |grids| ==>
        Lookup(cs[i]).Ok? && Lookup(cs[i]).value.0 < AxesIn(grids, 0, |grids|)
    }

    /** No two coordinates land on the same stacked position. */
    ghost predicate DistinctPositions(cs: seq<Coord>)
      requires Valid()
      reads grids
    {
      forall i, j :: 0 <= i < |cs| && 0 <= j < |cs| && i != j &&
        FirstOwner(grids, cs[i].name) < |grids| && FirstOwner(grids, cs[j].name) < |grids| &&
        Lookup(cs[i]).Ok? && Lookup(cs[j]).Ok?
        ==> Lookup(cs[i]).value.0 != Lookup(cs[j]).value.0
    }

    /** The coordinates found so far have been looked up successfully. */
    ghost predicate Looked(cs: seq<Coord>, found: seq<bool>, n: nat)
      requires Valid() && |found| == |cs|
      reads grids
    {
      forall j :: 0 <= j < |cs| && found[j] ==>
        FirstOwner(grids, cs[j].name) < |grids| && Lookup(cs[j]).Ok? && Lookup(cs[j]).value.0 < n
    }

    /** ... and their positions have been written in the index. */
    ghost predicate Covered(cs: seq<Coord>, found: seq<bool>, idx: seq<Loc>)
      requires Valid() && |found| == |cs| && Looked(cs, found, |idx|)
      reads grids
    {
      forall j :: 0 <= j < |cs| && found[j] ==> idx[Lookup(cs[j]).value.0] != All
    }

    /** Every written entry of the index holds what a coordinate found so far
        (`src` names it) looked up for that position. */
    ghost predicate Sourced(cs: seq<Coord>, found: seq<bool>, idx: seq<Loc>, src: seq<nat>)
      requires Valid() && |found| == |cs| && Looked(cs, found, |idx|) && |src| == |idx|
      reads grids
    {
      forall q :: 0 <= q < |idx| && idx[q] != All ==>
        src[q] < |cs| && found[src[q]] && Lookup(cs[src[q]]).value.0 == q &&
        idx[q] == Point(Lookup(cs[src[q]]).value.1)
    }

    /** Without collisions, each coordinate found holds its own entry. */
    lemma CoveredWritten(cs: seq<Coord>, found: seq<bool>, idx: seq<Loc>, src: seq<nat>)
      requires Valid() && |found| == |cs| && |src| == |idx|
      requires Looked(cs, found, |idx|) && Covered(cs, found, idx) && Sourced(cs, found, idx, src)
      requires DistinctPositions(cs)
      ensures forall j :: 0 <= j < |cs| && found[j] ==> idx[Lookup(cs[j]).value.0] == Point(Lookup(cs[j]).value.1)
    {
      forall j | 0 <= j < |cs| && found[j]
        ensures idx[Lookup(cs[j]).value.0] == Point(Lookup(cs[j]).value.1)
      {
        var q := Lookup(cs[j]).value.0;
        assert src[q] == j;
      }
    }

    /** After the pass over grids[..g] and the first i coordinates of the
        pass over grids[g]: found exactly what those grids own. */
    predicate FoundUpTo(cs: seq<Coord>, found: seq<bool>, g: nat, i: nat)
      requires |found| == |cs|
    {
      forall j :: 0 <= j < |cs| ==> (found[j] <==> FirstOwner(grids, cs[j].name) < (if j < i then g + 1 else g))
    }

    /** A coordinate the pass over grids[g] passes by: already placed, or
        not an axis of that grid. */
    lemma SkipStep(cs: seq<Coord>, found: seq<bool>, g: nat, i: nat)
      requires |found| == |cs| && i < |cs| && g < |grids| && FoundUpTo(cs, found, g, i)
      requires found[i] || cs[i].name !in grids[g].layout.names
      ensures FoundUpTo(cs, found, g, i + 1)
    {
      var k := FirstOwner(grids, cs[i].name);
      assert found[i] <==> k < g;
      assert k != g;
    }

    /** One coordinate placed by the pass over the grid that owns it. */
    lemma PlaceStep(cs: seq<Coord>, found: seq<bool>, idx: seq<Loc>, src: seq<nat>, g: nat, i: nat)
      requires Valid() && |found| == |cs| && |src| == |idx| && i < |cs|
      requires Looked(cs, found, |idx|) && Covered(cs, found, idx) && Sourced(cs, found, idx, src)
      requires FoundUpTo(cs, found, g, i) && FirstOwner(grids, cs[i].name) == g < |grids|
      requires Lookup(cs[i]).Ok? && Lookup(cs[i]).value.0 < |idx|
      ensures var pos, loc := Lookup(cs[i]).value.0, Lookup(cs[i]).value.1;
        var found', idx', src' := found[i := true], idx[pos := Point(loc)], src[pos := i];
        Looked(cs, found', |idx'|) && Covered(cs, found', idx') && Sourced(cs, found', idx', src') &&
        FoundUpTo(cs, found', g, i + 1)
    {
      var pos, loc := Lookup(cs[i]).value.0, Lookup(cs[i]).value.1;
      var found', idx', src' := found[i := true], idx[pos := Point(loc)], src[pos := i];
      assert Looked(cs, found', |idx'|);
      assert Covered(cs, found', idx');
    }

    /** at(**coords): one entry per stacked axis, the closest position along
        each named axis, the whole dimension elsewhere. */
    method At(coords: seq<Coord>) returns (r: Result<seq<Loc>>)
      requires Valid() && DistinctNames(coords)
      ensures r.Ok? <==> Locatable(coords) && Missing(grids, coords) == []
      ensures Locatable(coords) && Missing(grids, coords) != [] ==> r == Err(InvalidGridNames(Missing(grids, coords)))
      ensures !Locatable(coords) ==> r.Err? && (r.error == EmptySequence || r.error == IndexOutOfRange)
      ensures r.Ok? ==> |r.value| == AxesIn(grids, 0, |grids|)
      ensures r.Ok? && DistinctPositions(coords) ==>
        forall i :: 0 <= i < |coords| ==> r.value[Lookup(coords[i]).value.0] == Point(Lookup(coords[i]).value.1)
      ensures r.Ok? ==> forall q :: 0 <= q < |r.value| && r.value[q] != All ==>
        exists i :: 0 <= i < |coords| && Lookup(coords[i]).Ok? && Lookup(coords[i]).value.0 == q
      ensures r.Ok? && Stacked() ==> r.value == StackIndex(grids, coords)
    {
      var e, idx, found, src := LocateAll(coords);
      if e.Some? {
        return Err(e.value);
      }
      FoundLocatable(coords, found, |idx|);
      var missing := MissingNames(coords, found);
      if |missing| > 0 {
        return Err(InvalidGridNames(missing));
      }
      r := Ok(idx);
      if DistinctPositions(coords) {
        CoveredWritten(coords, found, idx, src);
      }
      SourcedFromCoords(coords, found, idx, src);
      if Stacked() {
        StackedPositionsDistinct(this, coords);
        AtIsStackIndex(this, coords, idx);
      }
    }

    /** Once every coordinate some grid has is found, all of them can be located. */
    lemma FoundLocatable(cs: seq<Coord>, found: seq<bool>, n: nat)
      requires Valid() && |found| == |cs| && n == AxesIn(grids, 0, |grids|)
      requires FoundUpTo(cs, found, |grids|, 0) && Looked(cs, found, n)
      ensures Locatable(cs)
    {
    }

    /** Every written entry of the index is the position of some coordinate. */
    lemma SourcedFromCoords(cs: seq<Coord>, found: seq<bool>, idx: seq<Loc>, src: seq<nat>)
      requires Valid() && |found| == |cs| && |src| == |idx|
      requires Looked(cs, found, |idx|) && Sourced(cs, found, idx, src)
      requires forall i :: 0 <= i < |cs| ==> FirstOwner(grids, cs[i].name) < |grids|
      ensures forall q :: 0 <= q < |idx| && idx[q] != All ==>
        exists i :: 0 <= i < |cs| && Lookup(cs[i]).Ok? && Lookup(cs[i]).value.0 == q
    {
      forall q | 0 <= q < |idx| && idx[q] != All
        ensures exists i :: 0 <= i < |cs| && Lookup(cs[i]).Ok? && Lookup(cs[i]).value.0 == q
      {
        assert Lookup(cs[src[q]]).value.0 == q;
      }
    }

    /** The passes of `at` over every grid in turn. */
    method LocateAll(coords: seq<Coord>) returns (e: Option<Error>, idx: seq<Loc>, found: seq<bool>, ghost src: seq<nat>)
      requires Valid() && DistinctNames(coords)
      ensures e.Some? ==> !Locatable(coords) && (e.value == EmptySequence || e.value == IndexOutOfRange)
      ensures e.None? ==>
        |idx| == AxesIn(grids, 0, |grids|) && |found| == |coords| && |src| == |idx| &&
        FoundUpTo(coords, found, |grids|, 0) &&
        Looked(coords, found, |idx|) && Covered(coords, found, idx) && Sourced(coords, found, idx, src)
    {
      var naxes := AxesIn(grids, 0, |grids|);
      idx := seq(naxes, _ => All);
      found := seq(|coords|, _ => false);
      src := seq(naxes, _ => 0);
      var g := 0;
      while g < |grids|
        invariant 0 <= g <= |grids|
        invariant |idx| == naxes && |found| == |coords| && |src| == naxes
        invariant FoundUpTo(coords, found, g, 0)
        invariant Looked(coords, found, naxes) && Covered(coords, found, idx) && Sourced(coords, found, idx, src)
      {
        e, idx, found, src := LocateIn(g, coords, idx, found, src);
        if e.Some? {
          return;
        }
        g := g + 1;
      }
      e := None;
    }

    /** The names of the coordinates not found, in order. */
    method MissingNames(coords: seq<Coord>, found: seq<bool>) returns (missing: seq<string>)
      requires |found| == |coords| && FoundUpTo(coords, found, |grids|, 0)
      ensures missing == Missing(grids, coords)
    {
      missing := [];
      var i := 0;
      while i < |coords|
        invariant 0 <= i <= |coords|
        invariant missing == Missing(grids, coords[..i])
      {
        assert coords[..i + 1][..i] == coords[..i];
        if !found[i] {
          missing := missing + [coords[i].name];
        }
        i := i + 1;
      }
      assert coords[..i] == coords;
    }

    /** The pass of `at` over one grid: every coordinate not placed yet whose
        axis the grid has is looked up and written into the index. */
    method LocateIn(g: nat, coords: seq<Coord>, idx: seq<Loc>, found: seq<bool>, ghost src: seq<nat>)
      returns (e: Option<Error>, idx': seq<Loc>, found': seq<bool>, ghost src': seq<nat>)
      requires Valid() && g < |grids| && DistinctNames(coords)
      requires |idx| == AxesIn(grids, 0, |grids|) && |found| == |coords| && |src| == |idx|
      requires FoundUpTo(coords, found, g, 0)
      requires Looked(coords, found, |idx|) && Covered(coords, found, idx) && Sourced(coords, found, idx, src)
      ensures e.Some? ==> !Locatable(coords) && (e.value == EmptySequence || e.value == IndexOutOfRange)
      ensures e.None? ==>
        |idx'| == |idx| && |found'| == |coords| && |src'| == |idx| && FoundUpTo(coords, found', g + 1, 0) &&
        Looked(coords, found', |idx|) && Covered(coords, found', idx') && Sourced(coords, found', idx', src')
    {
      var grid := grids[g];
      idx', found', src' := idx, found, src;
      var i := 0;
      while i < |coords|
        invariant 0 <= i <= |coords|
        invariant |idx'| == |idx| && |found'| == |coords| && |src'| == |idx|
        invariant FoundUpTo(coords, found', g, i)
        invariant Looked(coords, found', |idx|) && Covered(coords, found', idx') && Sourced(coords, found', idx', src')
      {
        if !found'[i] && coords[i].name in grid.layout.names {
          e, idx', found', src' := Visit(g, i, coords, idx', found', src');
          if e.Some? {
            return;
          }
        } else {
          SkipStep(coords, found', g, i);
        }
        i := i + 1;
      }
      e := None;
    }

    /** One coordinate of the pass over grids[g] that the grid owns and that
        no earlier grid had: look it up and write it into the index. */
    method Visit(g: nat, i: nat, coords: seq<Coord>, idx: seq<Loc>, found: seq<bool>, ghost src: seq<nat>)
      returns (e: Option<Error>, idx': seq<Loc>, found': seq<bool>, ghost src': seq<nat>)
      requires Valid() && g < |grids| && DistinctNames(coords) && i < |coords|
      requires |idx| == AxesIn(grids, 0, |grids|) && |found| == |coords| && |src| == |idx|
      requires FoundUpTo(coords, found, g, i) && !found[i] && coords[i].name in grids[g].layout.names
      requires Looked(coords, found, |idx|) && Covered(coords, found, idx) && Sourced(coords, found, idx, src)
      ensures e.Some? ==> !Locatable(coords) && (e.value == EmptySequence || e.value == IndexOutOfRange)
      ensures e.None? ==>
        |idx'| == |idx| && |found'| == |coords| && |src'| == |idx| && FoundUpTo(coords, found', g, i + 1) &&
        Looked(coords, found', |idx|) && Covered(coords, found', idx') && Sourced(coords, found', idx', src')
    {
      var c := coords[i];
      assert FirstOwner(grids, c.name) == g;
      var ix := grids[g].Index(c.name, c.value);
      assert ix == Lookup(c);
      idx', found', src' := idx, found, src;
      if ix.Err? {
        return Some(ix.error), idx', found', src';
      }
      var (axis, loc) := ix.value;
      if axis >= |idx| {
        return Some(IndexOutOfRange), idx', found', src';
      }
      PlaceStep(coords, found, idx, src, g, i);
      found' := found[i := true];
      idx' := idx[axis := Point(loc)];
      src' := src[axis := i];
      e := None;
    }
  }

  /** Inside the `with` block no two axes share a position: `at` then
      places every coordinate. */
  lemma StackedPositionsDistinct(s: GridStack, cs: seq<Coord>)
    requires s.Valid() && s.Stacked() && DistinctNames(cs)
    ensures s.DistinctPositions(cs)
    ensures forall i :: 0 <= i < |cs| && FirstOwner(s.grids, cs[i].name) < |s.grids| ==>
      s.Lookup(cs[i]).Ok? ==> s.Lookup(cs[i]).value.0 < AxesIn(s.grids, 0, |s.grids|)
  {
    forall i | 0 <= i < |cs| && FirstOwner(s.grids, cs[i].name) < |s.grids| && s.Lookup(cs[i]).Ok?
      ensures s.Lookup(cs[i]).value.0 < AxesIn(s.grids, 0, |s.grids|)
    {
      LookupInside(s, cs[i]);
    }
    forall i, j | 0 <= i < |cs| && 0 <= j < |cs| && i != j &&
        FirstOwner(s.grids, cs[i].name) < |s.grids| && FirstOwner(s.grids, cs[j].name) < |s.grids| &&
        s.Lookup(cs[i]).Ok? && s.Lookup(cs[j]).Ok?
      ensures s.Lookup(cs[i]).value.0 != s.Lookup(cs[j]).value.0
    {
      LookupsApart(s, cs[i], cs[j]);
    }
  }

  /** A coordinate that is looked up lands inside the stacked array. */
  lemma LookupInside(s: GridStack, c: Coord)
    requires s.Valid() && s.Stacked() && FirstOwner(s.grids, c.name) < |s.grids| && s.Lookup(c).Ok?
    ensures s.Lookup(c).value.0 < AxesIn(s.grids, 0, |s.grids|)
  {
    LaterGridAfter(s.grids, FirstOwner(s.grids, c.name), |s.grids|);
  }

  /** Coordinates with different names land on different stacked positions. */
  lemma LookupsApart(s: GridStack, c: Coord, c': Coord)
    requires s.Valid() && s.Stacked() && c.name != c'.name
    requires FirstOwner(s.grids, c.name) < |s.grids| && FirstOwner(s.grids, c'.name) < |s.grids|
    requires s.Lookup(c).Ok? && s.Lookup(c').Ok?
    ensures s.Lookup(c).value.0 != s.Lookup(c').value.0
  {
    var gs := s.grids;
    var k, k' := FirstOwner(gs, c.name), FirstOwner(gs, c'.name);
    if k < k' {
      LaterGridAfter(gs, k, k');
    } else if k' < k {
      LaterGridAfter(gs, k', k);
    } else {
      var names := gs[k].layout.names;
      assert names[IndexOf(names, c.name)] != names[IndexOf(names, c'.name)];
    }
  }

  /** Looking a name up in the grid that has it. */
  lemma IndexIs(g: Grid, name: string, value: real)
    requires g.Valid() && name in g.layout.names
    ensures var i := IndexOf(g.layout.names, name);
      var axis := g.layout.axes[i];
      (g.Index(name, value).Ok? <==> |axis| > 0) &&
      (g.Index(name, value).Ok? ==> g.Index(name, value).value == (i + g.stackOffset, ArgMin(Distances(axis, value))))
  {
  }

  /** A grid placed after the grids before it, looking up a name it is the
      first to have: the name's stack position and the position closest to
      the value. */
  lemma StackedLookup(gs: seq<Grid>, c: Coord)
    requires FirstOwner(gs, c.name) < |gs|
    requires gs[FirstOwner(gs, c.name)].Valid()
    requires gs[FirstOwner(gs, c.name)].stackOffset == AxesIn(gs, 0, FirstOwner(gs, c.name))
    ensures var ix := gs[FirstOwner(gs, c.name)].Index(c.name, c.value);
      (ix.Ok? <==> |OwnerAxis(gs, c.name)| > 0) &&
      (ix.Ok? ==> ix.value == (StackPos(gs, c.name), ArgMin(Distances(OwnerAxis(gs, c.name), c.value))))
  {
    IndexIs(gs[FirstOwner(gs, c.name)], c.name, c.value);
  }

  /** Inside the `with` block, coordinates on non-empty axes can all be
      located: `at` then fails only on names no grid has. */
  lemma StackedLocatable(s: GridStack, cs: seq<Coord>)
    requires s.Valid() && s.Stacked() && OwnedAxesNonEmpty(s.grids, cs)
    ensures s.Locatable(cs)
  {
    forall i | 0 <= i < |cs| && FirstOwner(s.grids, cs[i].name) < |s.grids|
      ensures s.Lookup(cs[i]).Ok? && s.Lookup(cs[i]).value.0 < AxesIn(s.grids, 0, |s.grids|)
    {
      StackedLookup(s.grids, cs[i]);
      LookupInside(s, cs[i]);
    }
  }

  /** Inside the `with` block, an index that holds every coordinate's
      looked-up position and nothing else is StackIndex. */
  lemma AtIsStackIndex(s: GridStack, cs: seq<Coord>, idx: seq<Loc>)
    requires s.Valid() && s.Stacked() && DistinctNames(cs)
    requires |idx| == AxesIn(s.grids, 0, |s.grids|) && s.Locatable(cs) && Missing(s.grids, cs) == []
    requires forall i :: 0 <= i < |cs| ==> idx[s.Lookup(cs[i]).value.0] == Point(s.Lookup(cs[i]).value.1)
    requires forall q :: 0 <= q < |idx| && idx[q] != All ==>
      exists i :: 0 <= i < |cs| && s.Lookup(cs[i]).Ok? && s.Lookup(cs[i]).value.0 == q
    ensures idx == StackIndex(s.grids, cs)
  {
    var gs := s.grids;
    forall i | 0 <= i < |cs|
      ensures FirstOwner(gs, cs[i].name) < |gs| && |OwnerAxis(gs, cs[i].name)| > 0 &&
              StackPos(gs, cs[i].name) < |idx| &&
              idx[StackPos(gs, cs[i].name)] == Point(ArgMin(Distances(OwnerAxis(gs, cs[i].name), cs[i].value)))
    {
      StackedLookup(gs, cs[i]);
    }
    forall q | 0 <= q < |idx| && idx[q] != All
      ensures exists i :: 0 <= i < |cs| && StackPos(gs, cs[i].name) == q
    {
      var i :| 0 <= i < |cs| && s.Lookup(cs[i]).Ok? && s.Lookup(cs[i]).value.0 == q;
      StackedLookup(gs, cs[i]);
    }
    IndexIsStackIndex(gs, cs, idx);
  }

  /** An index that holds, at every coordinate's stack position, the
      position closest to its value, and nothing elsewhere, is StackIndex. */
  lemma IndexIsStackIndex(gs: seq<Grid>, cs: seq<Coord>, idx: seq<Loc>)
    requires forall k :: 0 <= k < |gs| ==> gs[k].Valid()
    requires DistinctNames(cs) && |idx| == AxesIn(gs, 0, |gs|)
    requires forall i :: 0 <= i < |cs| ==>
      FirstOwner(gs, cs[i].name) < |gs| && |OwnerAxis(gs, cs[i].name)| > 0 &&
      StackPos(gs, cs[i].name) < |idx| &&
      idx[StackPos(gs, cs[i].name)] == Point(ArgMin(Distances(OwnerAxis(gs, cs[i].name), cs[i].value)))
    requires forall q :: 0 <= q < |idx| && idx[q] != All ==>
      exists i :: 0 <= i < |cs| && StackPos(gs, cs[i].name) == q
    ensures idx == StackIndex(gs, cs)
  {
    forall q | 0 <= q < |idx|
      ensures idx[q] == EntryAt(gs, cs, q)
    {
      if idx[q] != All {
        var i :| 0 <= i < |cs| && StackPos(gs, cs[i].name) == q;
        EntryOf(gs, cs, i);
      } else {
        EntryNone(gs, cs, q);
      }
    }
  }
}
